=== FILE: README.md ===
# any-code core in Dafny

A model of the data structures and algorithms of the JavaScript repository
any-code, with proofs of what each one promises.

- **AVL tree.** The tree from `bst.js`. Nodes cache their height, and an absent child counts as height 0. Rotations and rebalancing happen on the way back up from a recursive insert. Equal keys go left, so the tree holds a multiset. It offers a guided `find` and pre-, in- and post-order walks.
- **Doubly linked list.** `Llist` from `llist.js`, modelled twice:
  - as a sequence of values (`DLList`);
  - as an arena of cells with `next`/`prev` indices (`DLLinks`), which follows the code's pointer updates one for one.

  Refinement lemmas connect the two. Stale-link lemmas show that `pop` and `shift` leave the cells in a state no sequence represents, and show on small lists what later `find` and `deleteByValue` calls then return.
- **Max binary heap.** `MaxBinHeap` from `heaps.js`: an array plus `heapSize`. It has `largest`, recursive `heapify`, `buildHeap`, sift-up `insert`, `extract` and the iterator.
- **Sorting.**
  - The heap, Shell and insertion entries of the sorting factory in `sorting.js`.
  - selection, double-selection, bubble, insert and Shell sort from `sortingalgorithms.js`.
  - The small algorithms in `sortingalgorithms.js`: the 9-bit adders `binAdd`/`binAdd3`, the lattice-path table `pathsB` and the next-warmer-day scan `warmestDay`.
- **BigInt arithmetic.** `fastPow`, `modExp`, `modExpR`, `gcd` and `eulerst` from `math.js`. BigInt `/` and `%` truncate toward zero; this is modelled in `JsNumber`.
- **Mixed-radix odometer.** `CounterBuilder` from `counters.js`: `addCounter`, `create` and `permut`.
- **64-bit big-endian words.** `ObjectBigUint64` from `arrayslike.js`: words over a zero-padded byte buffer. Also the `TBigint` string tag that `ExtMap` uses to carry BigInts through JSON.
- **JSON type-handler registry.** The registry of `CustomJSON` in `utility.js`: the insertion-ordered handler map, `convert`/`toOriginal`, the singleton rule and `isVoid`.
- **Countdown display.** The `display` and `zeroBefore` of `ReverseTimer` in `timers.js`.

JavaScript exceptions are modelled as `Failure` values carrying an `Exception`; `Wrappers` defines the `Result` and `Option` types. Values that JavaScript compares with `<` are integers, and comparator callbacks are total functions. A caller-supplied callback (predicate, step function, handler) is a parameter.

## Model

| member | source | states |
|---|---|---|
| Avl.Leaf | src/js/datastructures/bst.js:4-12 | A new node has no children, keeps its key and has height 1, consistent with its (absent) children |
| Avl.AdjustH | src/js/datastructures/bst.js:22-24 | adjustH keeps the node's key and children; when the children's heights are correct, the node's cached height becomes correct too |
| Avl.CachedHeight | src/js/datastructures/bst.js:14-16 | With cached heights correct, an absent child counts 0 and a node at least 1 |
| Avl.WalksVisitEveryNodeOnce | src/js/datastructures/bst.js:27-58 | Pre-order and post-order visit the same multiset of keys as in-order, so each node exactly once |
| Avl.RightTurn | src/js/datastructures/bst.js:60-69 | A right rotation keeps the in-order key sequence. It moves exactly the two named nodes and recomputes both their heights |
| Avl.LeftTurn | src/js/datastructures/bst.js:71-80 | A left rotation keeps the in-order key sequence. It moves exactly the two named nodes and recomputes both their heights |
| Avl.Balance | src/js/datastructures/bst.js:82-102 | balance keeps the in-order sequence and correct heights, and leaves a node with balance factor other than ±2 unchanged |
| Avl.BalanceRestoresAvl | src/js/datastructures/bst.js:82-102 | With AVL children and a balance factor within ±2, balance yields an AVL tree whose height is the taller child's plus 0 or 1 |
| Avl.RightTurnBalances | src/js/datastructures/bst.js:60-69 | A right rotation of a left-heavy node (left-left case) gives an AVL tree |
| Avl.LeftTurnBalances | src/js/datastructures/bst.js:71-80 | A left rotation of a right-heavy node (right-right case) gives an AVL tree |
| Avl.AddNode | src/js/datastructures/bst.js:120-141 | addNode always returns a node with correct cached heights |
| Avl.AddNodeAddsKey | src/js/datastructures/bst.js:125-136 | Every insertion adds exactly one node: the in-order multiset gains the key, and duplicates are kept |
| Avl.AddNodeKeepsAvl | src/js/datastructures/bst.js:127-136 | Inserting into an AVL tree gives an AVL tree whose height grows by at most 1 |
| Avl.AddNodeInOrder | src/js/datastructures/bst.js:125-136 | Under a total preorder, the in-order sequence after addNode is the old sorted sequence with the key inserted before the first element not smaller than it |
| Avl.InsSorted | src/js/datastructures/bst.js:125 | That reference insertion keeps a sorted sequence sorted and adds the key to its multiset |
| Avl.Find | src/js/datastructures/bst.js:104-117 | find gives null on an empty tree; a key it returns is in the tree and the probe accepts it |
| Avl.FindComplete | src/js/datastructures/bst.js:104-117 | With a probe consistent with the order, find returns a key iff the tree holds a key the probe accepts, and null otherwise |
| Avl.DefaultCompare | src/js/datastructures/bst.js:148 | The default comparator returns only 0 or 1, positive exactly when a > b |
| Avl.DefaultCompareIsTotalPreorder | src/js/datastructures/bst.js:148 | The default comparator is a total preorder, so the sortedness results apply to it |
| Avl.New | src/js/datastructures/bst.js:148-160 | The constructor throws TypeError("Argument must be a function.") exactly for a non-callable comparator; otherwise the tree is empty and keeps the comparator |
| Avl.NewDefault | src/js/datastructures/bst.js:148 | Constructing with the default comparator gives an empty tree |
| Avl.Insert | src/js/datastructures/bst.js:153-159 | insert keeps the comparator and adds the key to the tree's multiset |
| Avl.InsertKeepsValid | src/js/datastructures/bst.js:153-159 | insert keeps the tree AVL-balanced, height-correct and in-order sorted; the new in-order sequence is the reference insertion |
| Avl.InsertAll | src/js/datastructures/bst.js:153-159 | Inserting a sequence of keys adds exactly their multiset |
| Avl.InsertAllKeepsValid | src/js/datastructures/bst.js:153-159 | Any insertion order leaves the tree valid, so in-order traversal is sorted |
| Avl.NormalizeOrder | src/js/datastructures/bst.js:163-168 | The order name is reduced to lower-case ASCII letters and never grows |
| Avl.NormalizeConcat | src/js/datastructures/bst.js:163-168 | Normalising the order name works character by character |
| Avl.Traversal | src/js/datastructures/bst.js:163-168 | traversal fails exactly when the normalised name has no walk. "inorder" visits the in-order sequence, and every real walk visits each node once |
| Avl.SeparatorIgnored | src/js/datastructures/bst.js:163-168 | A non-letter anywhere in the order name makes no difference |
| Avl.CapitalIgnored | src/js/datastructures/bst.js:163-168 | An upper-case letter in the order name acts as its lower-case form |
| Avl.FindByKey | src/js/datastructures/bst.js:170-172 | findByKey returns only keys held by the tree, null on an empty tree, and the root's key whenever the probe answers 0 there, as the default `k => 0` always does |
| DLList.Push | src/js/datastructures/llist.js:167-177 | push appends at the tail, keeps the elements before it and adds 1 to the length |
| DLList.Unshift | src/js/datastructures/llist.js:197-206 | unshift prepends at the head, keeps the elements after it and adds 1 to the length |
| DLList.Pop | src/js/datastructures/llist.js:179-195 | pop gives null on an empty list and leaves it empty; otherwise it returns the last element, and the rest followed by it is the old list |
| DLList.Shift | src/js/datastructures/llist.js:208-224 | shift gives null on an empty list; otherwise it returns the first element, and it followed by the rest is the old list |
| DLList.PopUndoesPush | src/js/datastructures/llist.js:167-224 | pop undoes push and shift undoes unshift |
| DLList.IndexFrom | src/js/datastructures/llist.js:13-23 | The walk from position k finds the first position at or after k that satisfies the predicate, or none if there is none |
| DLList.FirstIndex | src/js/datastructures/llist.js:13-23 | A match exists iff findNode finds one, and what it finds is the first match from the head |
| DLList.Find | src/js/datastructures/llist.js:106-109 | find returns a value iff some element matches, and then the first matching element |
| DLList.RemoveAt | src/js/datastructures/llist.js:226-248 | Unlinking a node removes exactly that position and keeps the order of the rest |
| DLList.RemoveAtMultiset | src/js/datastructures/llist.js:226-248 | Unlinking a node removes one copy of its value from the multiset |
| DLList.Delete | src/js/datastructures/llist.js:150-152 | delete returns true iff some element matches and then removes exactly the first match; otherwise the list is unchanged |
| DLList.DeleteByValue | src/js/datastructures/llist.js:158-160 | deleteByValue returns true iff the value is present and then removes its first occurrence from the head, which takes one copy out of the multiset; otherwise the list is unchanged |
| DLList.GetByIndex | src/js/datastructures/llist.js:162-165 | getByIndex returns a value exactly for 0 <= i < length, and that value is the element at index i |
| DLList.IndexAfterEnds | src/js/datastructures/llist.js:162-206 | After push the new index holds the value and the old ones are unchanged; after unshift every index shifts by one |
| DLList.DelByIndex | src/js/datastructures/llist.js:154-156 | delByIndex returns true exactly for an index inside the list and then removes that position; otherwise the list is unchanged |
| DLList.Swap | src/js/datastructures/llist.js:135-148 | swap succeeds iff both predicates match. It then exchanges the values of the two first matches and keeps everything else; otherwise nothing changes. Either way the values are a permutation |
| DLList.FoldLeftSnoc | src/js/datastructures/llist.js:111-133 | Folding a list one element longer applies the callback once more at the end |
| DLList.Reduce | src/js/datastructures/llist.js:111-133 | reduce with a seed returns the seed on an empty list and one application on a single element |
| DLList.ReduceNoSeed | src/js/datastructures/llist.js:111-133 | reduce without a seed gives nothing on an empty list and the only element on a one-element list |
| DLList.ReduceAfterPush | src/js/datastructures/llist.js:111-133 | reduce folds from the head: after a push it is the callback applied to the old result and the new value |
| DLList.ReduceNoSeedAfterPush | src/js/datastructures/llist.js:111-133 | Without a seed, the head is the seed and the fold runs over the rest |
| DLList.Destroy | src/js/datastructures/llist.js:250-256 | destroy leaves length 0 |
| DLList.DestroyedIsReusable | src/js/datastructures/llist.js:250-256 | A destroyed list pops null, and a push or unshift afterwards gives a one-element list |
| DLLinks.InsertAfter | src/js/datastructures/llist.js:67-75 | insertAfter allocates a cell whose prev is the node, points the node's next at it and changes nothing else |
| DLLinks.InsertBefore | src/js/datastructures/llist.js:57-65 | insertBefore allocates a cell whose next is the node, points the node's prev at it and changes nothing else |
| DLLinks.Push | src/js/datastructures/llist.js:167-177 | push makes the new cell the tail and adds 1 to the length |
| DLLinks.Unshift | src/js/datastructures/llist.js:197-206 | unshift makes the new cell the head and adds 1 to the length |
| DLLinks.Pop | src/js/datastructures/llist.js:179-195 | pop returns null on an empty list; otherwise it returns the tail's data and subtracts 1 from the length, without touching any cell |
| DLLinks.Shift | src/js/datastructures/llist.js:208-224 | shift returns null on an empty list; otherwise it returns the head's data and subtracts 1 from the length, without touching any cell |
| DLLinks.PopFixed | src/js/datastructures/llist.js:179-195 | pop with the new tail's next cleared succeeds exactly when pop does, with the same value and length |
| DLLinks.ShiftFixed | src/js/datastructures/llist.js:208-224 | shift with the new head's prev cleared succeeds exactly when shift does, with the same value and length |
| DLLinks.FindNode | src/js/datastructures/llist.js:13-23 | findNode returns null or a cell whose data satisfies the predicate |
| DLLinks.Find | src/js/datastructures/llist.js:106-109 | find returns only values that satisfy the predicate |
| DLLinks.RemoveNode | src/js/datastructures/llist.js:226-248 | #removeNode returns false and changes nothing for null; otherwise true with length one less |
| DLLinks.Delete | src/js/datastructures/llist.js:150-152 | delete on the cells keeps the list well formed; false leaves it as it was, true removes one cell from the count (which one is stated by DLLinksRepr.DeleteRefines) |
| DLLinks.DeleteByValue | src/js/datastructures/llist.js:158-160 | deleteByValue is delete with the test `v => value === v`: the list stays well formed, false leaves it as it was, true removes one cell from the count |
| DLLinks.GetByIndex | src/js/datastructures/llist.js:162-165 | getByIndex returns a value exactly when #findByindex finds a cell |
| DLLinks.DelByIndex | src/js/datastructures/llist.js:154-156 | delByIndex returns true exactly when #findByindex finds a cell |
| DLLinks.Swap | src/js/datastructures/llist.js:135-148 | swap keeps the head, tail, length and all links; if it fails nothing changes |
| DLLinks.ReduceNoSeed | src/js/datastructures/llist.js:111-133 | reduce without a seed on an empty list returns nothing |
| DLLinks.Reduce | src/js/datastructures/llist.js:111-133 | reduce with a seed on an empty list returns the seed (the fold over the cells is stated by DLLinksRepr.ReduceRefines) |
| DLLinks.Destroy | src/js/datastructures/llist.js:250-256 | destroy leaves a well-formed empty list with null head and tail |
| DLLinksRepr.EmptyRepr | src/js/datastructures/llist.js:97-100 | A new list is well formed, has null head and tail, and represents the empty sequence |
| DLLinksRepr.DestroyRepr | src/js/datastructures/llist.js:250-256 | A destroyed list represents the empty sequence |
| DLLinksRepr.PushRefines | src/js/datastructures/llist.js:167-177 | On the cells, push implements push on the sequence of values |
| DLLinksRepr.UnshiftRefines | src/js/datastructures/llist.js:197-206 | On the cells, unshift implements unshift on the sequence of values |
| DLLinksRepr.PopFixedRefines | src/js/datastructures/llist.js:179-195 | pop, with the dangling next cleared, implements pop on the sequence of values |
| DLLinksRepr.ShiftFixedRefines | src/js/datastructures/llist.js:208-224 | shift, with the dangling prev cleared, implements shift on the sequence of values |
| DLLinksRepr.FindNodeFollowsIds | src/js/datastructures/llist.js:13-23 | Walking next pointers from the k-th cell finds the first match at or after position k |
| DLLinksRepr.FindRefines | src/js/datastructures/llist.js:106-109 | find on the cells equals find on the sequence of values |
| DLLinksRepr.RemoveNodeRefines | src/js/datastructures/llist.js:226-248 | Unlinking the j-th cell removes position j from the sequence and keeps the list well linked |
| DLLinksRepr.DeleteRefines | src/js/datastructures/llist.js:150-152 | delete on the cells has the same result and effect as delete on the sequence |
| DLLinksRepr.DeleteByValueRefines | src/js/datastructures/llist.js:150-160 | deleteByValue on the cells has the same answer as on the sequence; false leaves the cells alone, and true leaves cells that represent the sequence with the value's first occurrence removed |
| DLLinksRepr.GoRightFollowsIds | src/js/datastructures/llist.js:26-39 | The forward index walk reaches the cell at the requested index |
| DLLinksRepr.GoLeftFollowsIds | src/js/datastructures/llist.js:41-54 | The backward index walk reaches the cell at the requested index |
| DLLinksRepr.FindByIndexRefines | src/js/datastructures/llist.js:25-55 | findByInd returns the cell at the index, or null outside the list; getByIndex agrees with the sequence |
| DLLinksRepr.DelByIndexRefines | src/js/datastructures/llist.js:154-156 | delByIndex on the cells has the same result and effect as on the sequence |
| DLLinksRepr.SwapRefines | src/js/datastructures/llist.js:135-148 | swap on the cells has the same result and effect as swap on the sequence |
| DLLinksRepr.FoldFromFollowsIds | src/js/datastructures/llist.js:78-85 | The head-to-tail walk from the k-th cell folds the values from position k on |
| DLLinksRepr.ReduceRefines | src/js/datastructures/llist.js:111-133 | reduce with a seed on the cells equals the left fold of the sequence |
| DLLinksRepr.ReduceNoSeedRefines | src/js/datastructures/llist.js:111-133 | reduce without a seed on the cells equals the seedless fold of the sequence |
| DLLinksStale.PopLeavesStaleNext | src/js/datastructures/llist.js:179-195 | After push 1, push 2 and pop, the popped 2 is still found from the head. deleteByValue(2) succeeds and leaves length 0, yet 1 is still reachable |
| DLLinksStale.PopLeavesNoRepr | src/js/datastructures/llist.js:179-195 | On every well-formed list of two or more, pop leaves the new tail's next pointing at the removed cell, so no sequence of cells represents the result |
| DLLinksRepr.ReprTailEnds | src/js/datastructures/llist.js:97-100 | The tail of any represented list has no next node |
| DLLinksRepr.ReprHeadStarts | src/js/datastructures/llist.js:97-100 | The head of any represented list has no previous node |
| DLLinksStale.ShiftLeavesNoRepr | src/js/datastructures/llist.js:208-224 | On every well-formed list of two or more, shift leaves the new head's prev pointing at the removed cell, so no sequence of cells represents the result |
| DLLinksStale.ShiftThenDeleteKeepsHead | src/js/datastructures/llist.js:208-248 | After push 1, 2, 3 and shift, deleteByValue(2) answers true and drops the length to 1, yet the head stays on the deleted cell and find(x => x == 2) still returns 2 |
| DLLinksStale.ShiftFixedThenDeleteDropsValue | src/js/datastructures/llist.js:208-248 | With the new head's prev cleared, the same deleteByValue(2) moves the head to 3 and 2 is no longer found |
| DLLinksStale.PopFixedDropsLink | src/js/datastructures/llist.js:179-195 | With the link cleared, the popped value is no longer found and deleteByValue of it fails |
| HeapOrder.Largest | src/js/algorithms/sorting.js:75-90 | The largest of a node and its in-range children is one of them, at least as big as each, and differs from the node only when strictly bigger |
| HeapOrder.ChildSubtree | src/js/datastructures/heaps.js:195-209 | A node's subtree contains its children's subtrees |
| HeapOrder.RootIsMax | src/js/datastructures/heaps.js:154-173 | In a max-heap the root is at least every element |
| HeapOrder.SiftDown | src/js/datastructures/heaps.js:240-253 | heapify permutes the array and changes only the node's subtree; if the subtrees below were heaps, the subtree at the node becomes one, with the largest value at the top |
| HeapOrder.SiftUpStep | src/js/datastructures/heaps.js:133-143 | Swapping a node above its parent moves the single heap violation up to the parent |
| HeapOrder.SiftUpDone | src/js/datastructures/heaps.js:133-143 | When the node is the root or no bigger than its parent, the heap property holds everywhere |
| HeapOrder.LeavesAreHeaps | src/js/datastructures/heaps.js:99-108 | The positions from heapSize/2 on are leaves and trivially heaps |
| HeapOrder.RootMovesOut | src/js/datastructures/heaps.js:154-173 | Swapping the root to the end leaves heaps below the new root inside the shrunk heap |
| MaxBinHeap.Iterate | src/js/datastructures/heaps.js:34-39 | The iterator yields arr[0..heapSize) in index order and nothing past heapSize |
| MaxBinHeap.GetParent | src/js/datastructures/heaps.js:184-187 | getParent gives ⌊(i−1)/2⌋ when in range. The truncating `~~` makes the root its own parent; a negative index gives null |
| MaxBinHeap.GetLeftChild | src/js/datastructures/heaps.js:195-198 | getLeftChild gives 2i+1 exactly when that index is in the heap, else null |
| MaxBinHeap.GetRightChild | src/js/datastructures/heaps.js:206-209 | getRightChild gives 2i+2 exactly when that index is in the heap, else null |
| MaxBinHeap.ParentOfChild | src/js/datastructures/heaps.js:184-209 | Every non-root index in the heap is a child of its parent |
| MaxBinHeap.ChildOfParent | src/js/datastructures/heaps.js:184-209 | Every child in the heap has its node as parent |
| MaxBinHeap.Largest | src/js/datastructures/heaps.js:56-80 | largest throws its RangeError exactly for an index outside the heap. Otherwise it returns the node or an in-range child, at least as big as each of them, keeping the node on ties |
| MaxBinHeap.GetValue | src/js/datastructures/heaps.js:88-94 | getValue returns the element exactly for an index inside the heap, else throws its RangeError |
| MaxBinHeap.Swap | src/js/datastructures/heaps.js:219-232 | swap exchanges exactly the two positions when both are inside the heap, else throws RangeError with its message |
| MaxBinHeap.Heapify | src/js/datastructures/heaps.js:240-253 | heapify throws exactly for a bad index, with the wrapped message. Otherwise it permutes the heap, changes only the subtree, and makes the subtree a heap if the ones below were |
| MaxBinHeap.BuildHeap | src/js/datastructures/heaps.js:99-108 | buildHeap leaves a valid max-heap whose elements are a permutation of the old ones, and slots past heapSize unchanged |
| MaxBinHeap.New | src/js/datastructures/heaps.js:16-28 | The constructor builds a valid heap over the whole array, a permutation of the input |
| MaxBinHeap.Insert | src/js/datastructures/heaps.js:117-146 | insert with no argument throws. Otherwise it adds the value to the multiset, returns heapSize+1, grows the array only when it was full, and keeps the heap property |
| MaxBinHeap.SiftUp | src/js/datastructures/heaps.js:130-143 | Sift-up permutes the heap prefix and turns a heap with one violation into a heap |
| MaxBinHeap.Extract | src/js/datastructures/heaps.js:154-173 | extract returns undefined exactly on an empty heap. Otherwise it returns the old root, which is the maximum, parks it just past the new heapSize, and keeps the rest a heap |
| SortSpec.AdjacentSorted | src/js/algorithms/sorting.js:95-116 | No adjacent pair out of order means sorted |
| SortSpec.NextStep | src/js/algorithms/sorting.js:126-133 | `callback(step) \|\| 1` is at least 1, and below the step while the step is above 1 |
| SortSpec.Swap | src/js/algorithms/sortingalgorithms.js:79-82 | Exchanging two positions leaves all others unchanged and permutes the array |
| SortSpec.GapPass | src/js/algorithms/sortingalgorithms.js:132-151 | A gap pass permutes the array, and a gap-1 pass leaves it ascending |
| SortSpec.SiftBack | src/js/algorithms/sortingalgorithms.js:140-146 | Moving one element back by the gap permutes the array; with gap 1 it extends the sorted prefix by one |
| SortingAlgorithms.SelectionSort | src/js/algorithms/sortingalgorithms.js:70-84 | selectionSort leaves an ascending permutation of the input |
| SortingAlgorithms.PlaceMinMax | src/js/algorithms/sortingalgorithms.js:100-107 | Moving the min to start and the max to end, with the max==start fix-up, permutes the array |
| SortingAlgorithms.PlaceMinMaxBounds | src/js/algorithms/sortingalgorithms.js:100-107 | After the fix-up, start holds the round's min and end its max, and positions outside the round are unchanged |
| SortingAlgorithms.ScanMinMax | src/js/algorithms/sortingalgorithms.js:89-99 | The scan finds positions of a minimum and a maximum of the round's range |
| SortingAlgorithms.RoundKeepsEndsFinal | src/js/algorithms/sortingalgorithms.js:89-107 | Each round makes its two ends final, so the finished part grows from both sides |
| SortingAlgorithms.DoubleSelectionSort | src/js/algorithms/sortingalgorithms.js:86-109 | doubleSelectionSort leaves an ascending permutation of the input |
| SortingAlgorithms.BubblePass | src/js/algorithms/sortingalgorithms.js:112-118 | A bubble pass up to len carries a maximum of the prefix to len, permutes the prefix and leaves the rest alone |
| SortingAlgorithms.PassExtendsSuffix | src/js/algorithms/sortingalgorithms.js:111-120 | After the pass with bound len, the suffix from len on is final |
| SortingAlgorithms.BubbleSort | src/js/algorithms/sortingalgorithms.js:111-120 | bubbleSort leaves an ascending permutation of the input |
| SortingAlgorithms.InsertSort | src/js/algorithms/sortingalgorithms.js:122-130 | insertSort leaves an ascending permutation of the input |
| SortingAlgorithms.ClosureSteps | src/js/algorithms/sortingalgorithms.js:133-150 | The closure's gaps are all at least 1 and the last one is 1 |
| SortingAlgorithms.ClosureMatchesFactory | src/js/algorithms/sortingalgorithms.js:133-150 | For length above 1 the closure's gaps are those of the factory's step generator |
| SortingAlgorithms.ShellSortClosure | src/js/algorithms/sortingalgorithms.js:132-151 | shellSort always ends with a gap-1 pass and leaves an ascending permutation |
| SortingFactory.SwapEntries | src/js/algorithms/sorting.js:25-28 | Sorting.swap exchanges the two positions and leaves all others unchanged, so the result is a permutation of the array and swapping the same pair again restores it |
| SortingFactory.Heapify | src/js/algorithms/sorting.js:75-93 | A falsy heapSize means the whole array. heapify permutes the heap prefix, keeps the rest, and sinks the node into a heap when the subtrees below were heaps |
| SortingFactory.BuildHeap | src/js/algorithms/sorting.js:95-103 | buildHeap leaves a max-heap over the whole array, a permutation of the input |
| SortingFactory.HeapSortStep | src/js/algorithms/sorting.js:111-113 | Each swap-and-heapify round moves the maximum into the final sorted suffix |
| SortingFactory.HeapSort | src/js/algorithms/sorting.js:105-116 | Heap sort never finishes on an empty array. On any other array it returns an ascending permutation |
| SortingFactory.HalfDownShrinks | src/js/algorithms/sorting.js:122-124 | The default step callback len/2 shrinks every step above 1 |
| SortingFactory.Steps | src/js/algorithms/sorting.js:126-133 | The step generator yields nothing for length at most 1. Otherwise its steps are strictly decreasing, below the length, and end with 1 |
| SortingFactory.DefaultStepsHalve | src/js/algorithms/sorting.js:122-133 | With the default callback each step is the previous one halved, or 1 |
| SortingFactory.ShellSort | src/js/algorithms/sorting.js:135-167 | Shell sort returns an ascending permutation and leaves arrays of length at most 1 unchanged |
| SortingFactory.InsertKey | src/js/algorithms/sorting.js:179-186 | The inner loop moves the key before the larger elements in front of it and shifts them up by one |
| SortingFactory.InsertKeyPermutes | src/js/algorithms/sorting.js:179-186 | Moving the key is a permutation |
| SortingFactory.InsertKeySorts | src/js/algorithms/sorting.js:179-186 | Moving the key into a sorted prefix extends the sorted prefix by one |
| SortingFactory.InsertKeyMoves | src/js/algorithms/sorting.js:179-186 | Elements in front of the key keep their values and relative order |
| SortingFactory.InsertionPasses | src/js/algorithms/sorting.js:178-187 | Outer passes from a given index permute the array. They sort it iff the prefix before that index was already sorted |
| SortingFactory.InsertionSort | src/js/algorithms/sorting.js:171-190 | Insertion sort as written permutes the array, and the result is sorted iff the first two elements were in order |
| SortingFactory.InsertionSortFromOne | src/js/algorithms/sorting.js:171-190 | Starting the outer loop at index 1 returns an ascending permutation |
| SmallAlgorithms.LowBound | src/js/algorithms/sortingalgorithms.js:212-231 | The last k bits denote a number below 2^k |
| SmallAlgorithms.LowInjective | src/js/algorithms/sortingalgorithms.js:212-231 | Equal values mean equal bits |
| SmallAlgorithms.ValueInjective | src/js/algorithms/sortingalgorithms.js:212-231 | Two bit arrays of one length with equal value are equal |
| SmallAlgorithms.Pad | src/js/algorithms/sortingalgorithms.js:253-270 | For binAdd3, whose `&&` and `||` treat a missing position as falsy, missing positions of a shorter array read as 0; the result has the 9 positions the adder uses |
| SmallAlgorithms.FirstRoundAsWritten | src/js/algorithms/sortingalgorithms.js:217-225 | Position by position, the round on the shared positions writes the `arr[i]` that `n[i] && m[i]` and `+!!(m[i] + n[i])` give, with `undefined` past an operand's end (`NaN`, so 0), and carries exactly where both bits are 1 |
| SmallAlgorithms.And | src/js/algorithms/sortingalgorithms.js:218 | A position is 1 exactly when both inputs are 1 there |
| SmallAlgorithms.XorAndSum | src/js/algorithms/sortingalgorithms.js:212-231 | Sum without carries plus twice the carries equals the sum of the inputs |
| SmallAlgorithms.CarryShift | src/js/algorithms/sortingalgorithms.js:218-224 | The carry word is the carries shifted one position up |
| SmallAlgorithms.RoundKeepsSum | src/js/algorithms/sortingalgorithms.js:212-231 | One adder round keeps the sum modulo 2^9, dropping the overflow carry |
| SmallAlgorithms.CarryMovesUp | src/js/algorithms/sortingalgorithms.js:226-229 | While there are carries the lowest carry moves up, so the rounds end |
| SmallAlgorithms.FinalRound | src/js/algorithms/sortingalgorithms.js:226-230 | With no carries left, the plain sum is (m + n) mod 2^9 |
| SmallAlgorithms.AddRounds | src/js/algorithms/sortingalgorithms.js:212-231 | The repeated rounds return the 9-bit sum modulo 2^9 |
| SmallAlgorithms.BinAdd | src/js/algorithms/sortingalgorithms.js:212-231 | binAdd returns 9 bits denoting the sum mod 2^9 of the positions both operands have; for operands of 9 or more bits, (m + n) mod 2^9 |
| SmallAlgorithms.ShortOperandDiffers | src/js/algorithms/sortingalgorithms.js:212-270 | binAdd([], [0,0,0,0,0,0,0,0,1]) is nine zeros, while the padded operands binAdd3 adds sum to 1 |
| SmallAlgorithms.AdderPosition | src/js/algorithms/sortingalgorithms.js:255-267 | Each position adds its two bits and the carry already stored there. It writes the sum bit and carries into the position above, or into the dropped bit at the top |
| SmallAlgorithms.Ripple | src/js/algorithms/sortingalgorithms.js:253-270 | The ripple-carry loop's 9 bits plus the dropped carry denote m + n |
| SmallAlgorithms.AdderResult | src/js/algorithms/sortingalgorithms.js:253-270 | The ripple result equals any 9-bit array denoting (m + n) mod 2^9 |
| SmallAlgorithms.BinAdd3 | src/js/algorithms/sortingalgorithms.js:253-270 | binAdd3 returns (m + n) mod 2^9 with missing positions as 0. This equals binAdd on the padded operands, and equals binAdd itself when both operands have 9 or more bits |
| SmallAlgorithms.PathsBinomial | src/js/algorithms/sortingalgorithms.js:303-313 | The path count P(x, y) is the binomial coefficient (x+y)!/(x!·y!) |
| SmallAlgorithms.PathsSymmetric | src/js/algorithms/sortingalgorithms.js:303-313 | The path count is symmetric in x and y |
| SmallAlgorithms.SetAt | src/js/algorithms/sortingalgorithms.js:307-309 | Writing one past the end of a row appends, writing inside replaces; other cells are unchanged |
| SmallAlgorithms.FillRow | src/js/algorithms/sortingalgorithms.js:305-311 | Filling row x from row x−1 gives the path counts in the first n cells and keeps the cells beyond |
| SmallAlgorithms.PathsB | src/js/algorithms/sortingalgorithms.js:303-313 | pathsB throws TypeError exactly when n exceeds the number of rows. Thrown or not, the table is changed in place: cell [x][y] of every existing row x < n holds the path count for y < n, and every other cell keeps its value |
| SmallAlgorithms.FirstWarmerUnique | src/js/algorithms/sortingalgorithms.js:328-333 | The distance to the first warmer day is unique |
| SmallAlgorithms.FirstWarmerExists | src/js/algorithms/sortingalgorithms.js:328-333 | A day with a later warmer day has a first such day |
| SmallAlgorithms.ScanWarmer | src/js/algorithms/sortingalgorithms.js:328-333 | The inner scan finds a warmer day iff one exists, and then the distance to the first |
| SmallAlgorithms.WarmestDay | src/js/algorithms/sortingalgorithms.js:323-336 | warmestDay lists, day by day, the distance to the first warmer day, skipping days that have none |
| JsNumber.TruncDiv | src/js/math/math.js:59-75 | The BigInt quotient leaves a remainder smaller than the divisor with the sign of the dividend |
| JsNumber.TruncRem | src/js/math/math.js:64 | The BigInt remainder completes the quotient and has the sign of the dividend |
| JsNumber.TruncAgreesOnNaturals | src/js/math/math.js:104-114 | For a non-negative dividend and positive divisor the truncating and Euclidean operators agree |
| JsMath.PowSquare | src/js/math/math.js:62-72 | Squaring the base halves the exponent |
| JsMath.FastPowStep | src/js/math/math.js:62-72 | Each loop step keeps tmp·x^p invariant |
| JsMath.FastPow | src/js/math/math.js:46-76 | fastPow(n, p) is n^p for p >= 0, with p defaulting to 2. A negative p gives the truncated quotient 1/n^|p|, and RangeError for n = 0 |
| JsMath.NegativeExponent | src/js/math/math.js:59-75 | 1/n^k truncated is 1 for n = 1, ±1 for n = −1 by parity, and 0 otherwise |
| JsMath.PowMod | src/js/math/math.js:99-116 | Reducing the base modulo m leaves a^k mod m unchanged |
| JsMath.ModExp | src/js/math/math.js:89-117 | modExp rejects negative a, p or m with an Error, and gives 1 for p = 0 even when m = 1. With m = 0 it throws RangeError; otherwise it gives a^p mod m and agrees with modExpR |
| JsMath.ModExpR | src/js/math/math.js:129-139 | modExpR fails exactly when p > 0 and m = 0, with a division-by-zero RangeError |
| JsMath.ModExpRValue | src/js/math/math.js:129-139 | For m > 0, modExpR returns 1 for p = 0 and a^p mod m otherwise |
| JsMath.Gcd | src/js/math/math.js:148-150 | gcd(n, 0) = n |
| JsMath.GcdDivides | src/js/math/math.js:148-150 | gcd divides both arguments |
| JsMath.GcdGreatest | src/js/math/math.js:148-150 | Every common divisor divides the gcd |
| JsMath.GcdNatural | src/js/math/math.js:148-150 | The gcd of naturals is a natural |
| JsMath.CoprimeBelowStep | src/js/math/math.js:161-165 | Each loop step counts i exactly when gcd(n, i) = 1 |
| JsMath.Eulerst | src/js/math/math.js:159-168 | eulerst(n) is the number of i in [1, n) with gcd(n, i) = 1: 0 for n <= 1, else between 1 and n−1 |
| Counters.AddCounter | src/js/algorithms/counters.js:43-56 | addCounter succeeds iff the dictionary has elements and start is a number indexing one of them. Otherwise it throws the matching message; on success the pair is appended and validity kept |
| Counters.AddDefaultCounter | src/js/algorithms/counters.js:23-43 | With the default 62-character dictionary, only the start is checked |
| Counters.Create | src/js/algorithms/counters.js:67-75 | create resets the builder to empty, and the counter it returns is valid when the builder was |
| Counters.AddAllCreate | src/js/algorithms/counters.js:43-75 | After successful addCounter calls, create holds one dictionary per call in call order, valid, and empties the builder |
| Counters.Combo | src/js/algorithms/counters.js:112-123 | The current set holds, for each dictionary, the element its counter points at |
| Counters.LastSet | src/js/algorithms/counters.js:101 | lastSet holds the last element of every dictionary |
| Counters.MaxLength | src/js/algorithms/counters.js:96 | Math.max over the lengths: at least every length, and −Infinity (−1 here) for none |
| Counters.CounterBits | src/js/algorithms/counters.js:94-98 | The counters are 32-bit exactly when some dictionary is longer than 255, else 8-bit |
| Counters.CountersFit | src/js/algorithms/counters.js:94-98 | The chosen width holds every counter value, one past the last index included |
| Counters.BumpLast | src/js/algorithms/counters.js:114-117 | Advancing the last counter moves one step forward in odometer order |
| Counters.Carry | src/js/algorithms/counters.js:125-137 | A carry (reset a full counter, advance the one before) keeps the odometer position |
| Counters.RankInjective | src/js/algorithms/counters.js:107-145 | Distinct counter states have distinct odometer positions, so none is visited twice |
| Counters.RankBelowTotal | src/js/algorithms/counters.js:107-145 | Every valid counter state is before the end of the odometer |
| Counters.Sweep | src/js/algorithms/counters.js:114-123 | The inner loop hands the predicate consecutive combinations and stops at the first accepted one or when the last counter is full |
| Counters.CarryOut | src/js/algorithms/counters.js:125-137 | The carry loop keeps the odometer position, or reports overflow when every combination has been seen |
| Counters.Permut | src/js/algorithms/counters.js:92-145 | permut visits combinations consecutively in odometer order from the start, each once. It returns the first one the predicate accepts, else lastSet after the first counter overflows; no dictionaries throws TypeError |
| Counters.TraceCovers | src/js/algorithms/counters.js:107-145 | Every combination between the start and the stopping point was handed to the predicate |
| Counters.OutcomeIsFirst | src/js/algorithms/counters.js:107-145 | If some combination at or after the start is accepted, permut returns an accepted one no later than it |
| ArraysLike.PadLength | src/js/datastructures/arrayslike.js:30-36 | The padding is below 8 and brings the byte length to a multiple of 8 |
| ArraysLike.Construct | src/js/datastructures/arrayslike.js:26-48 | A buffer gets fewer than 8 leading zero bytes, reaching a multiple of 8 with the data after them. A count n >= 0 gives n zero words; a negative count throws TypeError |
| ArraysLike.PaddingKeepsValue | src/js/datastructures/arrayslike.js:30-36 | Front padding keeps the big-endian value of the data |
| ArraysLike.Encode | src/js/datastructures/arrayslike.js:79-85 | Writing a number gives exactly the requested number of bytes |
| ArraysLike.BigEndianBound | src/js/datastructures/arrayslike.js:65-71 | k bytes denote a number below 256^k |
| ArraysLike.DecodeEncode | src/js/datastructures/arrayslike.js:65-85 | Reading back a written number that fits gives the number |
| ArraysLike.EncodeDecode | src/js/datastructures/arrayslike.js:65-85 | Writing back a read value gives the same bytes |
| ArraysLike.LeadingZeros | src/js/datastructures/arrayslike.js:30-36 | Leading zero bytes do not change a big-endian value |
| ArraysLike.GetValue | src/js/datastructures/arrayslike.js:65-71 | getValue succeeds exactly for 0 <= i < length with the big-endian 64-bit value of bytes 8i..8i+7, else throws RangeError |
| ArraysLike.SetValue | src/js/datastructures/arrayslike.js:79-85 | setValue succeeds exactly for 0 <= i < length and changes only bytes 8i..8i+7, else throws RangeError |
| ArraysLike.SetThenGet | src/js/datastructures/arrayslike.js:65-85 | After setValue(i, v), getValue(i) is v mod 2^64 |
| ArraysLike.SetKeepsOthers | src/js/datastructures/arrayslike.js:65-85 | setValue(i, v) leaves every other word unchanged |
| ArraysLike.GetUint8 | src/js/datastructures/arrayslike.js:93-99 | getUint8 is range-checked against byteLength |
| ArraysLike.SetUint8 | src/js/datastructures/arrayslike.js:107-113 | setUint8 is range-checked against byteLength, stores v mod 256 and changes exactly one byte |
| ArraysLike.Map | src/js/datastructures/arrayslike.js:158-166 | map returns length results, the callback applied to each word and its index, in index order |
| ArraysLike.FilterUint8 | src/js/datastructures/arrayslike.js:174-186 | filterUint8 returns, in index order, exactly the bytes the callback accepts. The result equals an independent recursive definition, and the indices it picks are increasing, accepted and complete |
| ArraysLike.Replace | src/js/datastructures/arrayslike.js:259-265 | stringify writes a BigInt as its decimal digits followed by TBigint and leaves strings alone |
| ArraysLike.Revive | src/js/datastructures/arrayslike.js:276-283 | parse keeps strings without the tag and turns every tagged string into a BigInt or a SyntaxError |
| ArraysLike.TagRoundTrip | src/js/datastructures/arrayslike.js:259-283 | A BigInt, or a string without the tag, survives stringify then parse |
| Decimal.NatToString | src/js/datastructures/arrayslike.js:261-263 | A natural prints as digits with no leading zero, one digit exactly below 10 |
| Decimal.ParseBigInt | src/js/datastructures/arrayslike.js:278-280 | BigInt(s) succeeds exactly for the empty string or an optionally signed run of digits |
| Decimal.NatRoundTrip | src/js/timers/timers.js:95-97 | The digits of a natural read back as the natural |
| Decimal.IntRoundTrip | src/js/datastructures/arrayslike.js:259-283 | BigInt(String(i)) is i |
| Decimal.IntToStringInjective | src/js/datastructures/arrayslike.js:259-265 | Distinct integers print differently |
| Utility.IsVoidExactly | src/js/utility/utility.js:63-69 | isVoid is true exactly for undefined, null, NaN, Infinity and −Infinity |
| Utility.Names | src/js/utility/utility.js:321 | getTypeNames lists the names in insertion order |
| Utility.IndexOf | src/js/utility/utility.js:122 | The map position of a name: the first entry with it, or −1 when absent |
| Utility.Get | src/js/utility/utility.js:122 | handlers.get finds the handler stored under the name, and nothing exactly when the name is absent |
| Utility.HasType | src/js/utility/utility.js:329 | hasType(t) holds iff t is a registered name |
| Utility.Put | src/js/utility/utility.js:255 | Map.set stores the handler under the name and changes no other name. An existing name keeps its place; a new one goes last |
| Utility.Delete | src/js/utility/utility.js:277 | Map.delete removes the name, changes no other name and keeps the order of the rest |
| Utility.WithoutAppend | src/js/utility/utility.js:277 | Deleting names from a concatenation deletes them from each part |
| Utility.WithoutTwice | src/js/utility/utility.js:276-279 | Deleting the names one at a time equals deleting them all |
| Utility.Dedup | src/js/utility/utility.js:321 | The first-occurrence order of a list of names, the order in which a `Map` that is set name by name lists its keys: it holds exactly the names of the list |
| Utility.AddHandlers | src/js/utility/utility.js:254-257 | addHandlers writes each entry in turn: a name given twice ends with its last handler, others keep theirs. Old names keep their places in front. The names, as getTypeNames lists them, are the old names followed by the given names in order of first occurrence, each listed once |
| Utility.RemoveByName | src/js/utility/utility.js:276-279 | removeByName deletes exactly the given names, a no-op for absent ones, and keeps the order of the rest |
| Utility.RemoveAll | src/js/utility/utility.js:264-267 | removeAll leaves no names and no handlers |
| Utility.NewHandlers | src/js/utility/utility.js:287-292 | newHandlers leaves exactly the given names, in order of first occurrence and each with its last given handler, whatever was registered before |
| Utility.ReplaceHandler | src/js/utility/utility.js:304-314 | replaceHandler changes only an existing entry and only the components supplied as functions. An unknown name changes nothing, and the names keep their order |
| Utility.Convert | src/js/utility/utility.js:131-139 | convert wraps a value exactly when its constructor name has a handler, tagging it with that name |
| Utility.ToOriginal | src/js/utility/utility.js:148-154 | toOriginal throws TypeError exactly for a wrapper whose non-empty type has no handler, and passes other values through |
| Utility.ConvertRoundTrip | src/js/utility/utility.js:131-154 | convert then toOriginal succeeds: a value with no handler comes back as is, a wrapped one as its handler's decode of its encode |
| Utility.InverseHandlerRoundTrip | src/js/utility/utility.js:131-154 | When the decoder inverts the encoder, convert then toOriginal returns the value itself |
| Utility.NewCustomJSON | src/js/utility/utility.js:81-95 | The first construction registers the given handlers and becomes the instance; a later one returns the existing instance |
| Utility.SingletonStable | src/js/utility/utility.js:84-95 | Every later construction, whatever its handlers, returns the first instance unchanged |
| Timers.ToInt32 | src/js/timers/timers.js:105-110 | `~~` maps into the signed 32-bit range, agrees modulo 2^32 and fixes values already in range |
| Timers.ZeroBefore | src/js/timers/timers.js:95-97 | zeroBefore prefixes "0" exactly below 10, so 0..99 render as two digits that read back as the number |
| Timers.SplitRecombines | src/js/timers/timers.js:105-110 | For sec >= 0 without 32-bit wrap: days·86400 + hours·3600 + minutes·60 + seconds = sec, with hours < 24 and minutes, seconds < 60 |
| Timers.DisplayReadsBack | src/js/timers/timers.js:105-110 | Below 100 days every field is two digits, and the digits read back give sec |
| Timers.ResetShowsZeros | src/js/timers/timers.js:174-180 | resetTimer shows "00" in all four fields |

## Left out

- I/O, the DOM and timers are not modelled: `setInterval`, `Date`, `textContent`, `asyncTimer` and `newReverseTimer`. `ReverseTimer` is modelled only through `display`, `zeroBefore` and the display of 0.
- Randomness is not modelled: `randomArr`, `generateNumb`, `random`, `randomBigInt` and the Fermat tests.
- Demo, benchmark and test-page code that runs at import is not modelled.
- The other files of the repository are not part of this model, for these reasons:
  - the `AVLTree.UniqueKeys` API driven by the AVL tests does not exist in `bst.js`;
  - the crypto files call functions that `math.js` does not export;
  - `algebra.js` works on floating-point coordinates;
  - `db.js` and `graph.js` are unfinished.
- The sorting factory's `build`/`addSorting` plumbing and singleton are not modelled, nor are the `heap test` and `test sorting` entries, which are experiments. Each sort is modelled with the default comparator `a < b` on integers. `binAdd2` and `pathsA` are scratch variants and are not modelled. `Sorting`'s constructor check is not modelled.
- Numbers are integers throughout. Non-integral numbers, NaN and the `typeof` checks are not modelled. The only exception is `isVoid`, whose non-finite cases are modelled.
- Exception messages built by V8 (reading a property of `undefined`) are modelled as fixed strings.
- DLLinks.FindNode, DLLinks.GoRight, DLLinks.GoLeft and DLLinks.FoldFrom: the walks take a fuel bound. Every walk over a well-formed list is given the number of cells as fuel, which is enough for a walk along the list. Cycles, which the code cannot create, are not explored.
- DLLinks.Pop and DLLinks.Shift: the contracts speak of length and returned value. What the stale link does to the list is stated by DLLinksStale.PopLeavesNoRepr and DLLinksStale.ShiftLeavesNoRepr, which show that no sequence of cells represents the result. What it does to later operations is shown on one list each, by DLLinksStale.PopLeavesStaleNext and DLLinksStale.ShiftThenDeleteKeepsHead.
- The `traversal.right` walk from the tail is unused by the list and not modelled.
- MaxBinHeap: the constructor shares the caller's array, and that aliasing is not modelled. `show()` is empty. `checkIndex` on non-integers is not modelled.
- SortSpec.NextStep: the step callback is assumed to shrink every step above 1 (`Shrinks`). A callback that does not shrink makes the JavaScript recurse without end, and this is not modelled.
- SortingAlgorithms.ShellSortClosure: the step callback is taken after `~~` has truncated it to an integer, for example `len => len/2` becomes halving with truncation. It is assumed to shrink every step above 1.
- SortingFactory.HeapSort: non-termination on an empty array is modelled as the result `None`.
- JsMath.ModExpR: only non-negative exponents are modelled. On a negative exponent the JavaScript recurses without end.
- JsMath.Gcd: only `gcd(n, 0) = n` is stated on the function. Divisibility and greatestness are stated by the lemmas for all integers. Non-negativity is stated for naturals only.
- Counters: elements that are `undefined` inside a dictionary are not modelled, and neither are array-likes without elements. Lengths of 2^32 or more are not modelled. Predicate side effects are not modelled either, because predicates are pure functions here.
- ArraysLike:
  - The constructor's `modulo` helper is imported at src/js/datastructures/arrayslike.js:1, but src/js/math/math.js neither defines nor exports it (its export list is at src/js/math/math.js:239). As written, the ES module import fails to link, so arrayslike.js does not load and no `ObjectBigUint64` can be built. The model takes the evidently intended non-negative remainder `(8 - b % 8) % 8` for `modulo(-byteLength, 8)`, and every ArraysLike contract speaks of that intended behaviour.
  - Non-numeric constructor arguments are not modelled.
  - The engine's allocation limit, the `litleEndian` setter and the `buffer` getter are not modelled.
  - setValue's rejection of non-BigInt values is not modelled.
  - The `this` argument of callbacks is not modelled.
- ArraysLike.GetUint8: the contract states the range check and the error only. The byte it returns is stated through SetUint8 and FilterUint8.
- ArraysLike.Revive: `BigInt()` of a string with whitespace, or in hex, octal or binary notation, is not modelled. Such strings are reported as a SyntaxError.
- `ExtMap`'s property getters and setters are not modelled, and neither are `ExtMapMod` and the JSON machinery. Only the TBigint tag of `stringify`/`parse` is modelled.
- Utility:
  - the default handlers are not modelled;
  - names that are not strings are not modelled;
  - the encode/decode replacer and reviver factories are not modelled;
  - `hasValueType` is not modelled;
  - calling `CustomJSON` without `new` is not modelled.
- Timers.SplitRecombines: fractional seconds are not modelled, and the statement assumes that `~~` does not wrap (sec/60 below 2^31). Beyond that the wrap-around is modelled in Timers.Split but not characterised.

## Findings

| source | as written | input that shows it | evidently intended | confidence | as-written member | corrected member |
|---|---|---|---|---|---|---|
| src/js/datastructures/llist.js:190 | `pop` moves the tail back but leaves the new tail's `next` pointing at the removed node | push 1, push 2, pop: `find(x => x == 2)` still returns 2, and `deleteByValue(2)` returns true and drops the length to 0 while 1 stays reachable. On any list of two or more the result has no representation (DLLinksStale.PopLeavesNoRepr) | the new tail's `next` is cleared, so the popped node leaves the list | not executed | DLLinksStale.PopLeavesStaleNext | DLLinksRepr.PopFixedRefines |
| src/js/datastructures/llist.js:219 | `shift` moves the head forward but leaves the new head's `prev` pointing at the removed node | push 1, push 2, push 3, shift, then `deleteByValue(2)`: `#removeNode` sees a non-null `prev`, so it never moves `#head`; it returns true and the length drops to 1, yet `find(x => x == 2)` still returns 2. On any list of two or more the result has no representation (DLLinksStale.ShiftLeavesNoRepr) | the new head's `prev` is cleared, so the removed node leaves the list | not executed | DLLinksStale.ShiftThenDeleteKeepsHead | DLLinksRepr.ShiftFixedRefines |
| src/js/algorithms/sorting.js:175-178 | the insertion sort starts `j` at 1 and pre-increments it, so the first pass handles index 2 and index 1 is never inserted | [2, 1] comes back as [2, 1] | the outer loop starts at index 1 and returns an ascending array | not executed | SortingFactory.InsertionSort | SortingFactory.InsertionSortFromOne |

=== FILE: arrayslike.dfy ===
/** `ObjectBigUint64` and the bigint tag of `ExtMap`, from
    src/js/datastructures/arrayslike.js.

    An `ObjectBigUint64` is a byte buffer read as consecutive unsigned 64-bit
    words, big-endian.  A buffer whose size is not a multiple of 8 is
    extended with zero bytes at the front; a count of words gives that many
    zero words.  Word and byte accesses are checked against the word count
    and the byte count.

    `ExtMap.stringify` writes a bigint as its decimal digits followed by
    "TBigint", and `ExtMap.parse` turns every string ending in "TBigint"
    back into a bigint.
 */
module ArraysLike {
  import opened Wrappers
  import Decimal

  type Byte = x: int | 0 <= x < 256

  const Two64 := 0x1_0000_0000_0000_0000
  const IndexOutOfRange := "Index out of range."
  const InvalidArgument := "Invalid argument."

  // ---------------------------------------------------------------------------
  // Big-endian words

  function Pow256(n: nat): nat {
    if n == 0 then 1 else 256 * Pow256(n - 1)
  }

  lemma Pow256Eight()
    ensures Pow256(8) == Two64
  {
    assert Pow256(2) == 65536;
    assert Pow256(4) == 65536 * 65536 by {
      assert Pow256(4) == 256 * 256 * Pow256(2);
    }
    assert Pow256(8) == Pow256(4) * Pow256(4) by {
      assert Pow256(8) == 256 * 256 * 256 * 256 * Pow256(4);
    }
  }

  /** The number the bytes spell, most significant first. */
  function BigEndian(s: seq<Byte>): nat
    decreases |s|
  {
    if s == [] then 0 else BigEndian(s[..|s| - 1]) * 256 + s[|s| - 1]
  }

  /** The `n` bytes that spell `v` most significant first. */
  function Encode(v: nat, n: nat): (s: seq<Byte>)
    ensures |s| == n
  {
    if n == 0 then [] else Encode(v / 256, n - 1) + [v % 256]
  }

  lemma {:induction false} BigEndianBound(s: seq<Byte>)
    ensures BigEndian(s) < Pow256(|s|)
    decreases |s|
  {
    if s != [] {
      BigEndianBound(s[..|s| - 1]);
    }
  }

  /** Reading back the encoding of a value that fits gives the value. */
  lemma {:induction false} DecodeEncode(v: nat, n: nat)
    requires v < Pow256(n)
    ensures BigEndian(Encode(v, n)) == v
  {
    if n > 0 {
      DecodeEncode(v / 256, n - 1);
      assert Encode(v, n)[..n - 1] == Encode(v / 256, n - 1);
    }
  }

  /** Encoding the value of some bytes gives the same bytes back. */
  lemma {:induction false} EncodeDecode(s: seq<Byte>)
    ensures Encode(BigEndian(s), |s|) == s
    decreases |s|
  {
    if s != [] {
      var front := s[..|s| - 1];
      EncodeDecode(front);
      assert s == front + [s[|s| - 1]];
    }
  }

  /** Leading zero bytes do not change the value. */
  lemma {:induction false} LeadingZeros(k: nat, s: seq<Byte>)
    ensures BigEndian(Zeros(k) + s) == BigEndian(s)
    decreases |s|, k
  {
    if s == [] {
      if k > 0 {
        assert (Zeros(k) + s)[..k - 1] == Zeros(k - 1) + s;
        LeadingZeros(k - 1, s);
      }
    } else {
      var front := s[..|s| - 1];
      assert (Zeros(k) + s)[..k + |s| - 1] == Zeros(k) + front;
      LeadingZeros(k, front);
    }
  }

  function Zeros(k: nat): (z: seq<Byte>)
    ensures |z| == k && forall i :: 0 <= i < k ==> z[i] == 0
  {
    seq(k, _ => 0)
  }

  // ---------------------------------------------------------------------------
  // ObjectBigUint64

  datatype Uint64s = Uint64s(bytes: seq<Byte>) {
    /** `byteLength`. */
    function ByteLength(): nat {
      |bytes|
    }

    /** `length`: the number of whole words. */
    function Length(): nat {
      |bytes| / 8
    }
  }

  /** The constructor's argument: an `ArrayBuffer` with its bytes, or a
      number of words. */
  datatype BufferLike = Buffer(data: seq<Byte>) | Count(n: int)

  /** `modulo(-byteLength, 8)`: the zero bytes that bring a buffer to a
      multiple of 8. */
  function PadLength(b: nat): (p: nat)
    ensures p < 8 && (b + p) % 8 == 0
  {
    (8 - b % 8) % 8
  }

  /** `new ObjectBigUint64(bufferLike)`.  A buffer keeps its bytes at the end
      behind fewer than 8 zero bytes; a count `n` gives `n` zero words; a
      count the buffer cannot be built from is reported as a `TypeError`. */
  function Construct(arg: BufferLike): (r: Result<Uint64s>)
    ensures arg.Buffer? ==> r.Success?
    ensures arg.Buffer? ==>
      var b := r.value.bytes; var p := |b| - |arg.data|;
      && |b| % 8 == 0 && 0 <= p < 8
      && b[p..] == arg.data && (forall i :: 0 <= i < p ==> b[i] == 0)
    ensures arg.Count? ==> (r.Success? <==> arg.n >= 0)
    ensures arg.Count? && arg.n >= 0 ==>
      r.value.Length() == arg.n && r.value.ByteLength() == 8 * arg.n
      && forall i :: 0 <= i < |r.value.bytes| ==> r.value.bytes[i] == 0
    ensures arg.Count? && arg.n < 0 ==> r == Failure(TypeError(InvalidArgument))
  {
    match arg
    case Buffer(data) =>
      var z := Zeros(PadLength(|data|));
      assert (z + data)[|z|..] == data;
      Success(Uint64s(z + data))
    case Count(n) =>
      if n < 0 then Failure(TypeError(InvalidArgument)) else Success(Uint64s(Zeros(8 * n)))
  }

  /** Padding a buffer keeps the number it spells as a whole. */
  lemma PaddingKeepsValue(data: seq<Byte>)
    ensures BigEndian(Construct(Buffer(data)).value.bytes) == BigEndian(data)
  {
    LeadingZeros(PadLength(|data|), data);
  }

  /** `getValue(index)`: the word at a valid index, read big-endian. */
  function GetValue(o: Uint64s, index: int): (r: Result<nat>)
    ensures r.Success? <==> 0 <= index < o.Length()
    ensures r.Failure? ==> r == Failure(RangeError(IndexOutOfRange))
    ensures r.Success? ==> r.value < Two64 && Encode(r.value, 8) == o.bytes[8 * index..8 * index + 8]
  {
    if index < 0 || index >= o.Length() then
      Failure(RangeError(IndexOutOfRange))
    else
      var w := o.bytes[8 * index..8 * index + 8];
      BigEndianBound(w);
      EncodeDecode(w);
      Pow256Eight();
      Success(BigEndian(w))
  }

  /** `setValue(index, value)`: the bigint is reduced modulo 2^64, as
      `setBigUint64` does, and written big-endian over the word's bytes. */
  function SetValue(o: Uint64s, index: int, value: int): (r: Result<Uint64s>)
    ensures r.Success? <==> 0 <= index < o.Length()
    ensures r.Failure? ==> r == Failure(RangeError(IndexOutOfRange))
    ensures r.Success? ==> |r.value.bytes| == |o.bytes|
    ensures r.Success? ==> forall k :: 0 <= k < |o.bytes| && !(8 * index <= k < 8 * index + 8) ==>
                             r.value.bytes[k] == o.bytes[k]
  {
    if index < 0 || index >= o.Length() then
      Failure(RangeError(IndexOutOfRange))
    else
      Success(Uint64s(o.bytes[..8 * index] + Encode(value % Two64, 8) + o.bytes[8 * index + 8..]))
  }

  /** A word written is read back reduced modulo 2^64. */
  lemma SetThenGet(o: Uint64s, index: int, value: int)
    requires 0 <= index < o.Length()
    ensures GetValue(SetValue(o, index, value).value, index) == Success(value % Two64)
  {
    var o2 := SetValue(o, index, value).value;
    Pow256Eight();
    DecodeEncode(value % Two64, 8);
    assert o2.bytes[8 * index..8 * index + 8] == Encode(value % Two64, 8);
  }

  /** Writing a word leaves every other word as it was. */
  lemma SetKeepsOthers(o: Uint64s, index: int, value: int, other: int)
    requires 0 <= index < o.Length() && other != index
    ensures GetValue(SetValue(o, index, value).value, other) == GetValue(o, other)
  {
    var o2 := SetValue(o, index, value).value;
    if 0 <= other < o.Length() {
      assert o2.bytes[8 * other..8 * other + 8] == o.bytes[8 * other..8 * other + 8];
    }
  }

  /** `getUint8(index)`: the byte at an index below `byteLength`. */
  function GetUint8(o: Uint64s, index: int): (r: Result<Byte>)
    ensures r.Success? <==> 0 <= index < o.ByteLength()
    ensures r.Failure? ==> r == Failure(RangeError(IndexOutOfRange))
  {
    if index < 0 || index >= o.ByteLength() then Failure(RangeError(IndexOutOfRange)) else Success(o.bytes[index])
  }

  /** `setUint8(index, value)`: the number is reduced modulo 256, as
      `setUint8` does, and written at a valid byte index. */
  function SetUint8(o: Uint64s, index: int, value: int): (r: Result<Uint64s>)
    ensures r.Success? <==> 0 <= index < o.ByteLength()
    ensures r.Failure? ==> r == Failure(RangeError(IndexOutOfRange))
    ensures r.Success? ==> r.value.ByteLength() == o.ByteLength() && GetUint8(r.value, index) == Success(value % 256)
    ensures r.Success? ==> forall k :: 0 <= k < o.ByteLength() && k != index ==> GetUint8(r.value, k) == GetUint8(o, k)
  {
    if index < 0 || index >= o.ByteLength() then
      Failure(RangeError(IndexOutOfRange))
    else
      Success(Uint64s(o.bytes[index := value % 256]))
  }

  /** `map(callback)`: the callback's results for every word, in index
      order. */
  method Map<T>(o: Uint64s, callback: (nat, nat) -> T) returns (results: seq<T>)
    ensures |results| == o.Length()
    ensures forall i :: 0 <= i < |results| ==> results[i] == callback(GetValue(o, i).value, i)
  {
    results := [];
    var i := 0;
    while i < o.Length()
      invariant i <= o.Length() && |results| == i
      invariant forall k :: 0 <= k < i ==> results[k] == callback(GetValue(o, k).value, k)
    {
      var v := GetValue(o, i);
      results := results + [callback(v.value, i)];
      i := i + 1;
    }
  }

  /** The bytes among the first `n` that `callback` accepts, in index order. */
  function Accepted(bytes: seq<Byte>, callback: (Byte, nat) -> bool, n: nat): seq<Byte>
    requires n <= |bytes|
  {
    if n == 0 then []
    else Accepted(bytes, callback, n - 1) + (if callback(bytes[n - 1], n - 1) then [bytes[n - 1]] else [])
  }

  /** `filterUint8(callback)`: the bytes the callback accepts, in index
      order.  `picked` lists their indices: strictly increasing, each
      accepted, and every accepted index among them. */
  method FilterUint8(o: Uint64s, callback: (Byte, nat) -> bool) returns (results: seq<Byte>, ghost picked: seq<nat>)
    ensures results == Accepted(o.bytes, callback, o.ByteLength())
    ensures |results| <= o.ByteLength()
    ensures |picked| == |results|
    ensures forall k :: 0 <= k < |picked| ==>
              picked[k] < o.ByteLength() && results[k] == o.bytes[picked[k]] && callback(o.bytes[picked[k]], picked[k])
    ensures forall k, m :: 0 <= k < m < |picked| ==> picked[k] < picked[m]
    ensures forall i :: 0 <= i < o.ByteLength() && callback(o.bytes[i], i) ==> i in picked
  {
    results, picked := [], [];
    var byteLength := o.ByteLength();
    var i := 0;
    while i < byteLength
      invariant i <= byteLength && |picked| == |results|
      invariant results == Accepted(o.bytes, callback, i) && |results| <= i
      invariant forall k :: 0 <= k < |picked| ==>
                  picked[k] < i && results[k] == o.bytes[picked[k]] && callback(o.bytes[picked[k]], picked[k])
      invariant forall k, m :: 0 <= k < m < |picked| ==> picked[k] < picked[m]
      invariant forall j :: 0 <= j < i && callback(o.bytes[j], j) ==> j in picked
    {
      var b := GetUint8(o, i);
      if callback(b.value, i) {
        var again := GetUint8(o, i);
        results, picked := results + [again.value], picked + [i];
      }
      i := i + 1;
    }
  }

  // ---------------------------------------------------------------------------
  // The bigint tag of ExtMap.stringify / ExtMap.parse

  const Tag := "TBigint"

  /** A string or bigint leaf of the value being written or read; every
      other JSON value passes both hooks unchanged. */
  datatype Leaf = Str(s: string) | Big(n: int)

  predicate EndsWithTag(s: string) {
    |s| >= |Tag| && s[|s| - |Tag|..] == Tag
  }

  /** The `stringify` replacer: a bigint becomes its decimal text with the
      tag appended; a string is kept. */
  function Replace(v: Leaf): (r: string)
    ensures v.Big? ==> EndsWithTag(r) && r[..|r| - |Tag|] == Decimal.IntToString(v.n)
    ensures v.Str? ==> r == v.s
  {
    match v
    case Big(n) =>
      var r := Decimal.IntToString(n) + Tag;
      assert r[|r| - |Tag|..] == Tag && r[..|r| - |Tag|] == Decimal.IntToString(n);
      r
    case Str(s) => s
  }

  /** The `parse` reviver on a string: one ending in the tag is converted
      with `BigInt` after the tag is cut off, which fails on anything but
      decimal digits; any other string is kept. */
  function Revive(s: string): (r: Result<Leaf>)
    ensures !EndsWithTag(s) ==> r == Success(Str(s))
    ensures EndsWithTag(s) ==> r.Failure? || r.value.Big?
  {
    if EndsWithTag(s) then
      var n :- Decimal.ParseBigInt(s[..|s| - |Tag|]);
      Success(Big(n))
    else
      Success(Str(s))
  }

  /** Every bigint survives the round trip, and so does every string that
      does not itself end in the tag. */
  lemma TagRoundTrip(v: Leaf)
    requires v.Str? ==> !EndsWithTag(v.s)
    ensures Revive(Replace(v)) == Success(v)
  {
    if v.Big? {
      Decimal.IntRoundTrip(v.n);
    }
  }
}

=== FILE: avl.dfy ===
/** The AVL tree of src/js/datastructures/bst.js.

    Nodes cache their height; an absent child counts as height 0.  Insertion
    descends right exactly when `compare(key, node.key) > 0`, so keys that are
    not strictly greater go left and every insert adds a node: the tree holds a
    multiset of keys.  The comparator is an arbitrary function returning a
    number; only the sign test `> 0` is observable.
 */
module Avl {
  import opened Wrappers

  datatype Tree<K> = Nil | Node(left: Tree<K>, key: K, right: Tree<K>, height: int)

  type Comparator<!K> = (K, K) -> int

  // ---------------------------------------------------------------------------
  // Node: height, balance factor, adjustH

  /** The numeric value of a child slot: a node converts to its cached
      height, the absent child (`null`) to 0. */
  function H<K>(t: Tree<K>): int {
    if t.Nil? then 0 else t.height
  }

  function Max(a: int, b: int): int {
    if a >= b then a else b
  }

  /** A freshly allocated node: no children and height 1. */
  function Leaf<K>(key: K): (r: Tree<K>)
    ensures r.Node? && r.left.Nil? && r.right.Nil? && r.key == key
    ensures Cached(r) && H(r) == 1
  {
    Node(Nil, key, Nil, 1)
  }

  /** `bfactor`: height of the right child minus height of the left child. */
  function BFactor<K>(t: Tree<K>): int
    requires t.Node?
  {
    H(t.right) - H(t.left)
  }

  /** `adjustH`: recompute the cached height from the children. */
  function AdjustH<K>(t: Tree<K>): (r: Tree<K>)
    requires t.Node?
    ensures r.Node? && r.left == t.left && r.key == t.key && r.right == t.right
    ensures Cached(t.left) && Cached(t.right) ==> Cached(r)
  {
    t.(height := Max(H(t.right), H(t.left)) + 1)
  }

  /** Every cached height equals 1 + the larger child height. */
  ghost predicate Cached<K>(t: Tree<K>) {
    t.Nil? || (Cached(t.left) && Cached(t.right) && t.height == 1 + Max(H(t.left), H(t.right)))
  }

  /** Every node has balance factor -1, 0 or 1. */
  ghost predicate Balanced<K>(t: Tree<K>) {
    t.Nil? || (Balanced(t.left) && Balanced(t.right) && -1 <= BFactor(t) <= 1)
  }

  ghost predicate IsAvl<K>(t: Tree<K>) {
    Cached(t) && Balanced(t)
  }

  lemma CachedHeight<K>(t: Tree<K>)
    requires Cached(t)
    ensures H(t) >= 0
    ensures t.Node? ==> H(t) >= 1
  {
  }

  function Size<K>(t: Tree<K>): nat {
    if t.Nil? then 0 else Size(t.left) + 1 + Size(t.right)
  }

  // ---------------------------------------------------------------------------
  // Walks (orderMethods)

  function InOrder<K>(t: Tree<K>): (s: seq<K>)
    ensures |s| == Size(t)
  {
    if t.Nil? then [] else InOrder(t.left) + [t.key] + InOrder(t.right)
  }

  function PreOrder<K>(t: Tree<K>): (s: seq<K>)
    ensures |s| == Size(t)
  {
    if t.Nil? then [] else [t.key] + PreOrder(t.left) + PreOrder(t.right)
  }

  function PostOrder<K>(t: Tree<K>): (s: seq<K>)
    ensures |s| == Size(t)
  {
    if t.Nil? then [] else PostOrder(t.left) + PostOrder(t.right) + [t.key]
  }

  /** The three walks visit the same nodes, each exactly once. */
  lemma {:induction false} WalksVisitEveryNodeOnce<K>(t: Tree<K>)
    ensures multiset(PreOrder(t)) == multiset(InOrder(t))
    ensures multiset(PostOrder(t)) == multiset(InOrder(t))
  {
    if t.Node? {
      WalksVisitEveryNodeOnce(t.left);
      WalksVisitEveryNodeOnce(t.right);
    }
  }

  // ---------------------------------------------------------------------------
  // Rotations

  /** `rightTurn`: the left child becomes the root of the subtree; only the
      two moved nodes get their heights re-adjusted. */
  function RightTurn<K>(t: Tree<K>): (r: Tree<K>)
    requires t.Node? && t.left.Node?
    ensures InOrder(r) == InOrder(t)
    ensures r.Node? && r.right.Node?
    ensures r.key == t.left.key && r.right.key == t.key
    ensures r.left == t.left.left && r.right.left == t.left.right && r.right.right == t.right
    ensures H(r.right) == 1 + Max(H(t.left.right), H(t.right))
    ensures H(r) == 1 + Max(H(t.left.left), H(r.right))
    ensures Cached(t.left.left) && Cached(t.left.right) && Cached(t.right) ==> Cached(r)
  {
    var root := t.left;
    var node := AdjustH(t.(left := root.right));
    AdjustH(root.(right := node))
  }

  /** `leftTurn`: the mirror image of `RightTurn`. */
  function LeftTurn<K>(t: Tree<K>): (r: Tree<K>)
    requires t.Node? && t.right.Node?
    ensures InOrder(r) == InOrder(t)
    ensures r.Node? && r.left.Node?
    ensures r.key == t.right.key && r.left.key == t.key
    ensures r.right == t.right.right && r.left.right == t.right.left && r.left.left == t.left
    ensures H(r.left) == 1 + Max(H(t.left), H(t.right.left))
    ensures H(r) == 1 + Max(H(r.left), H(t.right.right))
    ensures Cached(t.left) && Cached(t.right.left) && Cached(t.right.right) ==> Cached(r)
  {
    var root := t.right;
    var node := AdjustH(t.(right := root.left));
    AdjustH(root.(left := node))
  }

  /** What `balance` dereferences: a child on the heavy side, and its inner
      grandchild when a double rotation is taken. */
  ghost predicate CanBalance<K>(t: Tree<K>) {
    && t.Node?
    && (BFactor(t) == 2 ==> t.right.Node? && (BFactor(t.right) < 0 ==> t.right.left.Node?))
    && (BFactor(t) == -2 ==> t.left.Node? && (BFactor(t.left) > 0 ==> t.left.right.Node?))
  }

  /** `balance`: a single or double rotation when the balance factor is
      exactly 2 or -2, otherwise the node itself. */
  function Balance<K>(t: Tree<K>): (r: Tree<K>)
    requires CanBalance(t)
    ensures InOrder(r) == InOrder(t)
    ensures BFactor(t) != 2 && BFactor(t) != -2 ==> r == t
    ensures Cached(t) ==> Cached(r)
  {
    if BFactor(t) == 2 then
      if BFactor(t.right) < 0 then
        var inner := RightTurn(t.right);
        assert Cached(t) ==> Cached(t.left) && Cached(t.right);
        assert Cached(t.right) ==> Cached(t.right.left) && Cached(t.right.right);
        assert Cached(t.right.left) ==> Cached(t.right.left.left) && Cached(t.right.left.right);
        LeftTurn(t.(right := inner))
      else
        assert Cached(t) ==> Cached(t.left) && Cached(t.right);
        assert Cached(t.right) ==> Cached(t.right.left) && Cached(t.right.right);
        LeftTurn(t)
    else if BFactor(t) == -2 then
      if BFactor(t.left) > 0 then
        var inner := LeftTurn(t.left);
        assert Cached(t) ==> Cached(t.left) && Cached(t.right);
        assert Cached(t.left) ==> Cached(t.left.left) && Cached(t.left.right);
        assert Cached(t.left.right) ==> Cached(t.left.right.left) && Cached(t.left.right.right);
        RightTurn(t.(left := inner))
      else
        assert Cached(t) ==> Cached(t.left) && Cached(t.right);
        assert Cached(t.left) ==> Cached(t.left.left) && Cached(t.left.right);
        RightTurn(t)
    else
      t
  }

  /** A cached node whose children are AVL trees differing in height by at most
      two is balanced by `Balance` into an AVL tree that is at most one level
      higher than its taller child. */
  lemma BalanceRestoresAvl<K>(t: Tree<K>)
    requires t.Node? && Cached(t) && Balanced(t.left) && Balanced(t.right)
    requires -2 <= BFactor(t) <= 2
    ensures CanBalance(t)
    ensures IsAvl(Balance(t))
    ensures Max(H(t.left), H(t.right)) <= H(Balance(t)) <= Max(H(t.left), H(t.right)) + 1
  {
    CachedHeight(t.left);
    CachedHeight(t.right);
    if BFactor(t) == 2 {
      RightHeavyRestored(t);
    } else if BFactor(t) == -2 {
      LeftHeavyRestored(t);
    }
  }

  lemma RightHeavyRestored<K>(t: Tree<K>)
    requires t.Node? && Cached(t) && Balanced(t.left) && Balanced(t.right)
    requires BFactor(t) == 2
    ensures CanBalance(t)
    ensures IsAvl(Balance(t))
    ensures H(t.right) <= H(Balance(t)) <= H(t.right) + 1
  {
    var l, r := t.left, t.right;
    CachedHeight(l);
    CachedHeight(r);
    assert r.Node?;
    CachedHeight(r.left);
    CachedHeight(r.right);
    if BFactor(r) < 0 {
      var rl := r.left;
      assert rl.Node?;
      CachedHeight(rl.left);
      CachedHeight(rl.right);
      var r' := RightTurn(r);
      assert H(r'.right) == H(l) + 1;
      assert Balanced(r'.right);
      assert IsAvl(r'.left) && IsAvl(r'.right);
      LeftTurnBalances(t.(right := r'));
    } else {
      LeftTurnBalances(t);
    }
  }

  lemma LeftHeavyRestored<K>(t: Tree<K>)
    requires t.Node? && Cached(t) && Balanced(t.left) && Balanced(t.right)
    requires BFactor(t) == -2
    ensures CanBalance(t)
    ensures IsAvl(Balance(t))
    ensures H(t.left) <= H(Balance(t)) <= H(t.left) + 1
  {
    var l, r := t.left, t.right;
    CachedHeight(l);
    CachedHeight(r);
    assert l.Node?;
    CachedHeight(l.left);
    CachedHeight(l.right);
    if BFactor(l) > 0 {
      var lr := l.right;
      assert lr.Node?;
      CachedHeight(lr.left);
      CachedHeight(lr.right);
      var l' := LeftTurn(l);
      assert H(l'.left) == H(r) + 1;
      assert Balanced(l'.left);
      assert IsAvl(l'.left) && IsAvl(l'.right);
      RightTurnBalances(t.(left := l'));
    } else {
      RightTurnBalances(t);
    }
  }

  lemma LeftTurnBalances<K>(t: Tree<K>)
    requires t.Node? && t.right.Node?
    requires IsAvl(t.left) && IsAvl(t.right.left) && IsAvl(t.right.right)
    requires H(t.right) == H(t.left) + 2
    requires H(t.right) == 1 + Max(H(t.right.left), H(t.right.right))
    requires H(t.left) - 1 <= H(t.right.left) <= H(t.right.right)
    ensures IsAvl(LeftTurn(t))
    ensures H(t.right) <= H(LeftTurn(t)) <= H(t.right) + 1
  {
    CachedHeight(t.left);
    CachedHeight(t.right.left);
    var r := LeftTurn(t);
    assert Balanced(r.left.left) && Balanced(r.left.right);
    assert Balanced(r.left);
    assert Balanced(r.right);
  }

  lemma RightTurnBalances<K>(t: Tree<K>)
    requires t.Node? && t.left.Node?
    requires IsAvl(t.right) && IsAvl(t.left.left) && IsAvl(t.left.right)
    requires H(t.left) == H(t.right) + 2
    requires H(t.left) == 1 + Max(H(t.left.left), H(t.left.right))
    requires H(t.right) - 1 <= H(t.left.right) <= H(t.left.left)
    ensures IsAvl(RightTurn(t))
    ensures H(t.left) <= H(RightTurn(t)) <= H(t.left) + 1
  {
    CachedHeight(t.right);
    CachedHeight(t.left.right);
    var r := RightTurn(t);
    assert Balanced(r.right.right) && Balanced(r.right.left);
    assert Balanced(r.right);
    assert Balanced(r.left);
  }

  // ---------------------------------------------------------------------------
  // Insertion

  /** `addNode`: descend right when the key is strictly greater than the
      node's key, otherwise left; re-adjust and rebalance on the way back. */
  function AddNode<K>(cmp: Comparator<K>, t: Tree<K>, key: K): (r: Tree<K>)
    requires Cached(t)
    ensures r.Node? && Cached(r)
  {
    if t.Nil? then Leaf(key)
    else if cmp(key, t.key) > 0 then
      var n := AdjustH(t.(right := AddNode(cmp, t.right, key)));
      CachedCanBalance(n);
      Balance(n)
    else
      var n := AdjustH(t.(left := AddNode(cmp, t.left, key)));
      CachedCanBalance(n);
      Balance(n)
  }

  /** With correct cached heights below it, a node never makes `balance`
      dereference an absent child. */
  lemma CachedCanBalance<K>(t: Tree<K>)
    requires t.Node? && Cached(t.left) && Cached(t.right)
    ensures CanBalance(t)
  {
    CachedHeight(t.left);
    CachedHeight(t.right);
    if t.left.Node? {
      CachedHeight(t.left.left);
      CachedHeight(t.left.right);
    }
    if t.right.Node? {
      CachedHeight(t.right.left);
      CachedHeight(t.right.right);
    }
  }

  /** One step of `addNode` as seen by the in-order walk: rebalancing moves
      nodes but keeps the new subtree between its neighbours. */
  lemma AddNodeStep<K>(cmp: Comparator<K>, t: Tree<K>, key: K)
    requires t.Node? && Cached(t)
    ensures cmp(key, t.key) > 0 ==>
      InOrder(AddNode(cmp, t, key)) == InOrder(t.left) + [t.key] + InOrder(AddNode(cmp, t.right, key))
    ensures cmp(key, t.key) <= 0 ==>
      InOrder(AddNode(cmp, t, key)) == InOrder(AddNode(cmp, t.left, key)) + [t.key] + InOrder(t.right)
  {
    if cmp(key, t.key) > 0 {
      var n := AdjustH(t.(right := AddNode(cmp, t.right, key)));
      assert InOrder(AddNode(cmp, t, key)) == InOrder(Balance(n)) == InOrder(n);
    } else {
      var n := AdjustH(t.(left := AddNode(cmp, t.left, key)));
      assert InOrder(AddNode(cmp, t, key)) == InOrder(Balance(n)) == InOrder(n);
    }
  }

  /** The in-order walk after `addNode` holds the old keys and one more copy
      of the new key, whatever the comparator. */
  lemma {:induction false} AddNodeAddsKey<K>(cmp: Comparator<K>, t: Tree<K>, key: K)
    requires Cached(t)
    ensures multiset(InOrder(AddNode(cmp, t, key))) == multiset(InOrder(t)) + multiset{key}
  {
    if t.Node? {
      AddNodeStep(cmp, t, key);
      if cmp(key, t.key) > 0 {
        AddNodeAddsKey(cmp, t.right, key);
      } else {
        AddNodeAddsKey(cmp, t.left, key);
      }
    }
  }

  /** Insertion keeps every balance factor in {-1, 0, 1} and grows the height
      by at most one. */
  lemma {:induction false} AddNodeKeepsAvl<K>(cmp: Comparator<K>, t: Tree<K>, key: K)
    requires IsAvl(t)
    ensures IsAvl(AddNode(cmp, t, key))
    ensures H(t) <= H(AddNode(cmp, t, key)) <= H(t) + 1
  {
    if t.Node? {
      CachedHeight(t.left);
      CachedHeight(t.right);
      if cmp(key, t.key) > 0 {
        AddNodeKeepsAvl(cmp, t.right, key);
        BalanceRestoresAvl(AdjustH(t.(right := AddNode(cmp, t.right, key))));
      } else {
        AddNodeKeepsAvl(cmp, t.left, key);
        BalanceRestoresAvl(AdjustH(t.(left := AddNode(cmp, t.left, key))));
      }
    }
  }

  // ---------------------------------------------------------------------------
  // Order

  /** The comparator's "not greater" relation is a total preorder, i.e.
      `compare(a, b) > 0` is a strict weak order. */
  ghost predicate TotalPreorder<K(!new)>(cmp: Comparator<K>) {
    && (forall a, b :: cmp(a, b) <= 0 || cmp(b, a) <= 0)
    && (forall a, b, c :: cmp(a, b) <= 0 && cmp(b, c) <= 0 ==> cmp(a, c) <= 0)
  }

  /** Non-decreasing under the comparator: no key is greater than a later one. */
  ghost predicate Sorted<K>(cmp: Comparator<K>, s: seq<K>) {
    forall i, j :: 0 <= i < j < |s| ==> cmp(s[i], s[j]) <= 0
  }

  /** Linear insertion: `key` goes in front of the first element it is not
      strictly greater than. */
  function Ins<K>(cmp: Comparator<K>, s: seq<K>, key: K): seq<K> {
    if s == [] then [key]
    else if cmp(key, s[0]) > 0 then [s[0]] + Ins(cmp, s[1..], key)
    else [key] + s
  }

  lemma {:induction false} InsSkipsSmaller<K>(cmp: Comparator<K>, a: seq<K>, b: seq<K>, key: K)
    requires forall i :: 0 <= i < |a| ==> cmp(key, a[i]) > 0
    ensures Ins(cmp, a + b, key) == a + Ins(cmp, b, key)
  {
    if a == [] {
      assert a + b == b;
    } else {
      assert (a + b)[0] == a[0];
      assert (a + b)[1..] == a[1..] + b;
      InsSkipsSmaller(cmp, a[1..], b, key);
      assert a == [a[0]] + a[1..];
    }
  }

  lemma {:induction false} InsStopsAtNotSmaller<K>(cmp: Comparator<K>, a: seq<K>, b: seq<K>, key: K)
    requires b != [] && cmp(key, b[0]) <= 0
    ensures Ins(cmp, a + b, key) == Ins(cmp, a, key) + b
  {
    if a == [] {
      assert a + b == b;
    } else {
      assert (a + b)[1..] == a[1..] + b;
      InsStopsAtNotSmaller(cmp, a[1..], b, key);
    }
  }

  /** Linear insertion adds exactly one copy of the key, whatever the comparator. */
  lemma {:induction false} InsAddsKey<K>(cmp: Comparator<K>, s: seq<K>, key: K)
    ensures multiset(Ins(cmp, s, key)) == multiset(s) + multiset{key}
  {
    if s != [] && cmp(key, s[0]) > 0 {
      InsAddsKey(cmp, s[1..], key);
      assert s == [s[0]] + s[1..];
    }
  }

  /** A lower bound of the sequence and of the key bounds the result. */
  lemma {:induction false} InsKeepsLowerBound<K>(cmp: Comparator<K>, s: seq<K>, key: K, lo: K)
    requires forall i :: 0 <= i < |s| ==> cmp(lo, s[i]) <= 0
    requires cmp(lo, key) <= 0
    ensures forall i :: 0 <= i < |Ins(cmp, s, key)| ==> cmp(lo, Ins(cmp, s, key)[i]) <= 0
  {
    if s != [] && cmp(key, s[0]) > 0 {
      InsKeepsLowerBound(cmp, s[1..], key, lo);
      var rest := Ins(cmp, s[1..], key);
      forall i | 0 <= i < |[s[0]] + rest|
        ensures cmp(lo, ([s[0]] + rest)[i]) <= 0
      {
        if i > 0 {
          assert ([s[0]] + rest)[i] == rest[i - 1];
        }
      }
    }
  }

  /** Linear insertion keeps a sorted sequence sorted. */
  lemma {:induction false} InsSorted<K(!new)>(cmp: Comparator<K>, s: seq<K>, key: K)
    requires TotalPreorder(cmp) && Sorted(cmp, s)
    ensures multiset(Ins(cmp, s, key)) == multiset(s) + multiset{key}
    ensures Sorted(cmp, Ins(cmp, s, key))
  {
    InsAddsKey(cmp, s, key);
    if s != [] {
      TailSorted(cmp, s);
      if cmp(key, s[0]) > 0 {
        InsSorted(cmp, s[1..], key);
        InsKeepsLowerBound(cmp, s[1..], key, s[0]);
        ConsSorted(cmp, s[0], Ins(cmp, s[1..], key));
      } else {
        assert forall i :: 0 <= i < |s| ==> cmp(key, s[i]) <= 0 by {
          assert forall i :: 0 < i < |s| ==> cmp(s[0], s[i]) <= 0;
        }
        ConsSorted(cmp, key, s);
      }
    }
  }

  lemma TailSorted<K>(cmp: Comparator<K>, s: seq<K>)
    requires s != [] && Sorted(cmp, s)
    ensures Sorted(cmp, s[1..])
    ensures forall i :: 0 <= i < |s[1..]| ==> cmp(s[0], s[1..][i]) <= 0
  {
    var tail := s[1..];
    forall i, j | 0 <= i < j < |tail|
      ensures cmp(tail[i], tail[j]) <= 0
    {
      assert tail[i] == s[i + 1] && tail[j] == s[j + 1];
    }
    forall i | 0 <= i < |tail|
      ensures cmp(s[0], tail[i]) <= 0
    {
      assert tail[i] == s[i + 1];
    }
  }

  lemma ConsSorted<K>(cmp: Comparator<K>, x: K, s: seq<K>)
    requires Sorted(cmp, s) && forall i :: 0 <= i < |s| ==> cmp(x, s[i]) <= 0
    ensures Sorted(cmp, [x] + s)
  {
    var r := [x] + s;
    forall i, j | 0 <= i < j < |r|
      ensures cmp(r[i], r[j]) <= 0
    {
      assert r[j] == s[j - 1];
      if i > 0 {
        assert r[i] == s[i - 1];
      }
    }
  }

  lemma SortedParts<K>(cmp: Comparator<K>, a: seq<K>, x: K, b: seq<K>)
    requires Sorted(cmp, a + [x] + b)
    ensures Sorted(cmp, a) && Sorted(cmp, b)
    ensures forall i :: 0 <= i < |a| ==> cmp(a[i], x) <= 0
  {
    var s := a + [x] + b;
    forall i, j | 0 <= i < j < |a|
      ensures cmp(a[i], a[j]) <= 0
    {
      assert a[i] == s[i] && a[j] == s[j];
    }
    forall i, j | 0 <= i < j < |b|
      ensures cmp(b[i], b[j]) <= 0
    {
      assert b[i] == s[|a| + 1 + i] && b[j] == s[|a| + 1 + j];
    }
    forall i | 0 <= i < |a|
      ensures cmp(a[i], x) <= 0
    {
      assert a[i] == s[i] && x == s[|a|];
    }
  }

  lemma GreaterThanPrefix<K(!new)>(cmp: Comparator<K>, a: seq<K>, x: K, key: K)
    requires TotalPreorder(cmp)
    requires forall i :: 0 <= i < |a| ==> cmp(a[i], x) <= 0
    requires cmp(key, x) > 0
    ensures forall i :: 0 <= i < |a + [x]| ==> cmp(key, (a + [x])[i]) > 0
  {
    forall i | 0 <= i < |a + [x]|
      ensures cmp(key, (a + [x])[i]) > 0
    {
      if i < |a| {
        assert (a + [x])[i] == a[i];
        assert cmp(a[i], x) <= 0;
      }
    }
  }

  /** Inserting into the left part of `a + [x] + b` when the key is not
      greater than `x`. */
  lemma InsLeftDescent<K>(cmp: Comparator<K>, a: seq<K>, x: K, b: seq<K>, key: K)
    requires cmp(key, x) <= 0
    ensures Ins(cmp, a + [x] + b, key) == Ins(cmp, a, key) + [x] + b
  {
    var c := [x] + b;
    assert c[0] == x;
    InsStopsAtNotSmaller(cmp, a, c, key);
    assert a + [x] + b == a + c;
    assert Ins(cmp, a, key) + [x] + b == Ins(cmp, a, key) + c;
  }

  /** Inserting into the right part of `a + [x] + b` when the key is greater
      than `x` and than everything in `a`. */
  lemma InsRightDescent<K>(cmp: Comparator<K>, a: seq<K>, x: K, b: seq<K>, key: K)
    requires forall i :: 0 <= i < |a + [x]| ==> cmp(key, (a + [x])[i]) > 0
    ensures Ins(cmp, a + [x] + b, key) == a + [x] + Ins(cmp, b, key)
  {
    InsSkipsSmaller(cmp, a + [x], b, key);
  }

  /** On a sorted tree, `addNode` inserts the key in front of the first key it
      is not strictly greater than: keys are never merged, and a new key lands
      before the equal keys already present. */
  lemma {:induction false} AddNodeInOrder<K(!new)>(cmp: Comparator<K>, t: Tree<K>, key: K)
    requires Cached(t) && TotalPreorder(cmp) && Sorted(cmp, InOrder(t))
    ensures InOrder(AddNode(cmp, t, key)) == Ins(cmp, InOrder(t), key)
  {
    if t.Node? {
      var a, b := InOrder(t.left), InOrder(t.right);
      SortedParts(cmp, a, t.key, b);
      if cmp(key, t.key) > 0 {
        AddNodeInOrder(cmp, t.right, key);
        AddNodeStep(cmp, t, key);
        GreaterThanPrefix(cmp, a, t.key, key);
        InsRightDescent(cmp, a, t.key, b, key);
      } else {
        AddNodeInOrder(cmp, t.left, key);
        AddNodeStep(cmp, t, key);
        InsLeftDescent(cmp, a, t.key, b, key);
      }
    }
  }

  // ---------------------------------------------------------------------------
  // Guided search

  /** What `find` returns: a key, `null`, or `undefined` when the probe
      answers something other than -1, 0 or 1 and the `switch` falls through. */
  datatype Found<K> = Key(key: K) | Null | Undefined

  /** `find(node, predicate)`. */
  function Find<K>(t: Tree<K>, probe: K -> int): (r: Found<K>)
    ensures t.Nil? ==> r == Null
    ensures r.Key? ==> probe(r.key) == 0 && r.key in InOrder(t)
  {
    if t.Nil? then Null
    else
      var p := probe(t.key);
      if p == 0 then Key(t.key)
      else if p == -1 then Find(t.left, probe)
      else if p == 1 then Find(t.right, probe)
      else Undefined
  }

  /** A three-way probe consistent with the in-order sequence: it answers
      -1, 0 or 1 and never increases from left to right. */
  ghost predicate ConsistentProbe<K>(probe: K -> int, s: seq<K>) {
    && (forall i :: 0 <= i < |s| ==> -1 <= probe(s[i]) <= 1)
    && (forall i, j :: 0 <= i < j < |s| ==> probe(s[i]) >= probe(s[j]))
  }

  /** With a consistent probe, `find` returns a matching key exactly when the
      tree holds one, and `null` otherwise. */
  lemma {:induction false} FindComplete<K>(t: Tree<K>, probe: K -> int)
    requires ConsistentProbe(probe, InOrder(t))
    ensures Find(t, probe).Key? <==> exists k :: k in InOrder(t) && probe(k) == 0
    ensures !Find(t, probe).Key? ==> Find(t, probe) == Null
  {
    if t.Node? {
      var a, b := InOrder(t.left), InOrder(t.right);
      var s := InOrder(t);
      assert s == a + [t.key] + b;
      assert probe(t.key) == probe(s[|a|]);
      forall i, j | 0 <= i < j < |a|
        ensures probe(a[i]) >= probe(a[j])
      {
        assert a[i] == s[i] && a[j] == s[j];
      }
      forall i, j | 0 <= i < j < |b|
        ensures probe(b[i]) >= probe(b[j])
      {
        assert b[i] == s[|a| + 1 + i] && b[j] == s[|a| + 1 + j];
      }
      forall i | 0 <= i < |a|
        ensures -1 <= probe(a[i]) <= 1 && probe(a[i]) >= probe(t.key)
      {
        assert a[i] == s[i];
      }
      forall i | 0 <= i < |b|
        ensures -1 <= probe(b[i]) <= 1 && probe(b[i]) <= probe(t.key)
      {
        assert b[i] == s[|a| + 1 + i];
      }
      var p := probe(t.key);
      if p == -1 {
        FindComplete(t.left, probe);
        forall k | k in b
          ensures probe(k) != 0
        {
          var i :| 0 <= i < |b| && b[i] == k;
        }
      } else if p == 1 {
        FindComplete(t.right, probe);
        forall k | k in a
          ensures probe(k) != 0
        {
          var i :| 0 <= i < |a| && a[i] == k;
        }
      }
    }
  }

  // ---------------------------------------------------------------------------
  // The AVLTree facade

  datatype AvlTree<!K> = AvlTree(root: Tree<K>, cmp: Comparator<K>)

  /** The constructor argument: a function, or any other value. */
  datatype CompareArg<!K> = Callable(f: Comparator<K>) | NotCallable

  /** The default comparator `(a, b) => a > b ? 1 : 0`. */
  function DefaultCompare(a: int, b: int): (r: int)
    ensures r == 0 || r == 1
    ensures r > 0 <==> a > b
  {
    if a > b then 1 else 0
  }

  /** `new AVLTree(compare)`: an empty tree, or a TypeError when the
      argument is not a function. */
  function New<K>(compare: CompareArg<K>): (r: Result<AvlTree<K>>)
    ensures compare.NotCallable? <==> r == Failure(TypeError("Argument must be a function."))
    ensures compare.Callable? ==> r.Success? && r.value.root.Nil? && r.value.cmp == compare.f
  {
    match compare
    case NotCallable => Failure(TypeError("Argument must be a function."))
    case Callable(f) => Success(AvlTree(Nil, f))
  }

  /** `new AVLTree()` with the default comparator. */
  function NewDefault(): (r: AvlTree<int>)
    ensures r.root.Nil? && InOrder(r.root) == []
  {
    AvlTree(Nil, DefaultCompare)
  }

  lemma DefaultCompareIsTotalPreorder()
    ensures TotalPreorder(DefaultCompare)
  {
  }

  /** The invariant every tree built through the facade keeps. */
  ghost predicate Valid<K>(t: AvlTree<K>) {
    IsAvl(t.root) && Sorted(t.cmp, InOrder(t.root))
  }

  /** `insert(key)`: add one node and return the tree. */
  function Insert<K>(t: AvlTree<K>, key: K): (r: AvlTree<K>)
    requires Cached(t.root)
    ensures r.cmp == t.cmp && Cached(r.root)
    ensures multiset(InOrder(r.root)) == multiset(InOrder(t.root)) + multiset{key}
  {
    AddNodeAddsKey(t.cmp, t.root, key);
    AvlTree(AddNode(t.cmp, t.root, key), t.cmp)
  }

  /** Every insert keeps the tree balanced and its in-order walk sorted, so by
      induction over any insertion order the walk is non-decreasing. */
  lemma InsertKeepsValid<K(!new)>(t: AvlTree<K>, key: K)
    requires Valid(t) && TotalPreorder(t.cmp)
    ensures Valid(Insert(t, key))
    ensures InOrder(Insert(t, key).root) == Ins(t.cmp, InOrder(t.root), key)
  {
    AddNodeKeepsAvl(t.cmp, t.root, key);
    AddNodeInOrder(t.cmp, t.root, key);
    InsSorted(t.cmp, InOrder(t.root), key);
  }

  /** Inserting a sequence of keys one after another, as a caller would. */
  function InsertAll<K>(t: AvlTree<K>, keys: seq<K>): (r: AvlTree<K>)
    requires Cached(t.root)
    ensures r.cmp == t.cmp && Cached(r.root)
    ensures multiset(InOrder(r.root)) == multiset(InOrder(t.root)) + multiset(keys)
    decreases |keys|
  {
    if keys == [] then t
    else
      assert keys == [keys[0]] + keys[1..];
      InsertAll(Insert(t, keys[0]), keys[1..])
  }

  lemma {:induction false} InsertAllKeepsValid<K(!new)>(t: AvlTree<K>, keys: seq<K>)
    requires Valid(t) && TotalPreorder(t.cmp)
    ensures Valid(InsertAll(t, keys))
    decreases |keys|
  {
    if keys != [] {
      InsertKeepsValid(t, keys[0]);
      InsertAllKeepsValid(Insert(t, keys[0]), keys[1..]);
    }
  }

  /** The walk names `orderMethods` answers to after normalisation;
      `constructor` is inherited from `Object.prototype` and calling it
      visits nothing. */
  datatype Walk = PreWalk | InWalk | PostWalk | ObjectConstructor

  function IsAsciiLetter(c: char): bool {
    ('a' <= c <= 'z') || ('A' <= c <= 'Z')
  }

  function Lower(c: char): char {
    if 'A' <= c <= 'Z' then (c as int + 32) as char else c
  }

  /** `order.replace(/[^a-z]/gi, '').toLowerCase()`. */
  function NormalizeOrder(order: string): (r: string)
    ensures |r| <= |order|
    ensures forall i :: 0 <= i < |r| ==> 'a' <= r[i] <= 'z'
  {
    if order == [] then []
    else if IsAsciiLetter(order[0]) then [Lower(order[0])] + NormalizeOrder(order[1..])
    else NormalizeOrder(order[1..])
  }

  function WalkNamed(name: string): Option<Walk> {
    if name == "preorder" then Some(PreWalk)
    else if name == "inorder" then Some(InWalk)
    else if name == "postorder" then Some(PostWalk)
    else if name == "constructor" then Some(ObjectConstructor)
    else None
  }

  /** `traversal(callback, order)`: the keys handed to the callback, in call
      order, or the TypeError of calling an undefined walk. */
  function Traversal<K>(t: AvlTree<K>, order: string): (r: Result<seq<K>>)
    ensures WalkNamed(NormalizeOrder(order)).None? <==> r.Failure?
    ensures NormalizeOrder(order) == "inorder" ==> r == Success(InOrder(t.root))
    ensures r.Success? && NormalizeOrder(order) != "constructor" ==>
      multiset(r.value) == multiset(InOrder(t.root))
  {
    WalksVisitEveryNodeOnce(t.root);
    match WalkNamed(NormalizeOrder(order))
    case None => Failure(TypeError("orderMethods[order] is not a function"))
    case Some(PreWalk) => Success(PreOrder(t.root))
    case Some(InWalk) => Success(InOrder(t.root))
    case Some(PostWalk) => Success(PostOrder(t.root))
    case Some(ObjectConstructor) => Success([])
  }

  /** Normalisation works character by character. */
  lemma {:induction false} NormalizeConcat(a: string, b: string)
    ensures NormalizeOrder(a + b) == NormalizeOrder(a) + NormalizeOrder(b)
  {
    if a == [] {
      assert a + b == b;
    } else {
      assert (a + b)[0] == a[0];
      assert (a + b)[1..] == a[1..] + b;
      NormalizeConcat(a[1..], b);
      if IsAsciiLetter(a[0]) {
        assert NormalizeOrder(a + b) == [Lower(a[0])] + (NormalizeOrder(a[1..]) + NormalizeOrder(b));
      }
    }
  }

  /** A separator anywhere in the order name is ignored, so "in-order",
      "in_order" and "in order" all name the in-order walk. */
  lemma SeparatorIgnored<K>(t: AvlTree<K>, a: string, c: char, b: string)
    requires !IsAsciiLetter(c)
    ensures Traversal(t, a + [c] + b) == Traversal(t, a + b)
  {
    NormalizeConcat(a + [c], b);
    NormalizeConcat(a, [c]);
    NormalizeConcat(a, b);
    assert [c][1..] == [];
    assert NormalizeOrder([c]) == [];
    assert NormalizeOrder(a + [c] + b) == NormalizeOrder(a + b);
  }

  /** Capital letters are folded, so "InOrder" names the in-order walk. */
  lemma CapitalIgnored<K>(t: AvlTree<K>, a: string, c: char, b: string)
    requires 'a' <= c <= 'z'
    ensures Traversal(t, a + [(c as int - 32) as char] + b) == Traversal(t, a + [c] + b)
  {
    NormalizeConcat(a + [(c as int - 32) as char], b);
    NormalizeConcat(a, [(c as int - 32) as char]);
    NormalizeConcat(a + [c], b);
    NormalizeConcat(a, [c]);
    var u := (c as int - 32) as char;
    assert [u][1..] == [] && [c][1..] == [];
    assert NormalizeOrder([u]) == [c] == NormalizeOrder([c]);
    assert NormalizeOrder(a + [u] + b) == NormalizeOrder(a + [c] + b);
  }

  /** `findByKey(predicate)`; with the default predicate `k => 0` it returns
      the root key. */
  function FindByKey<K>(t: AvlTree<K>, probe: K -> int): (r: Found<K>)
    ensures r.Key? ==> r.key in InOrder(t.root)
    ensures t.root.Nil? ==> r == Null
    ensures t.root.Node? && probe(t.root.key) == 0 ==> r == Key(t.root.key)
  {
    Find(t.root, probe)
  }
}

=== FILE: counters.dfy ===
/** The mixed-radix counter of src/js/algorithms/counters.js.

    A `CounterBuilder` collects dictionaries (strings or arrays) with a start
    position each; `permut` then walks through the combinations of one
    element from every dictionary like an odometer: the last dictionary's
    counter turns fastest, and a counter that runs past its dictionary is
    reset to 0 and carries into the one before it.  The walk stops at the
    first combination the caller's predicate accepts, or, when the first
    counter overflows, with the combination of every dictionary's last
    element.

    A combination is identified by its counters; its rank is the number the
    counters spell in the mixed radix given by the dictionary lengths, most
    significant counter first.  The walk visits the ranks from the start
    positions' rank upwards, one by one.
 */
module Counters {
  import opened Wrappers
  import Decimal

  const Uint8Max := 255
  const Uint32Max := 0xFFFF_FFFF

  /** The dictionary `addCounter` uses when none is given. */
  const Alphabet := "abcdefghijklmnopqrstuvwxyzABCDEFGHIJKLMNOPQRSTUVWXYZ1234567890"

  // ---------------------------------------------------------------------------
  // The builder

  /** The `dict` argument: a string or array with its elements, or a value
      without a positive `length`.  `shown` is the text the value
      interpolates to in a template string. */
  datatype DictArg<E> = Dict(elems: seq<E>, shown: string) | NoLength(shown: string)

  /** The `start` argument: an integral number, or anything else (another
      type, a fraction, `NaN`, an infinity), with its interpolated text. */
  datatype StartArg = Start(n: int) | NotIndex(shown: string)

  /** The omitted `start`. */
  const DefaultStart := Start(0)

  datatype Builder<E> = Builder(dicts: seq<seq<E>>, startPos: seq<nat>)

  /** Every position is an index of its dictionary, one per dictionary. */
  ghost predicate Valid<E>(dicts: seq<seq<E>>, c: seq<nat>) {
    |c| == |dicts| && forall i :: 0 <= i < |c| ==> c[i] < |dicts[i]|
  }

  function DictMessage(shown: string): string {
    "Invalid argument dict = " + shown + ". It must be a non-empty string or an array-like object"
  }

  function StartMessage(shown: string): string {
    "Invalid argument start = " + shown + ". It must be a number in range [0; dict.length - 1]"
  }

  function StartShown(start: StartArg): string {
    match start
    case Start(n) => Decimal.IntToString(n)
    case NotIndex(shown) => shown
  }

  /** `addCounter(dict, start)`: a dictionary must have elements and the
      start must index one of them; the pair is appended. */
  function AddCounter<E>(b: Builder<E>, dict: DictArg<E>, start: StartArg): (r: Result<Builder<E>>)
    ensures r.Success? <==> dict.Dict? && |dict.elems| > 0 && start.Start? && 0 <= start.n < |dict.elems|
    ensures !(dict.Dict? && |dict.elems| > 0) ==> r == Failure(PlainError(DictMessage(dict.shown)))
    ensures dict.Dict? && |dict.elems| > 0 && !(start.Start? && 0 <= start.n < |dict.elems|) ==>
              r == Failure(PlainError(StartMessage(StartShown(start))))
    ensures r.Success? ==> r.value.dicts == b.dicts + [dict.elems] && r.value.startPos == b.startPos + [start.n]
    ensures r.Success? && Valid(b.dicts, b.startPos) ==> Valid(r.value.dicts, r.value.startPos)
  {
    if !(dict.Dict? && |dict.elems| > 0) then
      Failure(PlainError(DictMessage(dict.shown)))
    else if !start.Start? || start.n < 0 || start.n >= |dict.elems| then
      Failure(PlainError(StartMessage(StartShown(start))))
    else
      Success(Builder(b.dicts + [dict.elems], b.startPos + [start.n as nat]))
  }

  /** `addCounter()` with the dictionary omitted. */
  function AddDefaultCounter(b: Builder<char>, start: StartArg): (r: Result<Builder<char>>)
    ensures r.Success? <==> start.Start? && 0 <= start.n < |Alphabet|
  {
    AddCounter(b, Dict(Alphabet, Alphabet), start)
  }

  /** Successive `addCounter` calls from a fresh builder, stopping at the
      first failure. */
  function AddAll<E>(args: seq<(DictArg<E>, StartArg)>): Result<Builder<E>>
  {
    if args == [] then Success(Builder([], []))
    else
      var b :- AddAll(args[..|args| - 1]);
      AddCounter(b, args[|args| - 1].0, args[|args| - 1].1)
  }

  /** The state `create()` closes over: the collected dictionaries and
      starts, which `permut` receives when the returned function is
      called. */
  datatype Counter<E> = Counter(dicts: seq<seq<E>>, starts: seq<nat>)

  /** `create()`: hands the collected pairs to the returned function and
      leaves the builder empty. */
  function Create<E>(b: Builder<E>): (r: (Builder<E>, Counter<E>))
    ensures r.0.dicts == [] && r.0.startPos == []
    ensures Valid(b.dicts, b.startPos) ==> Valid(r.1.dicts, r.1.starts)
  {
    (Builder([], []), Counter(b.dicts, b.startPos))
  }

  /** Whatever sequence of `addCounter` calls succeeded, `create()` yields
      exactly the dictionaries given, in order, each with a start inside it,
      and an empty builder. */
  lemma {:induction false} AddAllCreate<E>(args: seq<(DictArg<E>, StartArg)>)
    requires AddAll(args).Success?
    ensures var (b, c) := Create(AddAll(args).value);
      && b.dicts == [] && b.startPos == []
      && |c.dicts| == |args|
      && (forall i :: 0 <= i < |args| ==> args[i].0.Dict? && c.dicts[i] == args[i].0.elems)
      && Valid(c.dicts, c.starts)
  {
    if args != [] {
      var front := args[..|args| - 1];
      AddAllCreate(front);
      var b := AddAll(front).value;
      assert forall i :: 0 <= i < |front| ==> front[i] == args[i];
    }
  }

  // ---------------------------------------------------------------------------
  // Ranks

  /** The number spelt by the first `k` counters in the radix of the
      dictionary lengths. */
  function Prefix<E>(dicts: seq<seq<E>>, c: seq<nat>, k: nat): nat
    requires k <= |c| && k <= |dicts|
  {
    if k == 0 then 0 else Prefix(dicts, c, k - 1) * |dicts[k - 1]| + c[k - 1]
  }

  /** The number of combinations of the first `k` dictionaries. */
  function Room<E>(dicts: seq<seq<E>>, k: nat): nat
    requires k <= |dicts|
  {
    if k == 0 then 1 else Room(dicts, k - 1) * |dicts[k - 1]|
  }

  function Rank<E>(dicts: seq<seq<E>>, c: seq<nat>): nat
    requires |c| == |dicts|
  {
    Prefix(dicts, c, |c|)
  }

  function Total<E>(dicts: seq<seq<E>>): nat {
    Room(dicts, |dicts|)
  }

  lemma MulLe(a: int, b: int, m: int)
    requires a <= b && m >= 0
    ensures a * m <= b * m
  {
  }

  lemma MulSucc(a: int, m: int)
    ensures (a + 1) * m == a * m + m
  {
  }

  /** Counters inside their dictionaries spell a number below the count of
      combinations; the last one may also sit at its dictionary's length. */
  lemma {:induction false} PrefixBelow<E>(dicts: seq<seq<E>>, c: seq<nat>, k: nat)
    requires k <= |c| && k <= |dicts|
    requires forall i :: 0 <= i < k - 1 ==> c[i] < |dicts[i]|
    requires k > 0 ==> c[k - 1] <= |dicts[k - 1]|
    ensures Prefix(dicts, c, k) <= Room(dicts, k)
    ensures k > 0 && c[k - 1] < |dicts[k - 1]| ==> Prefix(dicts, c, k) < Room(dicts, k)
  {
    if k > 0 {
      var p, n := Prefix(dicts, c, k - 1), |dicts[k - 1]|;
      PrefixBelow(dicts, c, k - 1);
      if k > 1 {
        assert p < Room(dicts, k - 1);
      }
      MulLe(p, Room(dicts, k - 1) - 1, n);
      MulSucc(Room(dicts, k - 1) - 1, n);
    }
  }

  /** The number spelt by later counters depends on earlier ones only
      through the number they spell. */
  lemma {:induction false} PrefixFrom<E>(dicts: seq<seq<E>>, c: seq<nat>, d: seq<nat>, k0: nat, k: nat)
    requires k0 <= k <= |c| && k <= |d| && k <= |dicts|
    requires Prefix(dicts, c, k0) == Prefix(dicts, d, k0)
    requires forall i :: k0 <= i < k ==> c[i] == d[i]
    ensures Prefix(dicts, c, k) == Prefix(dicts, d, k)
    decreases k
  {
    if k > k0 {
      PrefixFrom(dicts, c, d, k0, k - 1);
    }
  }

  /** Stepping the last counter adds one to the rank. */
  lemma BumpLast<E>(dicts: seq<seq<E>>, c: seq<nat>)
    requires |c| == |dicts| > 0
    ensures Rank(dicts, c[|c| - 1 := c[|c| - 1] + 1]) == Rank(dicts, c) + 1
  {
    var d := c[|c| - 1 := c[|c| - 1] + 1];
    PrefixFrom(dicts, c, d, 0, |c| - 1);
  }

  /** A counter at its dictionary's length reset to 0, with a carry into
      the counter before it, keeps the rank. */
  lemma Carry<E>(dicts: seq<seq<E>>, c: seq<nat>, cur: nat)
    requires |c| == |dicts| && 0 < cur < |c| && c[cur] == |dicts[cur]|
    ensures Rank(dicts, c[cur := 0][cur - 1 := c[cur - 1] + 1]) == Rank(dicts, c)
  {
    var d := c[cur := 0][cur - 1 := c[cur - 1] + 1];
    PrefixFrom(dicts, c, d, 0, cur - 1);
    assert Prefix(dicts, d, cur) == Prefix(dicts, c, cur) + 1;
    MulSucc(Prefix(dicts, c, cur), |dicts[cur]|);
    assert Prefix(dicts, d, cur + 1) == Prefix(dicts, c, cur + 1);
    PrefixFrom(dicts, c, d, cur + 1, |c|);
  }

  /** The first counter at its dictionary's length and all others at 0
      spell the count of combinations. */
  lemma {:induction false} Overflow<E>(dicts: seq<seq<E>>, c: seq<nat>, k: nat)
    requires 1 <= k <= |c| == |dicts| && c[0] == |dicts[0]|
    requires forall i :: 0 < i < k ==> c[i] == 0
    ensures Prefix(dicts, c, k) == Room(dicts, k)
  {
    if k > 1 {
      Overflow(dicts, c, k - 1);
    }
  }

  lemma DivModUnique(q1: int, r1: int, q2: int, r2: int, n: int)
    requires 0 <= r1 < n && 0 <= r2 < n && q1 * n + r1 == q2 * n + r2
    ensures q1 == q2 && r1 == r2
  {
    if q1 < q2 {
      MulLe(q1 + 1, q2, n);
      MulSucc(q1, n);
    } else if q2 < q1 {
      MulLe(q2 + 1, q1, n);
      MulSucc(q2, n);
    }
  }

  /** Distinct counters inside their dictionaries have distinct ranks. */
  lemma {:induction false} PrefixInjective<E>(dicts: seq<seq<E>>, c: seq<nat>, d: seq<nat>, k: nat)
    requires k <= |c| && k <= |d| && k <= |dicts|
    requires forall i :: 0 <= i < k ==> c[i] < |dicts[i]| && d[i] < |dicts[i]|
    requires Prefix(dicts, c, k) == Prefix(dicts, d, k)
    ensures forall i :: 0 <= i < k ==> c[i] == d[i]
  {
    if k > 0 {
      DivModUnique(Prefix(dicts, c, k - 1), c[k - 1], Prefix(dicts, d, k - 1), d[k - 1], |dicts[k - 1]|);
      PrefixInjective(dicts, c, d, k - 1);
    }
  }

  lemma RankInjective<E>(dicts: seq<seq<E>>, c: seq<nat>, d: seq<nat>)
    requires Valid(dicts, c) && Valid(dicts, d) && Rank(dicts, c) == Rank(dicts, d)
    ensures c == d
  {
    PrefixInjective(dicts, c, d, |c|);
  }

  // ---------------------------------------------------------------------------
  // permut

  /** The elements the counters point at. */
  function Combo<E>(dicts: seq<seq<E>>, c: seq<nat>): (s: seq<E>)
    requires Valid(dicts, c)
    ensures |s| == |dicts| && forall i :: 0 <= i < |s| ==> s[i] == dicts[i][c[i]]
  {
    seq(|dicts|, i requires 0 <= i < |dicts| => dicts[i][c[i]])
  }

  ghost predicate NonEmpty<E>(dicts: seq<seq<E>>) {
    forall i :: 0 <= i < |dicts| ==> |dicts[i]| > 0
  }

  /** `lastSet`: the last element of every dictionary. */
  function LastSet<E>(dicts: seq<seq<E>>): (s: seq<E>)
    requires NonEmpty(dicts)
    ensures |s| == |dicts| && forall i :: 0 <= i < |s| ==> s[i] == dicts[i][|dicts[i]| - 1]
  {
    seq(|dicts|, i requires 0 <= i < |dicts| => dicts[i][|dicts[i]| - 1])
  }

  /** `Math.max` of the dictionary lengths; -1 stands for the `-Infinity`
      of no dictionaries at all. */
  function MaxLength<E>(dicts: seq<seq<E>>): (m: int)
    ensures forall i :: 0 <= i < |dicts| ==> |dicts[i]| <= m
    ensures dicts == [] ==> m == -1
    ensures dicts != [] ==> exists i :: 0 <= i < |dicts| && |dicts[i]| == m
  {
    if dicts == [] then -1
    else
      var m := MaxLength(dicts[..|dicts| - 1]);
      assert forall i :: 0 <= i < |dicts| - 1 ==> dicts[..|dicts| - 1][i] == dicts[i];
      if |dicts[|dicts| - 1]| > m then |dicts[|dicts| - 1]| else m
  }

  /** The width of the typed array holding the counters. */
  function CounterBits<E>(dicts: seq<seq<E>>): (b: nat)
    ensures b == 8 || b == 32
    ensures b == 32 <==> exists i :: 0 <= i < |dicts| && |dicts[i]| > Uint8Max
  {
    if MaxLength(dicts) > Uint8Max then 32 else 8
  }

  /** No counter ever exceeds its dictionary's length, so the typed array
      chosen never wraps, as long as every dictionary is within the
      documented limit of 2^32 - 1 elements. */
  lemma CountersFit<E>(dicts: seq<seq<E>>, c: seq<nat>)
    requires |c| == |dicts|
    requires forall i :: 0 <= i < |c| ==> c[i] <= |dicts[i]| <= Uint32Max
    ensures forall i :: 0 <= i < |c| ==> c[i] <= if CounterBits(dicts) == 8 then Uint8Max else Uint32Max
  {
  }

  /** The trace of visited counters runs through consecutive ranks from
      `r0`, each inside the dictionaries. */
  ghost predicate Scanned<E>(dicts: seq<seq<E>>, r0: nat, trace: seq<seq<nat>>) {
    forall k :: 0 <= k < |trace| ==> Valid(dicts, trace[k]) && Rank(dicts, trace[k]) == r0 + k
  }

  ghost predicate Rejected<E>(dicts: seq<seq<E>>, accept: seq<E> -> bool, trace: seq<seq<nat>>) {
    forall k :: 0 <= k < |trace| ==> Valid(dicts, trace[k]) && !accept(Combo(dicts, trace[k]))
  }

  const NoDictionaries := "Cannot read properties of undefined (reading 'undefined')"

  /** The state at the head of `permut`'s outer loop and of its first inner
      loop: the counters before the last inside their dictionaries, the last
      at most at its dictionary's length, the current combination agreeing
      with the counters before the last, and one visited combination per
      rank from `r0` up to the counters' rank. */
  ghost predicate Walking<E>(dicts: seq<seq<E>>, accept: seq<E> -> bool, r0: nat,
                             c: seq<nat>, current: seq<E>, trace: seq<seq<nat>>) {
    && dicts != [] && NonEmpty(dicts) && |c| == |dicts| && |current| == |dicts|
    && (forall i :: 0 <= i < |c| - 1 ==> c[i] < |dicts[i]| && current[i] == dicts[i][c[i]])
    && c[|c| - 1] <= |dicts[|c| - 1]|
    && Rank(dicts, c) == r0 + |trace| <= Total(dicts)
    && Scanned(dicts, r0, trace) && Rejected(dicts, accept, trace)
  }

  /** The first inner loop of `permut`: the last counter runs through the
      rest of its dictionary, each combination going to the predicate. */
  method Sweep<E>(dicts: seq<seq<E>>, accept: seq<E> -> bool, ghost r0: nat,
                  c0: seq<nat>, current0: seq<E>, ghost trace0: seq<seq<nat>>)
      returns (hit: bool, c: seq<nat>, current: seq<E>, ghost trace: seq<seq<nat>>)
    requires Walking(dicts, accept, r0, c0, current0, trace0)
    ensures |c| == |c0| && |current| == |current0|
    ensures c[..|c| - 1] == c0[..|c0| - 1] && c0[|c0| - 1] <= c[|c| - 1]
    ensures hit ==> accept(current)
    ensures !hit ==> c[|c| - 1] == |dicts[|c| - 1]|
    ensures |trace| >= |trace0|
    ensures hit ==> Outcome(dicts, accept, r0, trace, current)
    ensures !hit ==> Walking(dicts, accept, r0, c, current, trace) && c[|c| - 1] == |dicts[|c| - 1]|
  {
    var last := |dicts| - 1;
    c, current, trace := c0, current0, trace0;
    while c[last] < |dicts[last]|
      invariant Walking(dicts, accept, r0, c, current, trace) && |trace| >= |trace0|
      invariant |c| == |c0| && c[..last] == c0[..last] && c0[last] <= c[last]
      decreases |dicts[last]| - c[last]
    {
      current := current[last := dicts[last][c[last]]];
      assert current == Combo(dicts, c);
      if accept(current) {
        HitOutcome(dicts, accept, r0, trace, c);
        return true, c, current, trace + [c];
      }
      MissStep(dicts, accept, r0, trace, c);
      trace := trace + [c];
      c := c[last := c[last] + 1];
    }
    return false, c, current, trace;
  }

  /** The second inner loop of `permut` and the update after it: counters
      at their dictionary's length are reset to 0 with a carry into the one
      before, until one stays inside its dictionary or the first counter
      overflows. */
  method CarryOut<E>(dicts: seq<seq<E>>, c0: seq<nat>, current0: seq<E>)
      returns (overflow: bool, c: seq<nat>, current: seq<E>)
    requires dicts != [] && NonEmpty(dicts) && |c0| == |dicts| && |current0| == |dicts|
    requires forall i :: 0 <= i < |c0| - 1 ==> c0[i] < |dicts[i]| && current0[i] == dicts[i][c0[i]]
    requires c0[|c0| - 1] == |dicts[|c0| - 1]|
    ensures overflow ==> Rank(dicts, c0) == Total(dicts)
    ensures !overflow ==> Valid(dicts, c) && current == Combo(dicts, c) && Rank(dicts, c) == Rank(dicts, c0)
  {
    var last := |dicts| - 1;
    c, current := c0, current0;
    var cur := last;
    while c[cur] == |dicts[cur]|
      invariant 0 <= cur <= last && |c| == |dicts| && |current| == |dicts|
      invariant (forall i :: 0 <= i < cur ==> c[i] < |dicts[i]|) && c[cur] <= |dicts[cur]|
      invariant forall i :: cur < i <= last ==> c[i] == 0
      invariant forall i :: 0 <= i < |dicts| && i != cur ==> current[i] == dicts[i][c[i]]
      invariant Rank(dicts, c) == Rank(dicts, c0)
      decreases cur
    {
      if cur == 0 {
        Overflow(dicts, c, |c|);
        return true, c, current;
      }
      Carry(dicts, c, cur);
      c := c[cur := 0][cur - 1 := c[cur - 1] + 1];
      current := current[cur := dicts[cur][0]];
      cur := cur - 1;
    }
    current := current[cur := dicts[cur][c[cur]]];
    assert current == Combo(dicts, c);
    return false, c, current;
  }

  /** What a walk from rank `r0` that visited `trace` may return: the last
      visited combination if the predicate accepted it, after rejecting all
      the others; otherwise the last element of each dictionary, after every
      rank from `r0` to the last was visited and rejected. */
  ghost predicate Outcome<E>(dicts: seq<seq<E>>, accept: seq<E> -> bool, r0: nat,
                             trace: seq<seq<nat>>, v: seq<E>) {
    && NonEmpty(dicts) && Scanned(dicts, r0, trace)
    && if |trace| > 0 && accept(Combo(dicts, trace[|trace| - 1])) then
         v == Combo(dicts, trace[|trace| - 1]) && Rejected(dicts, accept, trace[..|trace| - 1])
       else
         v == LastSet(dicts) && Rejected(dicts, accept, trace) && r0 + |trace| == Total(dicts)
  }

  /** An accepted combination after a run of rejected ones ends the walk. */
  lemma HitOutcome<E>(dicts: seq<seq<E>>, accept: seq<E> -> bool, r0: nat,
                      trace: seq<seq<nat>>, c: seq<nat>)
    requires NonEmpty(dicts) && Valid(dicts, c) && accept(Combo(dicts, c))
    requires Scanned(dicts, r0, trace) && Rejected(dicts, accept, trace) && Rank(dicts, c) == r0 + |trace|
    ensures Outcome(dicts, accept, r0, trace + [c], Combo(dicts, c))
  {
    assert (trace + [c])[..|trace|] == trace;
  }

  /** A rejected combination extends the walk to the next rank. */
  lemma MissStep<E>(dicts: seq<seq<E>>, accept: seq<E> -> bool, r0: nat,
                    trace: seq<seq<nat>>, c: seq<nat>)
    requires NonEmpty(dicts) && Valid(dicts, c) && dicts != [] && !accept(Combo(dicts, c))
    requires Scanned(dicts, r0, trace) && Rejected(dicts, accept, trace) && Rank(dicts, c) == r0 + |trace|
    ensures Walking(dicts, accept, r0, c[|c| - 1 := c[|c| - 1] + 1], Combo(dicts, c), trace + [c])
  {
    BumpLast(dicts, c);
    var d := c[|c| - 1 := c[|c| - 1] + 1];
    PrefixBelow(dicts, d, |d|);
  }

  /** `permut(dicts, startPositions, predicateFn)`.  `trace` lists the
      counters of every combination handed to the predicate, in order.
      The walk starts at the start positions and visits consecutive ranks;
      it returns the first accepted combination, or, once every rank up to
      the last has been rejected, the last element of each dictionary.
      With no dictionaries the first carry reads from a missing one. */
  method Permut<E>(dicts: seq<seq<E>>, starts: seq<nat>, accept: seq<E> -> bool)
      returns (r: Result<seq<E>>, ghost trace: seq<seq<nat>>)
    requires Valid(dicts, starts)
    ensures dicts == [] ==> r == Failure(TypeError(NoDictionaries))
    ensures dicts != [] ==> r.Success? && Outcome(dicts, accept, Rank(dicts, starts), trace, r.value)
  {
    if dicts == [] {
      return Failure(TypeError(NoDictionaries)), [];
    }
    ghost var r0 := Rank(dicts, starts);
    var last := |dicts| - 1;
    var c: seq<nat> := starts;
    var current := Combo(dicts, starts);
    trace := [];
    RankBelowTotal(dicts, c);
    while true
      invariant Walking(dicts, accept, r0, c, current, trace)
      decreases Total(dicts) - Rank(dicts, c)
    {
      var hit, overflow;
      hit, c, current, trace := Sweep(dicts, accept, r0, c, current, trace);
      if hit {
        return Success(current), trace;
      }
      overflow, c, current := CarryOut(dicts, c, current);
      if overflow {
        return Success(LastSet(dicts)), trace;
      }
      if accept(current) {
        HitOutcome(dicts, accept, r0, trace, c);
        return Success(current), trace + [c];
      }
      MissStep(dicts, accept, r0, trace, c);
      trace := trace + [c];
      c := c[last := c[last] + 1];
    }
  }

  /** The trace holds every combination inside the dictionaries whose rank
      it spans, so the combination returned is the first accepted one from
      the start positions on, in rank order. */
  lemma TraceCovers<E>(dicts: seq<seq<E>>, r0: nat, trace: seq<seq<nat>>, c: seq<nat>)
    requires Scanned(dicts, r0, trace)
    requires Valid(dicts, c) && r0 <= Rank(dicts, c) < r0 + |trace|
    ensures c == trace[Rank(dicts, c) - r0]
  {
    RankInjective(dicts, c, trace[Rank(dicts, c) - r0]);
  }

  /** Every counter inside its dictionary has a rank below the number of
      combinations, so a walk that rejects everything visits them all. */
  lemma RankBelowTotal<E>(dicts: seq<seq<E>>, c: seq<nat>)
    requires Valid(dicts, c)
    ensures Rank(dicts, c) < Total(dicts) || dicts == []
  {
    if dicts != [] {
      PrefixBelow(dicts, c, |c|);
    }
  }

  /** Whenever some combination from the start positions on is accepted,
      `permut` returns an accepted combination of the least such rank. */
  lemma OutcomeIsFirst<E>(dicts: seq<seq<E>>, accept: seq<E> -> bool, r0: nat,
                          trace: seq<seq<nat>>, v: seq<E>, c: seq<nat>)
    requires Outcome(dicts, accept, r0, trace, v)
    requires Valid(dicts, c) && r0 <= Rank(dicts, c) && accept(Combo(dicts, c))
    ensures |trace| > 0 && v == Combo(dicts, trace[|trace| - 1]) && accept(v)
    ensures Rank(dicts, trace[|trace| - 1]) <= Rank(dicts, c)
  {
    RankBelowTotal(dicts, c);
    if Rank(dicts, c) < r0 + |trace| {
      TraceCovers(dicts, r0, trace, c);
    }
  }
}

=== FILE: decimal.dfy ===
/** Decimal text of integers, as produced by JavaScript's `String(n)`,
    template interpolation `${n}` and `BigInt.prototype.toString()`, and read
    back by `BigInt(string)` for signed decimal digit strings.
 */
module Decimal {
  import opened Wrappers

  predicate IsDigit(c: char) {
    '0' <= c <= '9'
  }

  function DigitChar(d: nat): (c: char)
    requires d < 10
    ensures IsDigit(c) && c as int - '0' as int == d
  {
    (d + '0' as int) as char
  }

  function DigitValue(c: char): (d: nat)
    requires IsDigit(c)
    ensures d < 10 && DigitChar(d) == c
  {
    c as int - '0' as int
  }

  /** The digits of `n`, most significant first, without leading zeros; `0`
      is written "0". */
  function NatToString(n: nat): (s: string)
    ensures |s| >= 1 && forall i :: 0 <= i < |s| ==> IsDigit(s[i])
    ensures |s| > 1 ==> s[0] != '0'
    ensures n < 10 <==> |s| == 1
    decreases n
  {
    if n < 10 then [DigitChar(n)] else NatToString(n / 10) + [DigitChar(n % 10)]
  }

  /** `String(i)` for an integer: a minus sign before the digits of `|i|`. */
  function IntToString(i: int): (s: string)
    ensures |s| >= 1
    ensures i < 0 <==> s[0] == '-'
  {
    if i < 0 then "-" + NatToString(-i) else NatToString(i)
  }

  /** The value of a string of decimal digits, most significant first; the
      empty string is 0. */
  function DigitsValue(s: string): (n: nat)
    requires forall i :: 0 <= i < |s| ==> IsDigit(s[i])
    decreases |s|
  {
    if s == [] then 0 else 10 * DigitsValue(s[..|s| - 1]) + DigitValue(s[|s| - 1])
  }

  predicate AllDigits(s: string) {
    forall i :: 0 <= i < |s| ==> IsDigit(s[i])
  }

  /** `BigInt(s)` for a string of decimal digits with an optional sign; the
      empty string converts to 0, anything else is a `SyntaxError`. */
  function ParseBigInt(s: string): (r: Result<int>)
    ensures r.Success? <==>
      (s == [] || AllDigits(s) || (|s| > 1 && (s[0] == '-' || s[0] == '+') && AllDigits(s[1..])))
  {
    if s == [] then Success(0)
    else if AllDigits(s) then Success(DigitsValue(s))
    else if |s| > 1 && s[0] == '-' && AllDigits(s[1..]) then Success(0 - DigitsValue(s[1..]) as int)
    else if |s| > 1 && s[0] == '+' && AllDigits(s[1..]) then Success(DigitsValue(s[1..]))
    else Failure(SyntaxError("Cannot convert " + s + " to a BigInt"))
  }

  /** Reading back the digits of `n` gives `n`. */
  lemma {:induction false} NatRoundTrip(n: nat)
    ensures DigitsValue(NatToString(n)) == n
    decreases n
  {
    var s := NatToString(n);
    if n >= 10 {
      NatRoundTrip(n / 10);
      assert s[..|s| - 1] == NatToString(n / 10);
    }
  }

  /** `BigInt(String(i))` is `i`. */
  lemma IntRoundTrip(i: int)
    ensures ParseBigInt(IntToString(i)) == Success(i)
  {
    var s := IntToString(i);
    if i < 0 {
      var d := NatToString(-i);
      NatRoundTrip(-i);
      assert s == "-" + d && s[1..] == d;
      assert AllDigits(d);
      assert !IsDigit(s[0]);
      assert !AllDigits(s);
    } else {
      NatRoundTrip(i);
      assert AllDigits(s);
    }
  }

  /** Different integers have different texts. */
  lemma IntToStringInjective(i: int, j: int)
    requires IntToString(i) == IntToString(j)
    ensures i == j
  {
    IntRoundTrip(i);
    IntRoundTrip(j);
  }
}

=== FILE: dllinks.dfy ===
/** The node links of src/js/datastructures/llist.js.

    Nodes live in an arena (`cells`); a reference is the index of a cell or
    `None` for `null`.  Allocation appends a cell, and nothing is ever freed,
    so a node dropped from the list keeps whatever links it had.  The
    operations follow the source statement by statement, including `pop` and
    `shift`, which move the tail (head) without clearing the new end's link to
    the removed node.  `PopFixed` and `ShiftFixed` clear that link; with them
    every operation keeps the links a faithful picture of a sequence (`DLLinksRepr.Repr`)
    and acts on it as the corresponding `DLList` function does.

    Walks along the links carry a step bound equal to the number of cells.  A
    walk that visits more nodes than there are cells runs round a cycle; the
    bound only cuts such walks short, and no walk over a `Repr` list needs it.
 */
module DLLinks {
  import opened Wrappers
  import DLList

  /** A node reference: the index of a cell, or `null`. */
  type Ptr = Option<nat>

  datatype Cell<T> = Cell(data: T, next: Ptr, prev: Ptr)

  /** The private fields `#head`, `#tail`, `#length`, and the arena. */
  datatype Links<T> = Links(cells: seq<Cell<T>>, head: Ptr, tail: Ptr, length: int)

  predicate InArena<T>(cells: seq<Cell<T>>, p: Ptr) {
    p.None? || p.value < |cells|
  }

  /** No link dangles: every reference names an allocated cell. */
  ghost predicate LinksInArena<T>(cells: seq<Cell<T>>) {
    forall i :: 0 <= i < |cells| ==> InArena(cells, cells[i].next) && InArena(cells, cells[i].prev)
  }

  ghost predicate WellFormed<T>(l: Links<T>) {
    LinksInArena(l.cells) && InArena(l.cells, l.head) && InArena(l.cells, l.tail)
  }

  /** `new Llist()`: no cells, null head and tail, length 0. */
  function Empty<T>(): Links<T> {
    Links([], None, None, 0)
  }

  // ---------------------------------------------------------------------------
  // Allocation (insertBefore / insertAfter)

  /** `insertAfter(node, value)`: a new cell whose `prev` is `node`, and
      `node.next` pointing to it. */
  function InsertAfter<T>(cells: seq<Cell<T>>, node: Ptr, v: T): (r: seq<Cell<T>>)
    requires LinksInArena(cells) && InArena(cells, node)
    ensures |r| == |cells| + 1 && LinksInArena(r)
    ensures r[|cells|] == Cell(v, None, node)
    ensures forall i :: 0 <= i < |cells| ==> r[i].data == cells[i].data && r[i].prev == cells[i].prev
    ensures forall i :: 0 <= i < |cells| && Some(i) != node ==> r[i] == cells[i]
    ensures node.Some? ==> r[node.value].next == Some(|cells|)
  {
    var n := |cells|;
    var linked := if node.Some? then cells[node.value := cells[node.value].(next := Some(n))] else cells;
    linked + [Cell(v, None, node)]
  }

  /** `insertBefore(node, value)`: a new cell whose `next` is `node`, and
      `node.prev` pointing to it. */
  function InsertBefore<T>(cells: seq<Cell<T>>, node: Ptr, v: T): (r: seq<Cell<T>>)
    requires LinksInArena(cells) && InArena(cells, node)
    ensures |r| == |cells| + 1 && LinksInArena(r)
    ensures r[|cells|] == Cell(v, node, None)
    ensures forall i :: 0 <= i < |cells| ==> r[i].data == cells[i].data && r[i].next == cells[i].next
    ensures forall i :: 0 <= i < |cells| && Some(i) != node ==> r[i] == cells[i]
    ensures node.Some? ==> r[node.value].prev == Some(|cells|)
  {
    var n := |cells|;
    var linked := if node.Some? then cells[node.value := cells[node.value].(prev := Some(n))] else cells;
    linked + [Cell(v, node, None)]
  }

  // ---------------------------------------------------------------------------
  // The four ends operations

  /** `push(value)`. */
  function Push<T>(l: Links<T>, v: T): (r: Links<T>)
    requires WellFormed(l)
    ensures WellFormed(r) && r.length == l.length + 1
    ensures r.tail == Some(|l.cells|) && r.cells[|l.cells|].data == v
  {
    var cells := InsertAfter(l.cells, l.tail, v);
    var n := |l.cells|;
    Links(cells, if l.length == 0 then Some(n) else l.head, Some(n), l.length + 1)
  }

  /** `unshift(value)`. */
  function Unshift<T>(l: Links<T>, v: T): (r: Links<T>)
    requires WellFormed(l)
    ensures WellFormed(r) && r.length == l.length + 1
    ensures r.head == Some(|l.cells|) && r.cells[|l.cells|].data == v
  {
    var cells := InsertBefore(l.cells, l.head, v);
    var n := |l.cells|;
    Links(cells, Some(n), if l.length == 0 then Some(n) else l.tail, l.length + 1)
  }

  /** Reading a field of `null` throws. */
  const NullRead := TypeError("Cannot read properties of null")

  /** `pop()` as written: the tail moves to `node.prev`, whose `next` still
      names the removed node. */
  function Pop<T>(l: Links<T>): (r: Result<(Option<T>, Links<T>)>)
    requires WellFormed(l)
    ensures r.Success? ==> WellFormed(r.value.1)
    ensures l.length == 0 ==> r == Success((None, l))
    ensures l.length != 0 && l.tail.Some? ==> r.Success? && r.value.0 == Some(l.cells[l.tail.value].data)
    ensures r.Success? && l.length != 0 ==> r.value.1.length == l.length - 1 && r.value.1.cells == l.cells
  {
    if l.length == 0 then Success((None, l))
    else match l.tail
      case None => Failure(NullRead)
      case Some(t) =>
        var node := l.cells[t];
        if l.length == 1 then Success((Some(node.data), Links(l.cells, None, None, 0)))
        else Success((Some(node.data), l.(tail := node.prev, length := l.length - 1)))
  }

  /** `shift()` as written: the head moves to `node.next`, whose `prev` still
      names the removed node. */
  function Shift<T>(l: Links<T>): (r: Result<(Option<T>, Links<T>)>)
    requires WellFormed(l)
    ensures r.Success? ==> WellFormed(r.value.1)
    ensures l.length == 0 ==> r == Success((None, l))
    ensures l.length != 0 && l.head.Some? ==> r.Success? && r.value.0 == Some(l.cells[l.head.value].data)
    ensures r.Success? && l.length != 0 ==> r.value.1.length == l.length - 1 && r.value.1.cells == l.cells
  {
    if l.length == 0 then Success((None, l))
    else match l.head
      case None => Failure(NullRead)
      case Some(h) =>
        var node := l.cells[h];
        if l.length == 1 then Success((Some(node.data), Links(l.cells, None, None, 0)))
        else Success((Some(node.data), l.(head := node.next, length := l.length - 1)))
  }

  /** `pop()` with the new tail's `next` cleared. */
  function PopFixed<T>(l: Links<T>): (r: Result<(Option<T>, Links<T>)>)
    requires WellFormed(l)
    ensures r.Success? ==> WellFormed(r.value.1)
    ensures r.Success? <==> Pop(l).Success?
    ensures r.Success? ==> r.value.0 == Pop(l).value.0 && r.value.1.length == Pop(l).value.1.length
  {
    match Pop(l)
    case Failure(e) => Failure(e)
    case Success((v, l')) =>
      if l.length > 1 && l'.tail.Some? then
        var t := l'.tail.value;
        Success((v, l'.(cells := l.cells[t := l.cells[t].(next := None)])))
      else Success((v, l'))
  }

  /** `shift()` with the new head's `prev` cleared. */
  function ShiftFixed<T>(l: Links<T>): (r: Result<(Option<T>, Links<T>)>)
    requires WellFormed(l)
    ensures r.Success? ==> WellFormed(r.value.1)
    ensures r.Success? <==> Shift(l).Success?
    ensures r.Success? ==> r.value.0 == Shift(l).value.0 && r.value.1.length == Shift(l).value.1.length
  {
    match Shift(l)
    case Failure(e) => Failure(e)
    case Success((v, l')) =>
      if l.length > 1 && l'.head.Some? then
        var h := l'.head.value;
        Success((v, l'.(cells := l.cells[h := l.cells[h].(prev := None)])))
      else Success((v, l'))
  }

  // ---------------------------------------------------------------------------
  // Walks

  /** `findNode(predicate, node)`: follow `next` until a node's data
      satisfies the predicate. */
  function FindNode<T>(cells: seq<Cell<T>>, node: Ptr, p: T -> bool, fuel: nat): (r: Ptr)
    requires LinksInArena(cells) && InArena(cells, node)
    ensures InArena(cells, r)
    ensures r.Some? ==> p(cells[r.value].data)
    decreases fuel
  {
    match node
    case None => None
    case Some(i) =>
      if fuel == 0 then None
      else if p(cells[i].data) then node
      else FindNode(cells, cells[i].next, p, fuel - 1)
  }

  /** `findByInd.right(start, end)`: follow `next`, counting up from `start`,
      until the count equals `end`. */
  function GoRight<T>(cells: seq<Cell<T>>, node: Ptr, start: int, end: int, fuel: nat): (r: Ptr)
    requires LinksInArena(cells) && InArena(cells, node)
    ensures InArena(cells, r)
    decreases fuel
  {
    match node
    case None => None
    case Some(i) =>
      if fuel == 0 then None
      else if start == end then node
      else GoRight(cells, cells[i].next, start + 1, end, fuel - 1)
  }

  /** `findByInd.left(start, end)`: follow `prev`, counting down. */
  function GoLeft<T>(cells: seq<Cell<T>>, node: Ptr, start: int, end: int, fuel: nat): (r: Ptr)
    requires LinksInArena(cells) && InArena(cells, node)
    ensures InArena(cells, r)
    decreases fuel
  {
    match node
    case None => None
    case Some(i) =>
      if fuel == 0 then None
      else if start == end then node
      else GoLeft(cells, cells[i].prev, start - 1, end, fuel - 1)
  }

  /** `traversal.left` feeding `acc = callback(acc, value)`. */
  function FoldFrom<T, A>(cells: seq<Cell<T>>, node: Ptr, f: (A, T) -> A, acc: A, fuel: nat): A
    requires LinksInArena(cells) && InArena(cells, node)
    decreases fuel
  {
    match node
    case None => acc
    case Some(i) =>
      if fuel == 0 then acc
      else FoldFrom(cells, cells[i].next, f, f(acc, cells[i].data), fuel - 1)
  }

  // ---------------------------------------------------------------------------
  // The public operations built on the walks

  function Find<T>(l: Links<T>, p: T -> bool): (r: Option<T>)
    requires WellFormed(l)
    ensures r.Some? ==> p(r.value)
  {
    match FindNode(l.cells, l.head, p, |l.cells|)
    case None => None
    case Some(i) => Some(l.cells[i].data)
  }

  /** `#removeNode(node)`: unlink the node from its neighbours (or move the
      head/tail past it) and decrement the length; `false` for `null`. */
  function RemoveNode<T>(l: Links<T>, node: Ptr): (r: (bool, Links<T>))
    requires WellFormed(l) && InArena(l.cells, node)
    ensures WellFormed(r.1) && |r.1.cells| == |l.cells|
    ensures r.0 <==> node.Some?
    ensures !r.0 ==> r.1 == l
    ensures r.0 ==> r.1.length == l.length - 1
  {
    match node
    case None => (false, l)
    case Some(i) =>
      var prev, next := l.cells[i].prev, l.cells[i].next;
      var cells1 := if prev.None? then l.cells else l.cells[prev.value := l.cells[prev.value].(next := next)];
      var cells2 := if next.None? then cells1 else cells1[next.value := cells1[next.value].(prev := prev)];
      (true, Links(cells2, if prev.None? then next else l.head, if next.None? then prev else l.tail, l.length - 1))
  }

  function Delete<T>(l: Links<T>, p: T -> bool): (r: (bool, Links<T>))
    requires WellFormed(l)
    ensures WellFormed(r.1)
    ensures !r.0 ==> r.1 == l
    ensures r.0 ==> r.1.length == l.length - 1
  {
    RemoveNode(l, FindNode(l.cells, l.head, p, |l.cells|))
  }

  function DeleteByValue<T(==)>(l: Links<T>, v: T): (r: (bool, Links<T>))
    requires WellFormed(l)
    ensures WellFormed(r.1)
    ensures !r.0 ==> r.1 == l
    ensures r.0 ==> r.1.length == l.length - 1
  {
    Delete(l, DLList.Is(v))
  }

  /** `#findByindex(index)`: from the head when the index is below
      `Math.floor(length / 2)`, otherwise from the tail.  Dafny's `/` by the
      positive constant 2 is the floor division the source asks for. */
  function FindByIndex<T>(l: Links<T>, index: int): (r: Ptr)
    requires WellFormed(l)
    ensures InArena(l.cells, r)
  {
    if l.length / 2 > index then GoRight(l.cells, l.head, 0, index, |l.cells|)
    else GoLeft(l.cells, l.tail, l.length - 1, index, |l.cells|)
  }

  function GetByIndex<T>(l: Links<T>, index: int): (r: Option<T>)
    requires WellFormed(l)
    ensures r.Some? <==> FindByIndex(l, index).Some?
  {
    match FindByIndex(l, index)
    case None => None
    case Some(i) => Some(l.cells[i].data)
  }

  function DelByIndex<T>(l: Links<T>, index: int): (r: (bool, Links<T>))
    requires WellFormed(l)
    ensures WellFormed(r.1)
    ensures r.0 <==> FindByIndex(l, index).Some?
  {
    RemoveNode(l, FindByIndex(l, index))
  }

  /** `swap(predicateA, predicateB)`: exchange the data of two found nodes. */
  function Swap<T>(l: Links<T>, pa: T -> bool, pb: T -> bool): (r: (bool, Links<T>))
    requires WellFormed(l)
    ensures WellFormed(r.1) && |r.1.cells| == |l.cells|
    ensures r.1.head == l.head && r.1.tail == l.tail && r.1.length == l.length
    ensures !r.0 ==> r.1 == l
  {
    var a := FindNode(l.cells, l.head, pa, |l.cells|);
    var b := FindNode(l.cells, l.head, pb, |l.cells|);
    if a.None? || b.None? then (false, l)
    else
      var temp := l.cells[a.value].data;
      var cells1 := l.cells[a.value := l.cells[a.value].(data := l.cells[b.value].data)];
      var cells2 := cells1[b.value := cells1[b.value].(data := temp)];
      (true, l.(cells := cells2))
  }

  /** `reduce(callback, initialValue)`. */
  function Reduce<T, A>(l: Links<T>, f: (A, T) -> A, init: A): (r: A)
    requires WellFormed(l)
    ensures l.length == 0 ==> r == init
  {
    if l.length == 0 then init else FoldFrom(l.cells, l.head, f, init, |l.cells|)
  }

  /** `reduce(callback)`: the head's data seeds the fold from `head.next`. */
  function ReduceNoSeed<T>(l: Links<T>, f: (T, T) -> T): (r: Result<Option<T>>)
    requires WellFormed(l)
    ensures l.length == 0 ==> r == Success(None)
  {
    if l.length == 0 then Success(None)
    else match l.head
      case None => Failure(NullRead)
      case Some(h) => Success(Some(FoldFrom(l.cells, l.cells[h].next, f, l.cells[h].data, |l.cells|)))
  }

  /** `destroy()`. */
  function Destroy<T>(l: Links<T>): (r: Links<T>)
    requires WellFormed(l)
    ensures WellFormed(r) && r.length == 0 && r.head.None? && r.tail.None?
  {
    Links(l.cells, None, None, 0)
  }
}

=== FILE: dllinks_repr.dfy ===
/** The refinement of the node links of src/js/datastructures/llist.js by
    the sequence model `DLList`.

    `Repr(l, ids)` says the cells `ids` form the list from head to tail.
    Every operation, with `PopFixed` and `ShiftFixed` in place of `pop` and
    `shift`, keeps `Repr` and acts on the values as the corresponding
    `DLList` function does.
 */
module DLLinksRepr {
  import opened Wrappers
  import opened DLLinks
  import DLList

  function At(ids: seq<nat>, k: int): Ptr {
    if 0 <= k < |ids| then Some(ids[k]) else None
  }

  /** The cells `ids` form the list head to tail: distinct, doubly linked in
      order, with `null` beyond both ends, and the length is their number. */
  ghost predicate Repr<T>(l: Links<T>, ids: seq<nat>) {
    && |ids| <= |l.cells|
    && (forall k :: 0 <= k < |ids| ==> ids[k] < |l.cells|)
    && (forall j, k :: 0 <= j < k < |ids| ==> ids[j] != ids[k])
    && l.length == |ids|
    && l.head == At(ids, 0)
    && l.tail == At(ids, |ids| - 1)
    && (forall k :: 0 <= k < |ids| ==> Linked(l, ids, k))
  }

  /** The k-th cell links to its neighbours in `ids`. */
  ghost predicate Linked<T>(l: Links<T>, ids: seq<nat>, k: int) {
    && 0 <= k < |ids| && ids[k] < |l.cells|
    && l.cells[ids[k]].next == At(ids, k + 1)
    && l.cells[ids[k]].prev == At(ids, k - 1)
  }

  /** The values the list holds, head to tail. */
  ghost function Values<T>(l: Links<T>, ids: seq<nat>): (s: seq<T>)
    requires forall k :: 0 <= k < |ids| ==> ids[k] < |l.cells|
    ensures |s| == |ids|
    ensures forall k :: 0 <= k < |ids| ==> s[k] == l.cells[ids[k]].data
  {
    seq(|ids|, k requires 0 <= k < |ids| => l.cells[ids[k]].data)
  }

  lemma EmptyRepr<T>()
    ensures WellFormed(Empty<T>()) && Empty<T>().head.None? && Empty<T>().tail.None?
    ensures Repr(Empty<T>(), []) && Values(Empty<T>(), []) == []
  {
  }

  lemma DestroyRepr<T>(l: Links<T>)
    requires WellFormed(l)
    ensures Repr(Destroy(l), []) && Values(Destroy(l), []) == DLList.Destroy([])
  {
  }

  /** `push` links a new tail cell. */
  lemma PushRefines<T>(l: Links<T>, ids: seq<nat>, v: T)
    requires WellFormed(l) && Repr(l, ids)
    ensures Repr(Push(l, v), ids + [|l.cells|])
    ensures Values(Push(l, v), ids + [|l.cells|]) == DLList.Push(Values(l, ids), v)
  {
    var r, ids' := Push(l, v), ids + [|l.cells|];
    forall k | 0 <= k < |ids'|
      ensures Linked(r, ids', k)
    {
      if k < |ids| {
        assert Linked(l, ids, k);
        if k < |ids| - 1 {
          assert ids[k] != ids[|ids| - 1];
        }
      }
    }
  }

  /** `unshift` links a new head cell. */
  lemma UnshiftRefines<T>(l: Links<T>, ids: seq<nat>, v: T)
    requires WellFormed(l) && Repr(l, ids)
    ensures Repr(Unshift(l, v), [|l.cells|] + ids)
    ensures Values(Unshift(l, v), [|l.cells|] + ids) == DLList.Unshift(Values(l, ids), v)
  {
    var r, ids' := Unshift(l, v), [|l.cells|] + ids;
    forall k | 0 <= k < |ids'|
      ensures Linked(r, ids', k)
    {
      UnshiftLinked(l, ids, v, k);
    }
    ConsDistinct(|l.cells|, ids);
    UnshiftValues(l, ids, v);
  }

  /** A cell index beyond every index of a distinct list keeps it distinct in front. */
  lemma ConsDistinct(x: nat, ids: seq<nat>)
    requires forall k :: 0 <= k < |ids| ==> ids[k] < x
    requires forall j, k :: 0 <= j < k < |ids| ==> ids[j] != ids[k]
    ensures forall j, k :: 0 <= j < k < |[x] + ids| ==> ([x] + ids)[j] != ([x] + ids)[k]
  {
    var ids' := [x] + ids;
    forall j, k | 0 <= j < k < |ids'|
      ensures ids'[j] != ids'[k]
    {
      assert ids'[k] == ids[k - 1];
      if j > 0 {
        assert ids'[j] == ids[j - 1];
      }
    }
  }

  lemma UnshiftValues<T>(l: Links<T>, ids: seq<nat>, v: T)
    requires WellFormed(l) && forall k :: 0 <= k < |ids| ==> ids[k] < |l.cells|
    ensures Values(Unshift(l, v), [|l.cells|] + ids) == DLList.Unshift(Values(l, ids), v)
  {
    var r, ids' := Unshift(l, v), [|l.cells|] + ids;
    var a, b := Values(r, ids'), Values(l, ids);
    assert a[1..] == b by {
      forall k | 0 <= k < |b|
        ensures a[1..][k] == b[k]
      {
        assert ids'[k + 1] == ids[k];
      }
    }
    HeadTail(a);
  }

  lemma HeadTail<T>(a: seq<T>)
    requires a != []
    ensures a == [a[0]] + a[1..]
  {
  }

  lemma UnshiftLinked<T>(l: Links<T>, ids: seq<nat>, v: T, k: nat)
    requires WellFormed(l) && Repr(l, ids) && k <= |ids|
    ensures Linked(Unshift(l, v), [|l.cells|] + ids, k)
  {
    var ids' := [|l.cells|] + ids;
    if k > 0 {
      assert ids'[k] == ids[k - 1];
      assert Linked(l, ids, k - 1);
      if k > 1 {
        assert ids[k - 1] != ids[0];
      }
    }
  }

  /** The corrected `pop` removes the tail cell from the chain. */
  lemma PopFixedRefines<T>(l: Links<T>, ids: seq<nat>)
    requires WellFormed(l) && Repr(l, ids)
    ensures PopFixed(l).Success?
    ensures ids == [] ==> PopFixed(l) == Success((None, l))
    ensures ids != [] ==>
      var r := PopFixed(l).value;
      && Repr(r.1, ids[..|ids| - 1])
      && (r.0, Values(r.1, ids[..|ids| - 1])) == DLList.Pop(Values(l, ids))
  {
    if ids != [] {
      var m := |ids| - 1;
      assert Linked(l, ids, m);
      var r := PopFixed(l).value;
      var ids' := ids[..m];
      forall k | 0 <= k < |ids'|
        ensures Linked(r.1, ids', k)
      {
        PopFixedLinked(l, ids, k);
      }
      forall k | 0 <= k < m
        ensures r.1.cells[ids[k]].data == l.cells[ids[k]].data
      {
      }
      assert Values(r.1, ids') == Values(l, ids)[..m];
    }
  }

  lemma PopFixedLinked<T>(l: Links<T>, ids: seq<nat>, k: nat)
    requires WellFormed(l) && Repr(l, ids) && k + 1 < |ids|
    ensures PopFixed(l).Success? && Linked(PopFixed(l).value.1, ids[..|ids| - 1], k)
  {
    var m := |ids| - 1;
    assert Linked(l, ids, m);
    assert Linked(l, ids, k);
    if k < m - 1 {
      assert ids[k] != ids[m - 1];
    }
  }

  /** The corrected `shift` removes the head cell from the chain. */
  lemma ShiftFixedRefines<T>(l: Links<T>, ids: seq<nat>)
    requires WellFormed(l) && Repr(l, ids)
    ensures ShiftFixed(l).Success?
    ensures ids == [] ==> ShiftFixed(l) == Success((None, l))
    ensures ids != [] ==>
      var r := ShiftFixed(l).value;
      && Repr(r.1, ids[1..])
      && (r.0, Values(r.1, ids[1..])) == DLList.Shift(Values(l, ids))
  {
    if ids != [] {
      assert Linked(l, ids, 0);
      var r := ShiftFixed(l).value;
      var ids' := ids[1..];
      forall k | 0 <= k < |ids'|
        ensures Linked(r.1, ids', k)
      {
        ShiftFixedLinked(l, ids, k);
      }
      forall j, k | 0 <= j < k < |ids'|
        ensures ids'[j] != ids'[k]
      {
        assert ids'[j] == ids[j + 1] && ids'[k] == ids[k + 1];
      }
      forall k | 0 <= k < |ids'|
        ensures r.1.cells[ids'[k]].data == l.cells[ids'[k]].data
      {
      }
      assert Values(r.1, ids') == Values(l, ids)[1..];
    }
  }

  lemma ShiftFixedLinked<T>(l: Links<T>, ids: seq<nat>, k: nat)
    requires WellFormed(l) && Repr(l, ids) && k + 1 < |ids|
    ensures ShiftFixed(l).Success? && Linked(ShiftFixed(l).value.1, ids[1..], k)
  {
    assert Linked(l, ids, 0);
    var ids' := ids[1..];
    assert ids'[k] == ids[k + 1];
    assert Linked(l, ids, k + 1);
    if k > 0 {
      assert ids[k + 1] != ids[1];
    }
  }

  function PtrAt(ids: seq<nat>, i: Option<nat>): Ptr {
    if i.Some? then At(ids, i.value) else None
  }

  /** Walking `next` from the k-th cell finds the first match at or after k. */
  lemma {:induction false} FindNodeFollowsIds<T>(l: Links<T>, ids: seq<nat>, p: T -> bool, k: nat, fuel: nat)
    requires WellFormed(l) && Repr(l, ids)
    requires k <= |ids| && fuel >= |ids| - k
    ensures FindNode(l.cells, At(ids, k), p, fuel) == PtrAt(ids, DLList.IndexFrom(Values(l, ids), p, k))
    decreases |ids| - k
  {
    if k < |ids| {
      assert Linked(l, ids, k);
      if !p(l.cells[ids[k]].data) {
        FindNodeFollowsIds(l, ids, p, k + 1, fuel - 1);
      }
    }
  }

  lemma FindRefines<T>(l: Links<T>, ids: seq<nat>, p: T -> bool)
    requires WellFormed(l) && Repr(l, ids)
    ensures Find(l, p) == DLList.Find(Values(l, ids), p)
  {
    FindNodeFollowsIds(l, ids, p, 0, |l.cells|);
  }

  /** Dropping one entry of a list of distinct cells leaves them distinct. */
  lemma RemoveAtDistinct(ids: seq<nat>, j: nat)
    requires j < |ids|
    requires forall a, b :: 0 <= a < b < |ids| ==> ids[a] != ids[b]
    ensures var ids' := DLList.RemoveAt(ids, j);
      forall a, b :: 0 <= a < b < |ids'| ==> ids'[a] != ids'[b]
  {
    var ids' := DLList.RemoveAt(ids, j);
    forall a, b | 0 <= a < b < |ids'|
      ensures ids'[a] != ids'[b]
    {
      var a', b' := if a < j then a else a + 1, if b < j then b else b + 1;
      assert ids'[a] == ids[a'] && ids'[b] == ids[b'];
    }
  }

  /** Cells before the removed one keep their links, except that its
      predecessor now names its successor. */
  lemma RemoveNodeLinksBefore<T>(l: Links<T>, ids: seq<nat>, j: nat, k: nat)
    requires WellFormed(l) && Repr(l, ids) && k < j < |ids|
    ensures Linked(RemoveNode(l, Some(ids[j])).1, DLList.RemoveAt(ids, j), k)
  {
    assert Linked(l, ids, j);
    assert Linked(l, ids, k);
    assert ids[k] != ids[j];
    if k < j - 1 {
      assert ids[k] != ids[j - 1];
    }
    if j + 1 < |ids| {
      assert ids[k] != ids[j + 1];
    }
  }

  /** Cells after the removed one keep their links, except that its
      successor now names its predecessor. */
  lemma RemoveNodeLinksAfter<T>(l: Links<T>, ids: seq<nat>, j: nat, k: nat)
    requires WellFormed(l) && Repr(l, ids) && j <= k < |ids| - 1
    ensures Linked(RemoveNode(l, Some(ids[j])).1, DLList.RemoveAt(ids, j), k)
  {
    assert Linked(l, ids, j);
    assert Linked(l, ids, k + 1);
    assert ids[k + 1] != ids[j];
    if j > 0 {
      assert ids[k + 1] != ids[j - 1];
    }
    if k > j {
      assert ids[k + 1] != ids[j + 1];
    }
  }

  /** Unlinking the j-th cell removes it from the chain. */
  lemma RemoveNodeRefines<T>(l: Links<T>, ids: seq<nat>, j: nat)
    requires WellFormed(l) && Repr(l, ids) && j < |ids|
    ensures RemoveNode(l, Some(ids[j])).0
    ensures Repr(RemoveNode(l, Some(ids[j])).1, DLList.RemoveAt(ids, j))
    ensures Values(RemoveNode(l, Some(ids[j])).1, DLList.RemoveAt(ids, j)) == DLList.RemoveAt(Values(l, ids), j)
  {
    var r := RemoveNode(l, Some(ids[j])).1;
    var ids' := DLList.RemoveAt(ids, j);
    RemoveAtDistinct(ids, j);
    assert Linked(l, ids, j);
    forall k | 0 <= k < |ids'|
      ensures Linked(r, ids', k)
    {
      if k < j {
        RemoveNodeLinksBefore(l, ids, j, k);
      } else {
        RemoveNodeLinksAfter(l, ids, j, k);
      }
    }
    forall k | 0 <= k < |ids'|
      ensures r.cells[ids'[k]].data == l.cells[ids'[k]].data
    {
    }
  }

  lemma DeleteRefines<T>(l: Links<T>, ids: seq<nat>, p: T -> bool)
    requires WellFormed(l) && Repr(l, ids)
    ensures var r := Delete(l, p);
      var d := DLList.Delete(Values(l, ids), p);
      var i := DLList.FirstIndex(Values(l, ids), p);
      && r.0 == d.0
      && (!r.0 ==> r.1 == l)
      && (r.0 ==> Repr(r.1, DLList.RemoveAt(ids, i.value)) && Values(r.1, DLList.RemoveAt(ids, i.value)) == d.1)
  {
    FindNodeFollowsIds(l, ids, p, 0, |l.cells|);
    var i := DLList.FirstIndex(Values(l, ids), p);
    if i.Some? {
      RemoveNodeRefines(l, ids, i.value);
    }
  }

  /** `deleteByValue` on the cells unlinks the cell of the value's first
      occurrence, so it implements `deleteByValue` on the sequence. */
  lemma DeleteByValueRefines<T>(l: Links<T>, ids: seq<nat>, v: T)
    requires WellFormed(l) && Repr(l, ids)
    ensures var r := DeleteByValue(l, v);
      var d := DLList.DeleteByValue(Values(l, ids), v);
      && r.0 == d.0
      && (!r.0 ==> r.1 == l)
      && (r.0 ==> exists ids' :: Repr(r.1, ids') && Values(r.1, ids') == d.1)
  {
    var p := DLList.Is(v);
    DeleteRefines(l, ids, p);
    var i := DLList.FirstIndex(Values(l, ids), p);
    if i.Some? {
      var ids' := DLList.RemoveAt(ids, i.value);
      assert Repr(DeleteByValue(l, v).1, ids');
    }
  }

  /** Walking `next` from the k-th cell while counting from k stops at
      position `end`, or runs off the tail. */
  lemma {:induction false} GoRightFollowsIds<T>(l: Links<T>, ids: seq<nat>, k: nat, end: int, fuel: nat)
    requires WellFormed(l) && Repr(l, ids)
    requires k <= |ids| && fuel >= |ids| - k
    ensures GoRight(l.cells, At(ids, k), k, end, fuel) == (if k <= end then At(ids, end) else None)
    decreases |ids| - k
  {
    if k < |ids| && k != end {
      assert Linked(l, ids, k);
      GoRightFollowsIds(l, ids, k + 1, end, fuel - 1);
    }
  }

  lemma {:induction false} GoLeftFollowsIds<T>(l: Links<T>, ids: seq<nat>, k: int, end: int, fuel: nat)
    requires WellFormed(l) && Repr(l, ids)
    requires -1 <= k < |ids| && fuel >= k + 1
    ensures GoLeft(l.cells, At(ids, k), k, end, fuel) == (if end <= k then At(ids, end) else None)
    decreases k + 1
  {
    if k >= 0 && k != end {
      assert Linked(l, ids, k);
      GoLeftFollowsIds(l, ids, k - 1, end, fuel - 1);
    }
  }

  /** Whichever end the index walk starts from, it finds the cell at the
      index, and `null` for any index outside the list. */
  lemma FindByIndexRefines<T>(l: Links<T>, ids: seq<nat>, index: int)
    requires WellFormed(l) && Repr(l, ids)
    ensures FindByIndex(l, index) == At(ids, index)
    ensures GetByIndex(l, index) == DLList.GetByIndex(Values(l, ids), index)
  {
    if l.length / 2 > index {
      GoRightFollowsIds(l, ids, 0, index, |l.cells|);
    } else {
      GoLeftFollowsIds(l, ids, |ids| - 1, index, |l.cells|);
    }
  }

  lemma DelByIndexRefines<T>(l: Links<T>, ids: seq<nat>, index: int)
    requires WellFormed(l) && Repr(l, ids)
    ensures var r := DelByIndex(l, index);
      && r.0 == DLList.DelByIndex(Values(l, ids), index).0
      && (!r.0 ==> r.1 == l)
      && (r.0 ==> Repr(r.1, DLList.RemoveAt(ids, index)) && Values(r.1, DLList.RemoveAt(ids, index)) == DLList.DelByIndex(Values(l, ids), index).1)
  {
    FindByIndexRefines(l, ids, index);
    if 0 <= index < |ids| {
      RemoveNodeRefines(l, ids, index);
    }
  }

  lemma SwapRefines<T>(l: Links<T>, ids: seq<nat>, pa: T -> bool, pb: T -> bool)
    requires WellFormed(l) && Repr(l, ids)
    ensures Repr(Swap(l, pa, pb).1, ids)
    ensures (Swap(l, pa, pb).0, Values(Swap(l, pa, pb).1, ids)) == DLList.Swap(Values(l, ids), pa, pb)
  {
    FindNodeFollowsIds(l, ids, pa, 0, |l.cells|);
    FindNodeFollowsIds(l, ids, pb, 0, |l.cells|);
    var s := Values(l, ids);
    var r := Swap(l, pa, pb);
    var ia, ib := DLList.FirstIndex(s, pa), DLList.FirstIndex(s, pb);
    if ia.Some? && ib.Some? {
      var a, b := ia.value, ib.value;
      forall k | 0 <= k < |ids|
        ensures Linked(r.1, ids, k)
      {
        assert Linked(l, ids, k);
      }
      SwapValues(l, ids, pa, pb);
    }
  }

  lemma SwapValues<T>(l: Links<T>, ids: seq<nat>, pa: T -> bool, pb: T -> bool)
    requires WellFormed(l) && Repr(l, ids)
    ensures DLList.FirstIndex(Values(l, ids), pa).Some? && DLList.FirstIndex(Values(l, ids), pb).Some? ==>
      Values(Swap(l, pa, pb).1, ids) == DLList.Swap(Values(l, ids), pa, pb).1
  {
    var s := Values(l, ids);
    if DLList.FirstIndex(s, pa).Some? && DLList.FirstIndex(s, pb).Some? {
      FindNodeFollowsIds(l, ids, pa, 0, |l.cells|);
      FindNodeFollowsIds(l, ids, pb, 0, |l.cells|);
      var r := Swap(l, pa, pb);
      var a, b := DLList.FirstIndex(s, pa).value, DLList.FirstIndex(s, pb).value;
      forall k | 0 <= k < |ids|
        ensures r.1.cells[ids[k]].data == DLList.Swap(s, pa, pb).1[k]
      {
        if k != a && k != b {
          assert ids[k] != ids[a] && ids[k] != ids[b];
        }
      }
    }
  }

  lemma {:induction false} FoldFromFollowsIds<T, A>(l: Links<T>, ids: seq<nat>, f: (A, T) -> A, acc: A, k: nat, fuel: nat)
    requires WellFormed(l) && Repr(l, ids)
    requires k <= |ids| && fuel >= |ids| - k
    ensures FoldFrom(l.cells, At(ids, k), f, acc, fuel) == DLList.FoldLeft(Values(l, ids)[k..], f, acc)
    decreases |ids| - k
  {
    var s := Values(l, ids);
    if k < |ids| {
      assert Linked(l, ids, k);
      FoldFromFollowsIds(l, ids, f, f(acc, s[k]), k + 1, fuel - 1);
      assert s[k..][1..] == s[k + 1..];
    }
  }

  lemma ReduceRefines<T, A>(l: Links<T>, ids: seq<nat>, f: (A, T) -> A, init: A)
    requires WellFormed(l) && Repr(l, ids)
    ensures Reduce(l, f, init) == DLList.Reduce(Values(l, ids), f, init)
  {
    var s := Values(l, ids);
    FoldFromFollowsIds(l, ids, f, init, 0, |l.cells|);
    assert s[0..] == s;
  }

  lemma ReduceNoSeedRefines<T>(l: Links<T>, ids: seq<nat>, f: (T, T) -> T)
    requires WellFormed(l) && Repr(l, ids)
    ensures ReduceNoSeed(l, f) == Success(DLList.ReduceNoSeed(Values(l, ids), f))
  {
    var s := Values(l, ids);
    if ids != [] {
      assert Linked(l, ids, 0);
      FoldFromFollowsIds(l, ids, f, s[0], 1, |l.cells|);
    }
  }

  /** The tail of a represented list links nowhere forward. */
  lemma ReprTailEnds<T>(l: Links<T>, ids: seq<nat>)
    requires Repr(l, ids)
    ensures l.tail.Some? ==> l.tail.value < |l.cells| && l.cells[l.tail.value].next.None?
  {
    if |ids| > 0 {
      assert Linked(l, ids, |ids| - 1);
    }
  }

  /** The head of a represented list links nowhere back. */
  lemma ReprHeadStarts<T>(l: Links<T>, ids: seq<nat>)
    requires Repr(l, ids)
    ensures l.head.Some? ==> l.head.value < |l.cells| && l.cells[l.head.value].prev.None?
  {
    if |ids| > 0 {
      assert Linked(l, ids, 0);
    }
  }
}

=== FILE: dllinks_stale.dfy ===
/** The stale links `pop` and `shift` in src/js/datastructures/llist.js
    leave behind: for each, one list on which the public operations show
    it, the same list under the corrected `PopFixed` or `ShiftFixed`, and
    the general statement that no sequence of cells represents what `pop`
    or `shift` returns on a list of two or more.
 */
module DLLinksStale {
  import opened Wrappers
  import opened DLLinks
  import opened DLLinksRepr
  import DLList

  /** After `push(1)`, `push(2)`, `pop()` the list holds only 1, yet `find`
      walks from 1 over the stale `next` link and returns 2, and
      `deleteByValue(2)` answers true and takes the length to 0 while 1 is
      still reachable from the head. */
  lemma PopLeavesStaleNext()
    ensures var l := Push(Push(Empty<int>(), 1), 2);
      && Pop(l).Success?
      && var l' := Pop(l).value.1;
      && l'.length == 1 && GetByIndex(l', 0) == Some(1)
      && Find(l', x => x == 2) == Some(2)
      && DeleteByValue(l', 2).0
      && DeleteByValue(l', 2).1.length == 0
      && Find(DeleteByValue(l', 2).1, x => x == 1) == Some(1)
  {
    var l := Push(Push(Empty<int>(), 1), 2);
    assert l.cells == [Cell(1, Some(1), None), Cell(2, None, Some(0))];
    var l' := Pop(l).value.1;
    assert l' == Links(l.cells, Some(0), Some(0), 1);
    assert FindNode(l'.cells, Some(0), x => x == 2, 2) == Some(1);
    assert GoLeft(l'.cells, Some(0), 0, 0, 2) == Some(0);
    var d := DeleteByValue(l', 2).1;
    assert d == Links([Cell(1, None, None), Cell(2, None, Some(0))], Some(0), Some(0), 0);
    assert FindNode(d.cells, Some(0), x => x == 1, 2) == Some(0);
  }

  /** On any list of two or more, `pop` as written leaves the new tail
      linked forward to the removed cell, so no sequence of cells represents
      the list it returns. */
  lemma PopLeavesNoRepr<T>(l: Links<T>, ids: seq<nat>)
    requires WellFormed(l) && Repr(l, ids) && |ids| >= 2
    ensures Pop(l).Success? && Pop(l).value.1.tail == Some(ids[|ids| - 2])
    ensures Pop(l).value.1.cells[ids[|ids| - 2]].next == Some(ids[|ids| - 1])
    ensures forall ids' :: !Repr(Pop(l).value.1, ids')
  {
    var n := |ids|;
    assert Linked(l, ids, n - 1);
    assert Linked(l, ids, n - 2);
    var l' := Pop(l).value.1;
    forall ids' | Repr(l', ids')
      ensures false
    {
      ReprTailEnds(l', ids');
    }
  }

  /** After `push(1)`, `push(2)`, `push(3)`, `shift()` the new head (holding
      2) still names the removed cell as its `prev`.  `deleteByValue(2)`
      then takes the `prev !== null` branch of `#removeNode`: it relinks the
      removed cell and leaves `#head` on the deleted node, so it answers
      true, the length drops to 1, and `find` still returns 2. */
  lemma ShiftThenDeleteKeepsHead()
    ensures var l := Push(Push(Push(Empty<int>(), 1), 2), 3);
      && Shift(l).Success?
      && var l' := Shift(l).value.1;
      && l'.length == 2 && GetByIndex(l', 0) == Some(2)
      && DeleteByValue(l', 2).0
      && DeleteByValue(l', 2).1.length == 1
      && DeleteByValue(l', 2).1.head == l'.head
      && Find(DeleteByValue(l', 2).1, x => x == 2) == Some(2)
  {
    var l := Push(Push(Push(Empty<int>(), 1), 2), 3);
    assert l.cells == [Cell(1, Some(1), None), Cell(2, Some(2), Some(0)), Cell(3, None, Some(1))];
    var l' := Shift(l).value.1;
    assert l' == Links(l.cells, Some(1), Some(2), 2);
    assert GoRight(l'.cells, Some(1), 0, 0, 3) == Some(1);
    assert FindNode(l'.cells, Some(1), x => x == 2, 3) == Some(1);
    var d := DeleteByValue(l', 2).1;
    assert d == Links([Cell(1, Some(2), None), Cell(2, Some(2), Some(0)), Cell(3, None, Some(0))], Some(1), Some(2), 1);
    assert FindNode(d.cells, Some(1), x => x == 2, 3) == Some(1);
  }

  /** The corrected `shift` on the same list: `deleteByValue(2)` moves the
      head to the cell holding 3, and 2 is no longer found. */
  lemma ShiftFixedThenDeleteDropsValue()
    ensures var l := Push(Push(Push(Empty<int>(), 1), 2), 3);
      && ShiftFixed(l).Success?
      && var l' := ShiftFixed(l).value.1;
      && DeleteByValue(l', 2).0
      && DeleteByValue(l', 2).1.length == 1
      && DeleteByValue(l', 2).1.head == Some(2)
      && Find(DeleteByValue(l', 2).1, x => x == 2) == None
  {
    var l := Push(Push(Push(Empty<int>(), 1), 2), 3);
    assert l.cells == [Cell(1, Some(1), None), Cell(2, Some(2), Some(0)), Cell(3, None, Some(1))];
    var l' := ShiftFixed(l).value.1;
    assert l' == Links([Cell(1, Some(1), None), Cell(2, Some(2), None), Cell(3, None, Some(1))], Some(1), Some(2), 2);
    assert FindNode(l'.cells, Some(1), x => x == 2, 3) == Some(1);
    var d := DeleteByValue(l', 2).1;
    assert d == Links([Cell(1, Some(1), None), Cell(2, Some(2), None), Cell(3, None, None)], Some(2), Some(2), 1);
    assert FindNode(d.cells, Some(2), x => x == 2, 3) == None;
  }

  /** Symmetrically, `shift` as written leaves the new head linked back to
      the removed cell, so no sequence of cells represents what it returns. */
  lemma ShiftLeavesNoRepr<T>(l: Links<T>, ids: seq<nat>)
    requires WellFormed(l) && Repr(l, ids) && |ids| >= 2
    ensures Shift(l).Success? && Shift(l).value.1.head == Some(ids[1])
    ensures Shift(l).value.1.cells[ids[1]].prev == Some(ids[0])
    ensures forall ids' :: !Repr(Shift(l).value.1, ids')
  {
    assert Linked(l, ids, 0);
    assert Linked(l, ids, 1);
    var l' := Shift(l).value.1;
    forall ids' | Repr(l', ids')
      ensures false
    {
      ReprHeadStarts(l', ids');
    }
  }

  /** The corrected `pop` leaves nothing to find on the same sequence. */
  lemma PopFixedDropsLink()
    ensures var l := Push(Push(Empty<int>(), 1), 2);
      && PopFixed(l).Success?
      && Find(PopFixed(l).value.1, x => x == 2) == None
      && DeleteByValue(PopFixed(l).value.1, 2) == (false, PopFixed(l).value.1)
  {
    var l := Push(Push(Empty<int>(), 1), 2);
    assert l.cells == [Cell(1, Some(1), None), Cell(2, None, Some(0))];
    var l' := PopFixed(l).value.1;
    assert l' == Links([Cell(1, None, None), Cell(2, None, Some(0))], Some(0), Some(0), 1);
    assert FindNode(l'.cells, Some(0), x => x == 2, 2) == None;
  }
}

=== FILE: dllist.dfy ===
/** The doubly linked list of src/js/datastructures/llist.js, seen as the
    sequence of values from head to tail.

    This module states what each operation does to that sequence when the
    links are kept consistent; `DLLinks` models the node links themselves and
    relates the two.
 */
module DLList {
  import opened Wrappers

  // ---------------------------------------------------------------------------
  // Ends of the list

  /** `push(value)`: the value becomes the new tail. */
  function Push<T>(s: seq<T>, v: T): (r: seq<T>)
    ensures |r| == |s| + 1 && r[..|s|] == s && r[|s|] == v
  {
    s + [v]
  }

  /** `unshift(value)`: the value becomes the new head. */
  function Unshift<T>(s: seq<T>, v: T): (r: seq<T>)
    ensures |r| == |s| + 1 && r[1..] == s && r[0] == v
  {
    [v] + s
  }

  /** `pop()`: the tail value and the remaining list; `null` on an empty list,
      which stays empty. */
  function Pop<T>(s: seq<T>): (r: (Option<T>, seq<T>))
    ensures s == [] <==> r.0.None?
    ensures s == [] ==> r.1 == []
    ensures r.0.Some? ==> r.1 + [r.0.value] == s
  {
    if s == [] then (None, []) else (Some(s[|s| - 1]), s[..|s| - 1])
  }

  /** `shift()`: the head value and the remaining list. */
  function Shift<T>(s: seq<T>): (r: (Option<T>, seq<T>))
    ensures s == [] <==> r.0.None?
    ensures s == [] ==> r.1 == []
    ensures r.0.Some? ==> [r.0.value] + r.1 == s
  {
    if s == [] then (None, []) else (Some(s[0]), s[1..])
  }

  /** `pop` undoes `push`, `shift` undoes `unshift`. */
  lemma PopUndoesPush<T>(s: seq<T>, v: T)
    ensures Pop(Push(s, v)) == (Some(v), s)
    ensures Shift(Unshift(s, v)) == (Some(v), s)
  {
    assert (s + [v])[..|s|] == s;
    assert ([v] + s)[1..] == s;
  }

  // ---------------------------------------------------------------------------
  // Search from the head

  /** The first position at or after `k` whose value satisfies `p`. */
  function IndexFrom<T>(s: seq<T>, p: T -> bool, k: nat): (r: Option<nat>)
    ensures r.Some? ==> k <= r.value < |s| && p(s[r.value])
    ensures r.Some? ==> forall j :: k <= j < r.value ==> !p(s[j])
    ensures r.None? ==> forall j :: k <= j < |s| ==> !p(s[j])
    decreases |s| - k
  {
    if k >= |s| then None
    else if p(s[k]) then Some(k)
    else IndexFrom(s, p, k + 1)
  }

  function FirstIndex<T>(s: seq<T>, p: T -> bool): (r: Option<nat>)
    ensures r.Some? <==> exists i :: 0 <= i < |s| && p(s[i])
    ensures r.Some? ==> r.value < |s| && p(s[r.value]) && forall j :: 0 <= j < r.value ==> !p(s[j])
  {
    IndexFrom(s, p, 0)
  }

  /** `find(predicate)`: the first value from the head satisfying the
      predicate, or `null`. */
  function Find<T>(s: seq<T>, p: T -> bool): (r: Option<T>)
    ensures r.Some? <==> exists i :: 0 <= i < |s| && p(s[i])
    ensures r.Some? ==> exists i :: 0 <= i < |s| && s[i] == r.value && p(s[i]) && forall j :: 0 <= j < i ==> !p(s[j])
  {
    match FirstIndex(s, p)
    case None => None
    case Some(i) => Some(s[i])
  }

  /** The list without its element at position `i`. */
  function RemoveAt<T>(s: seq<T>, i: nat): (r: seq<T>)
    requires i < |s|
    ensures |r| == |s| - 1
    ensures forall j :: 0 <= j < i ==> r[j] == s[j]
    ensures forall j :: i <= j < |r| ==> r[j] == s[j + 1]
  {
    s[..i] + s[i + 1..]
  }

  lemma RemoveAtMultiset<T>(s: seq<T>, i: nat)
    requires i < |s|
    ensures multiset(RemoveAt(s, i)) == multiset(s) - multiset{s[i]}
  {
    assert s == s[..i] + [s[i]] + s[i + 1..];
  }

  /** `delete(predicate)`: remove the first match and answer `true`, or
      answer `false` and keep the list. */
  function Delete<T>(s: seq<T>, p: T -> bool): (r: (bool, seq<T>))
    ensures r.0 <==> exists i :: 0 <= i < |s| && p(s[i])
    ensures !r.0 ==> r.1 == s
    ensures r.0 ==> exists i :: 0 <= i < |s| && p(s[i]) && (forall j :: 0 <= j < i ==> !p(s[j])) && r.1 == RemoveAt(s, i)
  {
    match FirstIndex(s, p)
    case None => (false, s)
    case Some(i) => (true, RemoveAt(s, i))
  }

  /** The predicate `v => value === v` that `deleteByValue` hands to
      `delete`. */
  function Is<T(==)>(v: T): T -> bool {
    x => x == v
  }

  /** `deleteByValue(value)`: `delete` with an equality test, so the first
      occurrence of the value from the head is removed. */
  function DeleteByValue<T(==)>(s: seq<T>, v: T): (r: (bool, seq<T>))
    ensures r.0 <==> v in s
    ensures !r.0 ==> r.1 == s
    ensures r.0 ==> multiset(r.1) == multiset(s) - multiset{v}
    ensures r.0 ==> exists i :: 0 <= i < |s| && s[i] == v && v !in s[..i] && r.1 == RemoveAt(s, i)
  {
    var r := Delete(s, Is(v));
    if r.0 then
      var i := FirstIndex(s, Is(v)).value;
      RemoveAtMultiset(s, i);
      assert v !in s[..i];
      r
    else
      r
  }

  // ---------------------------------------------------------------------------
  // Positions

  /** `getByIndex(index)`: the value at the index, or `null` for an index
      outside the list. */
  function GetByIndex<T>(s: seq<T>, i: int): (r: Option<T>)
    ensures r.Some? <==> 0 <= i < |s|
    ensures r.Some? ==> r.value == s[i]
  {
    if 0 <= i < |s| then Some(s[i]) else None
  }

  /** Values keep their index when pushing and shift by one when unshifting. */
  lemma IndexAfterEnds<T>(s: seq<T>, v: T, i: int)
    ensures GetByIndex(Push(s, v), i) == (if i == |s| then Some(v) else GetByIndex(s, i))
    ensures GetByIndex(Unshift(s, v), i) == (if i == 0 then Some(v) else GetByIndex(s, i - 1))
  {
  }

  /** `delByIndex(index)`: remove the value at the index. */
  function DelByIndex<T>(s: seq<T>, i: int): (r: (bool, seq<T>))
    ensures r.0 <==> 0 <= i < |s|
    ensures !r.0 ==> r.1 == s
    ensures r.0 ==> r.1 == RemoveAt(s, i)
  {
    if 0 <= i < |s| then (true, RemoveAt(s, i)) else (false, s)
  }

  // ---------------------------------------------------------------------------
  // Swap, fold, destroy

  /** `swap(predicateA, predicateB)`: exchange the values of the first matches
      of both predicates; `false` and no change when either has none. */
  function Swap<T>(s: seq<T>, pa: T -> bool, pb: T -> bool): (r: (bool, seq<T>))
    ensures r.0 <==> (exists i :: 0 <= i < |s| && pa(s[i])) && (exists i :: 0 <= i < |s| && pb(s[i]))
    ensures !r.0 ==> r.1 == s
    ensures |r.1| == |s| && multiset(r.1) == multiset(s)
    ensures r.0 ==> var a, b := FirstIndex(s, pa).value, FirstIndex(s, pb).value;
      && r.1[a] == s[b] && r.1[b] == s[a]
      && forall j :: 0 <= j < |s| && j != a && j != b ==> r.1[j] == s[j]
  {
    match (FirstIndex(s, pa), FirstIndex(s, pb))
    case (Some(a), Some(b)) =>
      var t := s[a := s[b]][b := s[a]];
      assert multiset(t) == multiset(s) by {
        if a != b {
          assert t == s[a := s[b]][b := s[a]];
        }
      }
      (true, t)
    case _ => (false, s)
  }

  function FoldLeft<T, A>(s: seq<T>, f: (A, T) -> A, acc: A): A {
    if s == [] then acc else FoldLeft(s[1..], f, f(acc, s[0]))
  }

  /** Folding a longer list applies the callback once more at the end. */
  lemma {:induction false} FoldLeftSnoc<T, A>(s: seq<T>, f: (A, T) -> A, acc: A, x: T)
    ensures FoldLeft(s + [x], f, acc) == f(FoldLeft(s, f, acc), x)
  {
    if s == [] {
      assert [x][1..] == [];
    } else {
      assert (s + [x])[1..] == s[1..] + [x];
      FoldLeftSnoc(s[1..], f, f(acc, s[0]), x);
    }
  }

  /** `reduce(callback, initialValue)`: fold from the head with the seed; an
      empty list returns the seed. */
  function Reduce<T, A>(s: seq<T>, f: (A, T) -> A, init: A): (r: A)
    ensures s == [] ==> r == init
    ensures |s| == 1 ==> r == f(init, s[0])
  {
    assert |s| == 1 ==> s[1..] == [] && FoldLeft(s, f, init) == FoldLeft(s[1..], f, f(init, s[0]));
    FoldLeft(s, f, init)
  }

  /** `reduce(callback)` with no seed: the head value seeds the fold over the
      rest; on an empty list the missing seed, `undefined`, is returned. */
  function ReduceNoSeed<T>(s: seq<T>, f: (T, T) -> T): (r: Option<T>)
    ensures s == [] <==> r.None?
    ensures |s| == 1 ==> r == Some(s[0])
  {
    if s == [] then None else Some(FoldLeft(s[1..], f, s[0]))
  }

  /** The callback sees the values in head-to-tail order: pushing a value
      feeds it to the callback last. */
  lemma ReduceAfterPush<T, A>(s: seq<T>, f: (A, T) -> A, init: A, v: T)
    ensures Reduce(Push(s, v), f, init) == f(Reduce(s, f, init), v)
  {
    FoldLeftSnoc(s, f, init, v);
  }

  /** Without a seed the head is consumed as the seed: the same as seeding
      the rest of the list with the head. */
  lemma ReduceNoSeedAfterPush<T>(s: seq<T>, f: (T, T) -> T, v: T)
    requires s != []
    ensures ReduceNoSeed(Push(s, v), f) == Some(f(ReduceNoSeed(s, f).value, v))
    ensures ReduceNoSeed(s, f) == Some(Reduce(s[1..], f, s[0]))
  {
    assert Push(s, v)[1..] == s[1..] + [v];
    FoldLeftSnoc(s[1..], f, s[0], v);
  }

  /** `destroy()`: an empty list, ready for reuse. */
  function Destroy<T>(s: seq<T>): (r: seq<T>)
    ensures |r| == 0
  {
    []
  }

  /** A destroyed list behaves as a new one. */
  lemma DestroyedIsReusable<T>(s: seq<T>, v: T)
    ensures Pop(Destroy(s)) == (None, [])
    ensures Push(Destroy(s), v) == [v] && Unshift(Destroy(s), v) == [v]
  {
  }
}

=== FILE: heaporder.dfy ===
/** Max-heap order on an array prefix, and the sift-down step shared by
    `MaxBinHeap.heapify` (src/js/datastructures/heaps.js) and the heap sort's
    `heapify` (src/js/algorithms/sorting.js).

    The prefix `a[..n]` is a binary tree: the children of `i` are `2i+1` and
    `2i+2`, the parent of `c > 0` is `(c-1)/2`.  Values are compared with `<`
    and `>` as numbers.
 */
module HeapOrder {
  import opened SortSpec

  function Parent(c: nat): nat
    requires c > 0
  {
    (c - 1) / 2
  }

  /** Every parent-child pair inside the prefix whose parent is at index `i`
      or beyond is ordered: the parent is at least the child. */
  ghost predicate HeapFrom(a: seq<int>, n: nat, i: nat)
    requires n <= |a|
  {
    forall c :: 0 < c < n && Parent(c) >= i ==> a[Parent(c)] >= a[c]
  }

  ghost predicate IsHeap(a: seq<int>, n: nat)
    requires n <= |a|
  {
    HeapFrom(a, n, 0)
  }

  /** `largest(index)`: the index among `i` and its children inside the prefix
      whose value is greatest; a child replaces the current candidate only when
      strictly greater, so ties keep the parent, then the left child. */
  function Largest(a: seq<int>, n: nat, i: nat): (r: nat)
    requires i < n <= |a|
    ensures r == i || r == 2 * i + 1 || r == 2 * i + 2
    ensures i <= r < n
    ensures a[r] >= a[i]
    ensures 2 * i + 1 < n ==> a[r] >= a[2 * i + 1]
    ensures 2 * i + 2 < n ==> a[r] >= a[2 * i + 2]
    ensures r != i ==> a[r] > a[i]
  {
    var left, right := 2 * i + 1, 2 * i + 2;
    if left < n then
      var m := if a[left] > a[i] then left else i;
      if right < n && a[right] > a[m] then right else m
    else i
  }

  /** `k` lies in the subtree rooted at `i`. */
  ghost predicate InSubtree(i: nat, k: nat)
    decreases k
  {
    k == i || (k > i && InSubtree(i, (k - 1) / 2))
  }

  /** A child's subtree is part of its parent's subtree. */
  lemma {:induction false} ChildSubtree(i: nat, l: nat, k: nat)
    requires l == 2 * i + 1 || l == 2 * i + 2
    requires InSubtree(l, k)
    ensures InSubtree(i, k)
    decreases k
  {
    if k != l {
      ChildSubtree(i, l, (k - 1) / 2);
    }
  }

  /** The maximum of a heap is at its root. */
  lemma {:induction false} RootIsMax(a: seq<int>, n: nat, k: nat)
    requires n <= |a| && IsHeap(a, n) && k < n
    ensures a[0] >= a[k]
    decreases k
  {
    if k > 0 {
      RootIsMax(a, n, Parent(k));
    }
  }

  /** `heapify(index)`: swap the node with its largest child until it is no
      smaller than its children.  Only the subtree of `i` changes; when
      everything below `i` was heap-ordered, everything from `i` on is, and
      the new value at `i` is the largest of the old node and its children. */
  method SiftDown(a: seq<int>, n: nat, i: nat) returns (r: seq<int>)
    requires i < n <= |a|
    ensures |r| == |a| && multiset(r) == multiset(a)
    ensures forall k :: 0 <= k < |a| && !(k < n && InSubtree(i, k)) ==> r[k] == a[k]
    ensures HeapFrom(a, n, i + 1) ==> HeapFrom(r, n, i) && r[i] == a[Largest(a, n, i)]
    decreases n - i
  {
    var l := Largest(a, n, i);
    if l == i {
      r := a;
      return;
    }
    var a1 := Swap(a, i, l);
    r := SiftDown(a1, n, l);
    assert InSubtree(i, l);
    forall k | 0 <= k < |a| && !(k < n && InSubtree(i, k))
      ensures r[k] == a[k]
    {
      if k < n && InSubtree(l, k) {
        ChildSubtree(i, l, k);
      }
    }
    if HeapFrom(a, n, i + 1) {
      SiftDownRestoresHeap(a, a1, r, n, i, l);
    }
  }

  /** `SiftDown` as its callers use it: the prefix is permuted, the rest of
      the array is untouched, and the heap order extends to `i`. */
  method Sink(a: seq<int>, n: nat, i: nat) returns (r: seq<int>)
    requires i < n <= |a|
    ensures |r| == |a| && multiset(r[..n]) == multiset(a[..n]) && r[n..] == a[n..]
    ensures HeapFrom(a, n, i + 1) ==> HeapFrom(r, n, i)
  {
    r := SiftDown(a, n, i);
    assert r[n..] == a[n..];
    PrefixMultiset(r, a, n);
  }

  /** The proof obligation of one recursive step of `SiftDown`. */
  lemma SiftDownRestoresHeap(a: seq<int>, a1: seq<int>, r: seq<int>, n: nat, i: nat, l: nat)
    requires i < n <= |a| && l == Largest(a, n, i) && l != i
    requires a1 == a[i := a[l]][l := a[i]]
    requires HeapFrom(a, n, i + 1)
    requires |r| == |a1|
    requires forall k :: 0 <= k < |a1| && !(k < n && InSubtree(l, k)) ==> r[k] == a1[k]
    requires HeapFrom(a1, n, l + 1) ==> HeapFrom(r, n, l) && r[l] == a1[Largest(a1, n, l)]
    ensures HeapFrom(r, n, i) && r[i] == a[l]
  {
    assert HeapFrom(a1, n, l + 1) by {
      forall c | 0 < c < n && Parent(c) >= l + 1
        ensures a1[Parent(c)] >= a1[c]
      {
      }
    }
    assert !InSubtree(l, i);
    var m := Largest(a1, n, l);
    assert r[l] <= a[l] by {
      if m != l {
        assert Parent(m) == l;
      }
    }
    forall c | 0 < c < n && Parent(c) >= i
      ensures r[Parent(c)] >= r[c]
    {
      var p := Parent(c);
      if p < l {
        assert !InSubtree(l, p);
        if c != l {
          assert !InSubtree(l, c);
        }
      }
    }
  }

  /** An exchange inside the prefix permutes the prefix and keeps the rest. */
  lemma SwapInPrefix(a: seq<int>, n: nat, i: nat, j: nat)
    requires i < n && j < n && n <= |a|
    ensures multiset(Swap(a, i, j)[..n]) == multiset(a[..n])
    ensures Swap(a, i, j)[n..] == a[n..]
  {
    assert Swap(a, i, j)[..n] == Swap(a[..n], i, j);
  }

  /** The heap order during sift-up: every pair is ordered except the one
      into `cur`, and the parent of `cur` dominates the children of `cur`. */
  ghost predicate HeapExcept(a: seq<int>, n: nat, cur: nat)
    requires n <= |a|
  {
    && (forall c :: 0 < c < n && c != cur ==> a[Parent(c)] >= a[c])
    && (cur > 0 ==> forall c :: 0 < c < n && Parent(c) == cur ==> a[Parent(cur)] >= a[c])
  }

  /** One sift-up step: exchanging `cur` with a smaller parent moves the
      exception up to the parent. */
  lemma SiftUpStep(a: seq<int>, n: nat, cur: nat)
    requires 0 < cur < n <= |a| && HeapExcept(a, n, cur) && a[Parent(cur)] < a[cur]
    ensures HeapExcept(Swap(a, Parent(cur), cur), n, Parent(cur))
  {
    var p := Parent(cur);
    var b := Swap(a, p, cur);
    forall c | 0 < c < n && c != p
      ensures b[Parent(c)] >= b[c]
    {
      if c != cur && Parent(c) == p {
        assert a[Parent(c)] >= a[c];
      }
    }
    if p > 0 {
      forall c | 0 < c < n && Parent(c) == p
        ensures b[Parent(p)] >= b[c]
      {
        assert a[Parent(p)] >= a[p];
        if c != cur {
          assert a[p] >= a[c];
        }
      }
    }
  }

  /** Sift-up stops at the root or below a parent that is not smaller. */
  lemma SiftUpDone(a: seq<int>, n: nat, cur: nat)
    requires cur < n <= |a| && HeapExcept(a, n, cur)
    requires cur == 0 || a[Parent(cur)] >= a[cur]
    ensures IsHeap(a, n)
  {
  }

  /** Building bottom-up may start at the last parent: pairs whose parent is
      at `n / 2` or beyond do not exist. */
  lemma LeavesAreHeaps(a: seq<int>, n: nat)
    requires n <= |a|
    ensures HeapFrom(a, n, n / 2)
  {
  }

  /** Moving the root of a heap behind a prefix one shorter leaves a heap
      below the new root; the moved value dominates the old heap. */
  lemma RootMovesOut(a: seq<int>, n: nat)
    requires 0 < n <= |a| && IsHeap(a, n)
    ensures HeapFrom(Swap(a, 0, n - 1), n - 1, 1)
    ensures forall k :: 0 <= k < n ==> a[0] >= a[k]
  {
    forall k | 0 <= k < n
      ensures a[0] >= a[k]
    {
      RootIsMax(a, n, k);
    }
  }
}

=== FILE: heaps.dfy ===
/** `MaxBinHeap` of src/js/datastructures/heaps.js: an array `arr` whose
    prefix of `heapSize` elements is a binary max-heap.  Slots at and past
    `heapSize` are left over from earlier extractions and are not part of the
    heap.  Indices are integers; `checkIndex` also rejects non-integer
    numbers, which this model does not represent.
 */
module MaxBinHeap {
  import opened Wrappers
  import opened HeapOrder
  import SortSpec
  import JsNumber
  import Decimal

  datatype Heap = Heap(arr: seq<int>, heapSize: nat) {
    predicate Wf() {
      heapSize <= |arr|
    }

    /** The class invariant every public method keeps. */
    ghost predicate Valid() {
      Wf() && IsHeap(arr, heapSize)
    }

    /** The elements of the heap, which the iterator yields in index order. */
    function Elements(): seq<int>
      requires Wf()
    {
      arr[..heapSize]
    }
  }

  /** `[Symbol.iterator]`: the values the generator yields, in order. */
  method Iterate(h: Heap) returns (out: seq<int>)
    requires h.Wf()
    ensures |out| == h.heapSize
    ensures forall i :: 0 <= i < h.heapSize ==> out[i] == h.arr[i]
    ensures out == h.Elements()
  {
    out := [];
    var i := 0;
    while i < h.heapSize
      invariant i <= h.heapSize
      invariant out == h.arr[..i]
    {
      out := out + [h.arr[i]];
      i := i + 1;
    }
  }

  /** `checkIndex(index)`. */
  predicate CheckIndex(h: Heap, i: int) {
    0 <= i < h.heapSize
  }

  /** `getParent(index)`: `~~((index - 1) / 2)` when that is a valid index.
      The truncation makes the root its own parent. */
  function GetParent(h: Heap, i: int): (r: Option<nat>)
    ensures r.Some? ==> CheckIndex(h, r.value)
    ensures 0 < i ==> r == (if (i - 1) / 2 < h.heapSize then Some((i - 1) / 2) else None)
    ensures i == 0 ==> r == (if h.heapSize > 0 then Some(0) else None)
    ensures i < 0 ==> r.None?
  {
    var p := JsNumber.TruncDiv(i - 1, 2);
    if CheckIndex(h, p) then Some(p) else None
  }

  /** `getLeftChild(index)`. */
  function GetLeftChild(h: Heap, i: int): (r: Option<nat>)
    ensures r.Some? <==> CheckIndex(h, 2 * i + 1)
    ensures r.Some? ==> r.value == 2 * i + 1
  {
    if CheckIndex(h, 2 * i + 1) then Some(2 * i + 1) else None
  }

  /** `getRightChild(index)`. */
  function GetRightChild(h: Heap, i: int): (r: Option<nat>)
    ensures r.Some? <==> CheckIndex(h, 2 * i + 2)
    ensures r.Some? ==> r.value == 2 * i + 2
  {
    if CheckIndex(h, 2 * i + 2) then Some(2 * i + 2) else None
  }

  /** Every non-root index inside the heap is a child of its parent, and
      every child inside the heap has that parent. */
  lemma ParentOfChild(h: Heap, c: int)
    requires 0 < c && CheckIndex(h, c)
    ensures GetParent(h, c).Some?
    ensures var p := GetParent(h, c).value;
      GetLeftChild(h, p) == Some(c) || GetRightChild(h, p) == Some(c)
  {
  }

  lemma ChildOfParent(h: Heap, p: int)
    requires CheckIndex(h, p)
    ensures GetLeftChild(h, p).Some? ==> GetParent(h, GetLeftChild(h, p).value) == Some(p)
    ensures GetRightChild(h, p).Some? ==> GetParent(h, GetRightChild(h, p).value) == Some(p)
  {
  }

  function LargestMessage(h: Heap, i: int): string {
    "Heap.largest(" + Decimal.IntToString(i) + "): Index out of range! heapSize === "
      + Decimal.NatToString(h.heapSize)
  }

  /** `largest(index)`: the index among `index` and its children holding the
      greatest value, keeping `index` on ties; a `RangeError` for an index
      outside the heap. */
  function Largest(h: Heap, i: int): (r: Result<nat>)
    requires h.Wf()
    ensures r.Failure? <==> !CheckIndex(h, i)
    ensures r.Failure? ==> r.error == RangeError(LargestMessage(h, i))
    ensures r.Success? ==>
      && CheckIndex(h, r.value)
      && (r.value == i || Some(r.value) == GetLeftChild(h, i) || Some(r.value) == GetRightChild(h, i))
      && h.arr[r.value] >= h.arr[i]
      && (GetLeftChild(h, i).Some? ==> h.arr[r.value] >= h.arr[2 * i + 1])
      && (GetRightChild(h, i).Some? ==> h.arr[r.value] >= h.arr[2 * i + 2])
      && (r.value != i ==> h.arr[r.value] > h.arr[i])
  {
    if !CheckIndex(h, i) then Failure(RangeError(LargestMessage(h, i)))
    else Success(HeapOrder.Largest(h.arr, h.heapSize, i))
  }

  /** `getValue(index)`. */
  function GetValue(h: Heap, i: int): (r: Result<int>)
    requires h.Wf()
    ensures r.Success? <==> CheckIndex(h, i)
    ensures r.Success? ==> r.value == h.Elements()[i]
    ensures r.Failure? ==> r.error == RangeError("getValue(): Index out of range!")
  {
    if !CheckIndex(h, i) then Failure(RangeError("getValue(): Index out of range!"))
    else Success(h.arr[i])
  }

  /** `swap(index1, index2)`: exchange two positions inside the heap, or a
      `RangeError` and no change. */
  function Swap(h: Heap, i: int, j: int): (r: Result<Heap>)
    requires h.Wf()
    ensures r.Success? <==> CheckIndex(h, i) && CheckIndex(h, j)
    ensures r.Success? ==> r.value.heapSize == h.heapSize && |r.value.arr| == |h.arr|
    ensures r.Success? ==> r.value.arr[i] == h.arr[j] && r.value.arr[j] == h.arr[i]
    ensures r.Success? ==> forall k :: 0 <= k < |h.arr| && k != i && k != j ==> r.value.arr[k] == h.arr[k]
    ensures r.Failure? ==> r.error == RangeError(
      "Heap.swap(" + Decimal.IntToString(i) + ", " + Decimal.IntToString(j) + "): Index out of range!")
  {
    if CheckIndex(h, i) && CheckIndex(h, j) then Success(Heap(SortSpec.Swap(h.arr, i, j), h.heapSize))
    else Failure(RangeError(
      "Heap.swap(" + Decimal.IntToString(i) + ", " + Decimal.IntToString(j) + "): Index out of range!"))
  }

  /** `heapify(index)`: sink the value at `index` below no smaller child.
      Only the subtree of `index` changes, and a subtree whose children were
      heaps becomes one.  A bad index is reported as a `RangeError` wrapping
      the message of `largest`. */
  method Heapify(h: Heap, i: int) returns (r: Result<Heap>)
    requires h.Wf()
    ensures r.Failure? <==> !CheckIndex(h, i)
    ensures r.Failure? ==> r.error == RangeError(
      "Heap.heapify(" + Decimal.IntToString(i) + ") -> " + LargestMessage(h, i)
        + " heapSize === " + Decimal.NatToString(h.heapSize))
    ensures r.Success? ==> r.value.Wf() && r.value.heapSize == h.heapSize && |r.value.arr| == |h.arr|
    ensures r.Success? ==> multiset(r.value.Elements()) == multiset(h.Elements())
    ensures r.Success? ==> forall k :: 0 <= k < |h.arr| && !(k < h.heapSize && InSubtree(i, k)) ==>
      r.value.arr[k] == h.arr[k]
    ensures r.Success? && HeapFrom(h.arr, h.heapSize, i + 1) ==> HeapFrom(r.value.arr, h.heapSize, i)
  {
    if !CheckIndex(h, i) {
      return Failure(RangeError(
        "Heap.heapify(" + Decimal.IntToString(i) + ") -> " + LargestMessage(h, i)
          + " heapSize === " + Decimal.NatToString(h.heapSize)));
    }
    var a := SiftDown(h.arr, h.heapSize, i);
    SortSpec.PrefixMultiset(a, h.arr, h.heapSize);
    r := Success(Heap(a, h.heapSize));
  }

  /** `buildHeap()`: heapify every parent, from the last one to the root. */
  method BuildHeap(h: Heap) returns (r: Heap)
    requires h.Wf()
    ensures r.Valid() && r.heapSize == h.heapSize && |r.arr| == |h.arr|
    ensures multiset(r.Elements()) == multiset(h.Elements())
    ensures r.arr[h.heapSize..] == h.arr[h.heapSize..]
  {
    var n := h.heapSize;
    var a := h.arr;
    var start := JsNumber.TruncDiv(n, 2) - 1;
    LeavesAreHeaps(a, n);
    while 0 <= start < n
      invariant -1 <= start < n
      invariant |a| == |h.arr| && a[n..] == h.arr[n..]
      invariant multiset(a[..n]) == multiset(h.arr[..n])
      invariant HeapFrom(a, n, start + 1)
      decreases start
    {
      a := Sink(a, n, start);
      start := start - 1;
    }
    r := Heap(a, n);
  }

  /** `new MaxBinHeap(arr)`: the whole array is the heap, rearranged into
      heap order. */
  method New(arr: seq<int>) returns (r: Heap)
    ensures r.Valid() && r.heapSize == |arr| == |r.arr|
    ensures multiset(r.Elements()) == multiset(arr)
  {
    r := BuildHeap(Heap(arr, |arr|));
    assert arr[..|arr|] == arr;
  }

  /** `insert(value)`: store the value after the heap (overwriting a
      left-over slot or growing the array) and sift it up; the answer is the
      new size.  Calling it without an argument is an `Error`. */
  method Insert(h: Heap, v: Option<int>) returns (r: Result<(Heap, nat)>)
    requires h.Wf()
    ensures v.None? <==> r.Failure?
    ensures r.Failure? ==> r.error == PlainError("Heap.push() No arguments!")
    ensures r.Success? ==> r.value.1 == h.heapSize + 1 == r.value.0.heapSize
    ensures r.Success? ==> r.value.0.Wf()
    ensures r.Success? ==> multiset(r.value.0.Elements()) == multiset(h.Elements()) + multiset{v.value}
    ensures r.Success? ==> |r.value.0.arr| == if h.heapSize == |h.arr| then |h.arr| + 1 else |h.arr|
    ensures r.Success? && h.Valid() ==> r.value.0.Valid()
  {
    if v.None? {
      return Failure(PlainError("Heap.push() No arguments!"));
    }
    var x := v.value;
    var a := if h.heapSize == |h.arr| then h.arr + [x] else h.arr[h.heapSize := x];
    var n := h.heapSize + 1;
    assert a[..n] == h.Elements() + [x];
    assert h.Valid() ==> HeapExcept(a, n, h.heapSize);
    a := SiftUp(a, n, h.heapSize, h.Valid());
    r := Success((Heap(a, n), n));
  }

  /** The loop of `push`: the element at `start` swaps with its parent while
      the parent is smaller. */
  method SiftUp(a0: seq<int>, n: nat, start: nat, ghost wasHeap: bool) returns (a: seq<int>)
    requires start < n <= |a0|
    requires wasHeap ==> HeapExcept(a0, n, start)
    ensures |a| == |a0| && multiset(a[..n]) == multiset(a0[..n])
    ensures wasHeap ==> IsHeap(a, n)
  {
    a := a0;
    var cur: nat := start;
    var parent := GetParent(Heap(a, n), cur);
    while parent.Some? && a[parent.value] < a[cur]
      invariant cur < n <= |a| == |a0|
      invariant multiset(a[..n]) == multiset(a0[..n])
      invariant parent == GetParent(Heap(a, n), cur)
      invariant wasHeap ==> HeapExcept(a, n, cur)
      decreases cur
    {
      var p := parent.value;
      assert cur > 0;
      if wasHeap {
        SiftUpStep(a, n, cur);
      }
      SwapInPrefix(a, n, p, cur);
      a := SortSpec.Swap(a, p, cur);
      cur := p;
      parent := GetParent(Heap(a, n), cur);
    }
    if wasHeap {
      SiftUpDone(a, n, cur);
    }
  }

  /** `extract()`: nothing on an empty heap; otherwise the root, after moving
      the last element to the root, shrinking the heap and sinking the root.
      The extracted value stays in the array just past the heap. */
  method Extract(h: Heap) returns (r: (Option<int>, Heap))
    requires h.Wf()
    ensures h.heapSize == 0 <==> r.0.None?
    ensures r.0.None? ==> r.1 == h
    ensures r.0.Some? ==> r.1.Wf() && r.1.heapSize == h.heapSize - 1 && |r.1.arr| == |h.arr|
    ensures r.0.Some? ==> r.0.value == h.arr[0]
    ensures r.0.Some? ==> multiset(r.1.Elements()) + multiset{r.0.value} == multiset(h.Elements())
    ensures r.0.Some? ==> r.1.arr[r.1.heapSize] == r.0.value
    ensures r.0.Some? && h.Valid() ==> r.1.Valid()
    ensures r.0.Some? && h.Valid() ==> forall k :: 0 <= k < h.heapSize ==> r.0.value >= h.arr[k]
  {
    if h.heapSize == 0 {
      return (None, h);
    }
    var n := h.heapSize;
    var top := h.arr[0];
    var a := SortSpec.Swap(h.arr, 0, n - 1);
    ghost var rest := multiset(a[..n - 1]);
    assert multiset(h.Elements()) == rest + multiset{top} by {
      SwapInPrefix(h.arr, n, 0, n - 1);
      assert a[..n] == a[..n - 1] + [top];
    }
    if h.Valid() {
      RootMovesOut(h.arr, n);
    }
    if n - 1 > 0 {
      var a1 := Sink(a, n - 1, 0);
      assert a1[n - 1] == a1[n - 1..][0] == a[n - 1..][0] == a[n - 1];
      a := a1;
    }
    assert a[n - 1] == top && multiset(a[..n - 1]) == rest;
    r := (Some(top), Heap(a, n - 1));
  }
}

=== FILE: jsmath.dfy ===
/** The exact integer arithmetic of src/js/math/math.js: `fastPow`,
    `modExp`, `modExpR`, `gcd` and `eulerst`.

    `fastPow`, `modExp` and `modExpR` work on `BigInt`s, whose `/` and `%`
    truncate toward zero and throw a `RangeError` on a zero divisor; `gcd` and
    `eulerst` work on numbers, modelled here as integers, whose `%` also
    takes the sign of the dividend.
 */
module JsMath {
  import opened Wrappers
  import opened JsNumber

  /** The message V8 gives the `RangeError` of a `BigInt` division or
      remainder by zero. */
  const DivisionByZero := "Division by zero"

  /** `x` to the `k`. */
  function Pow(x: int, k: nat): int {
    if k == 0 then 1 else x * Pow(x, k - 1)
  }

  lemma MulAssoc(a: int, b: int, c: int)
    ensures a * (b * c) == (a * b) * c
  {
  }

  lemma MulComm(a: int, b: int)
    ensures a * b == b * a
  {
  }

  lemma Distrib(a: int, b: int, c: int)
    ensures (a + b) * c == a * c + b * c
    ensures (a - b) * c == a * c - b * c
  {
  }

  lemma MulAtLeast(k: int, m: int)
    requires k >= 1 && m > 0
    ensures k * m >= m
  {
  }

  lemma AbsMul(x: int, y: int)
    ensures Abs(x * y) == Abs(x) * Abs(y)
  {
    if x < 0 && y >= 0 {
      assert x * y == -((-x) * y);
    } else if x >= 0 && y < 0 {
      assert x * y == -(x * (-y));
    } else if x < 0 && y < 0 {
      assert x * y == (-x) * (-y);
    }
  }

  /** Squaring the base halves the exponent. */
  lemma {:induction false} PowSquare(x: int, k: nat)
    ensures Pow(x * x, k) == Pow(x, 2 * k)
  {
    if k > 0 {
      PowSquare(x, k - 1);
      calc {
        Pow(x * x, k);
        (x * x) * Pow(x, 2 * k - 2);
        { MulAssoc(x, x, Pow(x, 2 * k - 2)); }
        x * (x * Pow(x, 2 * k - 2));
        x * Pow(x, 2 * k - 1);
        Pow(x, 2 * k);
      }
    }
  }

  /** A power is zero only when its base is. */
  lemma {:induction false} PowZero(x: int, k: nat)
    requires k >= 1
    ensures Pow(x, k) == 0 <==> x == 0
  {
    if k > 1 {
      PowZero(x, k - 1);
    }
  }

  /** A base of magnitude at least 2 gives powers of magnitude at least 2. */
  lemma {:induction false} PowGrows(x: int, k: nat)
    requires Abs(x) >= 2 && k >= 1
    ensures Abs(Pow(x, k)) >= 2
  {
    if k > 1 {
      PowGrows(x, k - 1);
      var y := Pow(x, k - 1);
      AbsMul(x, y);
      MulAtLeast(Abs(x), Abs(y));
      assert Abs(x) * Abs(y) >= Abs(y);
    }
  }

  /** Powers of -1 alternate in sign. */
  lemma {:induction false} PowMinusOne(k: nat)
    ensures Pow(-1, k) == if k % 2 == 0 then 1 else -1
  {
    if k > 0 {
      PowMinusOne(k - 1);
    }
  }

  /** Every power of 1 is 1. */
  lemma {:induction false} PowOne(k: nat)
    ensures Pow(1, k) == 1
  {
    if k > 0 {
      PowOne(k - 1);
    }
  }

  // ---------------------------------------------------------------------------
  // fastPow

  /** One step of the square-and-multiply loop keeps `tmp * x^p` fixed. */
  lemma FastPowStep(tmp: int, x: int, p: nat)
    requires p > 1
    ensures p % 2 == 1 ==> tmp * x * Pow(x * x, (p - 1) / 2) == tmp * Pow(x, p)
    ensures p % 2 == 0 ==> tmp * Pow(x * x, p / 2) == tmp * Pow(x, p)
  {
    if p % 2 == 1 {
      PowSquare(x, (p - 1) / 2);
      MulAssoc(tmp, x, Pow(x, p - 1));
    } else {
      PowSquare(x, p / 2);
    }
  }

  /** `fastPow(n, p)`, with `p` defaulting to 2: `n` to the `p` by squaring
      and multiplying.  A negative exponent returns the truncated quotient
      `1n / n^|p|`, which divides by zero when `n` is 0. */
  method FastPow(n: int, p0: Option<int>) returns (r: Result<int>)
    ensures var p := if p0.Some? then p0.value else 2;
      && (p >= 0 ==> r == Success(Pow(n, p)))
      && (p < 0 && n == 0 ==> r == Failure(RangeError(DivisionByZero)))
      && (p < 0 && n != 0 ==> r == Success(ReciprocalPow(n, -p)))
  {
    var p := if p0.Some? then p0.value else 2;
    if p == 0 {
      return Success(1);
    }
    var tmp := 1;
    var x := n;
    var sign := p < 0;
    if sign {
      p := -p;
    }
    ghost var e: nat := p;
    while p > 1
      invariant p >= 1
      invariant tmp * Pow(x, p) == Pow(n, e)
    {
      FastPowStep(tmp, x, p);
      if p % 2 == 1 {
        p := p - 1;
        tmp := tmp * x;
      }
      p := p / 2;
      x := x * x;
    }
    tmp := tmp * x;
    if sign {
      PowZero(n, e);
      if tmp == 0 {
        return Failure(RangeError(DivisionByZero));
      }
      return Success(TruncDiv(1, tmp));
    }
    return Success(tmp);
  }

  /** The truncated quotient `1 / n^k` a negative exponent `-k` gives. */
  function ReciprocalPow(n: int, k: nat): int
    requires n != 0 && k >= 1
  {
    PowZero(n, k);
    TruncDiv(1, Pow(n, k))
  }

  /** What a negative exponent leaves of the quotient `1 / n^k`: 1 for base
      1, alternately -1 and 1 for base -1, and 0 for any larger base. */
  lemma NegativeExponent(n: int, k: nat)
    requires n != 0 && k >= 1
    ensures ReciprocalPow(n, k) ==
      if n == 1 then 1 else if n == -1 then (if k % 2 == 0 then 1 else -1) else 0
  {
    if n == 1 {
      PowOne(k);
    } else if n == -1 {
      PowMinusOne(k);
    } else {
      PowGrows(n, k);
    }
  }

  // ---------------------------------------------------------------------------
  // Remainders

  /** Euclidean division is unique. */
  lemma DivModUnique(x: int, m: int, q: int, r: int)
    requires m > 0 && 0 <= r < m && x == q * m + r
    ensures x % m == r
  {
    var q0, r0 := x / m, x % m;
    assert x == q0 * m + r0;
    Distrib(q0, q, m);
    Distrib(q, q0, m);
    if q0 > q {
      MulAtLeast(q0 - q, m);
    } else if q0 < q {
      MulAtLeast(q - q0, m);
    }
  }

  /** A remainder may be taken of a factor before multiplying. */
  lemma MulMod(a: int, b: int, m: int)
    requires m > 0
    ensures (a * b) % m == ((a % m) * b) % m
  {
    var q, r := a / m, a % m;
    var q2, r2 := (r * b) / m, (r * b) % m;
    assert a == q * m + r;
    assert r * b == q2 * m + r2;
    Distrib(q * m, r, b);
    MulAssoc(q, m, b);
    MulComm(m, b);
    MulAssoc(q, b, m);
    Distrib(q * b, q2, m);
    DivModUnique(a * b, m, q * b + q2, r2);
  }

  /** A power may be taken of a remainder. */
  lemma {:induction false} PowMod(x: int, k: nat, m: int)
    requires m > 0
    ensures Pow(x % m, k) % m == Pow(x, k) % m
  {
    if k > 0 {
      PowMod(x, k - 1, m);
      calc {
        Pow(x % m, k) % m;
        ((x % m) * Pow(x % m, k - 1)) % m;
        { MulMod(x, Pow(x % m, k - 1), m); }
        (x * Pow(x % m, k - 1)) % m;
        { MulMod(Pow(x % m, k - 1), x, m); MulMod(Pow(x, k - 1), x, m); }
        (x * Pow(x, k - 1)) % m;
      }
    }
  }

  // ---------------------------------------------------------------------------
  // modExp

  /** The loop of `modExp` keeps `tmp * x^exp` congruent to `a^p`. */
  lemma ModExpHalve(tmp: int, x: int, e: nat, m: int)
    requires m > 0 && e % 2 == 0
    ensures (tmp * Pow(x * x % m, e / 2)) % m == (tmp * Pow(x, e)) % m
  {
    var k := e / 2;
    var a, b := Pow(x * x % m, k), Pow(x * x, k);
    PowSquare(x, k);
    assert b == Pow(x, e);
    PowMod(x * x, k, m);
    assert a % m == b % m;
    MulMod(a, tmp, m);
    MulMod(b, tmp, m);
    MulComm(a, tmp);
    MulComm(b, tmp);
  }

  /** Once the exponent is spent, the accumulator, already reduced, is the
      answer. */
  lemma ModExpDone(tmp: int, x: int, v: int, m: int)
    requires m > 0 && 0 <= tmp < m && (tmp * Pow(x, 0)) % m == v % m
    ensures tmp == v % m
  {
    assert tmp * Pow(x, 0) == tmp;
  }

  lemma ModExpMultiply(tmp: int, x: int, e: nat, m: int)
    requires m > 0 && e >= 1
    ensures ((x * tmp % m) * Pow(x, e - 1)) % m == (tmp * Pow(x, e)) % m
  {
    MulMod(x * tmp, Pow(x, e - 1), m);
    MulAssoc(tmp, x, Pow(x, e - 1));
  }

  /** `modExp(a, p, m)`: negative arguments are an `Error`; otherwise the
      loop halves an even exponent, squaring the base modulo `m`, and
      multiplies the base into the result for an odd one.  A zero exponent
      skips the loop and returns 1, even for modulus 1; a zero modulus with
      a positive exponent divides by zero. */
  method ModExp(a: int, p: int, m: int) returns (r: Result<int>)
    ensures a < 0 || p < 0 || m < 0 <==> r == Failure(PlainError("Function modExp() only accepts positive numbers."))
    ensures a >= 0 && p == 0 && m >= 0 ==> r == Success(1)
    ensures a >= 0 && p > 0 && m == 0 ==> r == Failure(RangeError(DivisionByZero))
    ensures a >= 0 && p > 0 && m > 0 ==> r == Success(Pow(a, p) % m)
    ensures a >= 0 && p >= 0 && m > 0 ==> r == ModExpR(a, p, m)
  {
    if a < 0 || p < 0 || m < 0 {
      return Failure(PlainError("Function modExp() only accepts positive numbers."));
    }
    var x := a;
    var exp := p;
    var tmp := 1;
    ghost var multiplied := false;
    while exp > 0
      invariant exp >= 0 && x >= 0 && tmp >= 0
      invariant m > 0 ==> (tmp * Pow(x, exp)) % m == Pow(a, p) % m
      invariant multiplied ==> m > 0 && tmp < m
      invariant !multiplied ==> tmp == 1
      invariant exp == 0 ==> multiplied || p == 0
      invariant p == 0 ==> !multiplied
    {
      if m == 0 {
        return Failure(RangeError(DivisionByZero));
      }
      if exp % 2 == 0 {
        ModExpHalve(tmp, x, exp, m);
        exp := exp / 2;
        x := x * x % m;
        continue;
      }
      ModExpMultiply(tmp, x, exp, m);
      exp := exp - 1;
      tmp := x * tmp % m;
      multiplied := true;
    }
    r := Success(tmp);
    if m > 0 {
      if p > 0 {
        ModExpDone(tmp, x, Pow(a, p), m);
      }
      ModExpRValue(a, p, m);
    }
  }

  // ---------------------------------------------------------------------------
  // modExpR

  /** `modExpR(a, p, m)`: 1 for a zero exponent; for an even one, recurse
      on the base squared modulo `m` and half the exponent; for an odd one,
      multiply the base into the result for one less, modulo `m`.  A zero
      modulus divides by zero; the remainders truncate. */
  function ModExpR(a: int, p: nat, m: int): (r: Result<int>)
    ensures r.Failure? <==> p > 0 && m == 0
    ensures r.Failure? ==> r.error == RangeError(DivisionByZero)
    decreases p
  {
    if p == 0 then Success(1)
    else if p % 2 == 0 then
      if m == 0 then Failure(RangeError(DivisionByZero))
      else ModExpR(TruncRem(a * a, m), p / 2, m)
    else
      match ModExpR(a, p - 1, m)
      case Failure(e) => Failure(e)
      case Success(v) =>
        if m == 0 then Failure(RangeError(DivisionByZero)) else Success(TruncRem(a * v, m))
  }

  /** On non-negative arguments and a positive modulus, `modExpR` computes
      `a^p mod m`, with 1 for a zero exponent. */
  lemma {:induction false} ModExpRValue(a: int, p: nat, m: int)
    requires a >= 0 && m > 0
    ensures ModExpR(a, p, m) == Success(if p == 0 then 1 else Pow(a, p) % m)
    decreases p
  {
    if p == 0 {
    } else if p % 2 == 0 {
      ModExpRValue(a * a % m, p / 2, m);
      ModExpREven(a, p, m);
    } else {
      ModExpRValue(a, p - 1, m);
      ModExpROdd(a, p, m);
    }
  }

  /** An even exponent squares the base and halves. */
  lemma ModExpREven(a: int, p: nat, m: int)
    requires a >= 0 && m > 0 && p > 0 && p % 2 == 0
    requires ModExpR(a * a % m, p / 2, m) == Success(Pow(a * a % m, p / 2) % m)
    ensures ModExpR(a, p, m) == Success(Pow(a, p) % m)
  {
    var sq, h := a * a, p / 2;
    assert 2 * h == p;
    assert ModExpR(a, p, m) == ModExpR(TruncRem(sq, m), h, m);
    TruncAgreesOnNaturals(sq, m);
    PowMod(sq, h, m);
    PowSquare(a, h);
  }

  /** An odd exponent multiplies the result for one less by the base. */
  lemma ModExpROdd(a: int, p: nat, m: int)
    requires a >= 0 && m > 0 && p % 2 == 1
    requires ModExpR(a, p - 1, m) == Success(if p - 1 == 0 then 1 else Pow(a, p - 1) % m)
    ensures ModExpR(a, p, m) == Success(Pow(a, p) % m)
  {
    var v := if p - 1 == 0 then 1 else Pow(a, p - 1) % m;
    assert v >= 0;
    TruncAgreesOnNaturals(a * v, m);
    if p > 1 {
      MulMod(Pow(a, p - 1), a, m);
      assert (a * v) % m == (Pow(a, p - 1) * a) % m;
    }
  }

  // ---------------------------------------------------------------------------
  // gcd

  /** `gcd(n, m)`: `n` when `m` is 0, otherwise the gcd of `m` and the
      truncated remainder `n % m`.  The remainder is smaller than `m` in
      magnitude, so the recursion ends for every pair of integers. */
  function Gcd(n: int, m: int): (g: int)
    ensures m == 0 ==> g == n
    decreases Abs(m)
  {
    if m == 0 then n else Gcd(m, TruncRem(n, m))
  }

  /** The result divides both arguments: it returns the cofactors. */
  lemma {:induction false} GcdDivides(n: int, m: int) returns (kn: int, km: int)
    ensures kn * Gcd(n, m) == n && km * Gcd(n, m) == m
    decreases Abs(m)
  {
    var g := Gcd(n, m);
    if m == 0 {
      kn, km := 1, 0;
    } else {
      var q, r := TruncDiv(n, m), TruncRem(n, m);
      var k1, k2 := GcdDivides(m, r);
      assert g == Gcd(m, r);
      assert n == q * m + r;
      MulAssoc(q, k1, g);
      Distrib(q * k1, k2, g);
      kn, km := q * k1 + k2, k1;
    }
  }

  /** Every common divisor of the arguments divides the result: it is the
      greatest common divisor.  Given the cofactors of `d` in `n` and `m`,
      it returns the cofactor of `d` in the result. */
  lemma {:induction false} GcdGreatest(n: int, m: int, d: int, kn: int, km: int) returns (k: int)
    requires kn * d == n && km * d == m
    ensures k * d == Gcd(n, m)
    decreases Abs(m)
  {
    if m == 0 {
      k := kn;
    } else {
      var q, r := TruncDiv(n, m), TruncRem(n, m);
      assert r == n - q * m;
      MulAssoc(q, km, d);
      Distrib(kn, q * km, d);
      k := GcdGreatest(m, r, d, km, kn - q * km);
    }
  }

  /** On naturals the result is a natural. */
  lemma {:induction false} GcdNatural(n: int, m: int)
    requires n >= 0 && m >= 0
    ensures Gcd(n, m) >= 0
    decreases m
  {
    if m != 0 {
      TruncAgreesOnNaturals(n, m);
      GcdNatural(m, n % m);
    }
  }

  // ---------------------------------------------------------------------------
  // eulerst

  /** Every integer is coprime to 1. */
  lemma GcdOne(n: int)
    ensures Gcd(n, 1) == 1
  {
    assert TruncDiv(n, 1) == n;
    assert TruncRem(n, 1) == 0;
  }

  /** The integers in `[1, k)` that `gcd` reports coprime to `n`. */
  ghost function CoprimeBelow(n: int, k: int): set<int> {
    set i | 1 <= i < k && Gcd(n, i) == 1
  }

  lemma CoprimeBelowStep(n: int, i: int)
    requires i >= 1
    ensures |CoprimeBelow(n, i + 1)| == |CoprimeBelow(n, i)| + if Gcd(n, i) == 1 then 1 else 0
  {
    var s, t := CoprimeBelow(n, i), CoprimeBelow(n, i + 1);
    var c := Gcd(n, i) == 1;
    assert i !in s;
    forall j
      ensures j in t <==> j in s || (j == i && c)
    {
    }
    if c {
      assert t == s + {i};
    } else {
      assert t == s;
    }
  }

  lemma NoneBelowOne(n: int)
    requires n <= 1
    ensures CoprimeBelow(n, n) == {}
  {
  }

  /** `eulerst(n)`: the count of `i` in `[1, n)` with `gcd(n, i) === 1`;
      at most `n - 1`, at least 1 from `n = 2` on (1 is coprime to
      everything), and 0 for `n <= 1`. */
  method Eulerst(n: int) returns (d: nat)
    ensures d == |CoprimeBelow(n, n)|
    ensures n <= 1 ==> d == 0
    ensures n > 1 ==> 1 <= d <= n - 1
  {
    if n <= 1 {
      NoneBelowOne(n);
      return 0;
    }
    d := 0;
    var i := 1;
    while i < n
      invariant 1 <= i <= n
      invariant d == |CoprimeBelow(n, i)| && d <= i - 1
      invariant i > 1 ==> d >= 1
    {
      CoprimeBelowStep(n, i);
      if Gcd(n, i) == 1 {
        d := d + 1;
      }
      if i == 1 {
        GcdOne(n);
      }
      i := i + 1;
    }
  }
}

=== FILE: jsnumber.dfy ===
/** Integer division as JavaScript performs it.

    `BigInt` division `a / b` and remainder `a % b` truncate toward zero, and
    so does `~~(a / b)` on numbers whose quotient fits in 32 bits.  Dafny's
    own `/` and `%` are Euclidean; the two agree on non-negative operands
    only.
 */
module JsNumber {

  function Abs(x: int): nat {
    if x < 0 then -x else x
  }

  /** The quotient truncated toward zero. */
  function TruncDiv(a: int, b: int): (q: int)
    requires b != 0
    ensures Abs(a - q * b) < Abs(b)
    ensures a - q * b == 0 || (a - q * b < 0 <==> a < 0)
  {
    if a >= 0 && b > 0 then a / b
    else if a >= 0 then -(a / -b)
    else if b > 0 then -((-a) / b)
    else (-a) / (-b)
  }

  /** The remainder of the truncated quotient: it takes the sign of `a`. */
  function TruncRem(a: int, b: int): (r: int)
    requires b != 0
    ensures a == TruncDiv(a, b) * b + r
    ensures Abs(r) < Abs(b)
    ensures r == 0 || (r < 0 <==> a < 0)
  {
    a - TruncDiv(a, b) * b
  }

  /** On a non-negative dividend and positive divisor the JavaScript and the
      Euclidean operators agree. */
  lemma TruncAgreesOnNaturals(a: int, b: int)
    requires a >= 0 && b > 0
    ensures TruncDiv(a, b) == a / b && TruncRem(a, b) == a % b
  {
  }
}

=== FILE: smallalgos.dfy ===
/** The small integer algorithms of src/js/algorithms/sortingalgorithms.js:
    two adders of 9-bit big-endian bit arrays, the lattice-path table
    `pathsB`, and the "next warmer day" scan `warmestDay`.
 */
module SmallAlgorithms {
  import opened Wrappers

  // ---------------------------------------------------------------------------
  // Bit arrays

  /** An element of the adders' arrays: the numbers 0 and 1. */
  type Bit = x: int | 0 <= x <= 1

  /** The adders work on positions 0..8; position 8 is the least
      significant. */
  const Width := 9

  function Pow2(k: nat): (r: nat)
    ensures r >= 1
  {
    if k == 0 then 1 else 2 * Pow2(k - 1)
  }

  /** What a bit contributes with `k` less significant bits after it. */
  function Weight(x: Bit, k: nat): nat {
    if x == 1 then Pow2(k) else 0
  }

  /** The number the bits from position `i` on denote, the last element
      being the least significant. */
  function Low(s: seq<Bit>, i: nat): nat
    decreases |s| - i
  {
    if i >= |s| then 0 else Weight(s[i], |s| - 1 - i) + Low(s, i + 1)
  }

  /** The number a big-endian bit array denotes. */
  function Value(s: seq<Bit>): nat {
    Low(s, 0)
  }

  /** The last `|s| - i` bits denote less than 2 to the `|s| - i`. */
  lemma {:induction false} LowBound(s: seq<Bit>, i: nat)
    requires i <= |s|
    ensures Low(s, i) < Pow2(|s| - i)
    decreases |s| - i
  {
    if i < |s| {
      LowBound(s, i + 1);
      assert Pow2(|s| - i) == 2 * Pow2(|s| - 1 - i);
    }
  }

  /** Arrays of one length that agree from `i` on denote the same number
      there. */
  lemma {:induction false} LowFrame(s: seq<Bit>, t: seq<Bit>, i: nat)
    requires |s| == |t| && forall k :: i <= k < |s| ==> s[k] == t[k]
    ensures Low(s, i) == Low(t, i)
    decreases |s| - i
  {
    if i < |s| {
      LowFrame(s, t, i + 1);
    }
  }

  /** Different arrays of one length denote different numbers. */
  lemma {:induction false} LowInjective(x: seq<Bit>, y: seq<Bit>, i: nat)
    requires |x| == |y| && i <= |x| && Low(x, i) == Low(y, i)
    ensures x[i..] == y[i..]
    decreases |x| - i
  {
    if i < |x| {
      LowBound(x, i + 1);
      LowBound(y, i + 1);
      assert x[i] == y[i];
      LowInjective(x, y, i + 1);
      assert x[i..] == [x[i]] + x[i + 1..];
      assert y[i..] == [y[i]] + y[i + 1..];
    }
  }

  lemma ValueInjective(x: seq<Bit>, y: seq<Bit>)
    requires |x| == |y| && Value(x) == Value(y)
    ensures x == y
  {
    LowInjective(x, y, 0);
    assert x[0..] == x && y[0..] == y;
  }

  /** The positions `binAdd3` reads: index `i` of a shorter array is
      `undefined`, which `&&` and `||` treat as falsy, like 0; positions
      past 8 are never read. */
  function Pad(s: seq<Bit>): (r: seq<Bit>)
    ensures |r| == Width
    ensures forall i :: 0 <= i < Width ==> r[i] == if i < |s| then s[i] else 0
  {
    seq(Width, i requires 0 <= i < Width => if i < |s| then s[i] else 0)
  }

  /** Position `i` of an operand as JavaScript reads it: the bit, or
      `undefined` past the end. */
  function Read(s: seq<Bit>, i: nat): Option<Bit> {
    if i < |s| then Some(s[i]) else None
  }

  /** The positions of `s` that the first round of `binAdd` takes into
      account next to the other operand `t`: only those both arrays have.
      Where either lacks position `i`, `m[i] + n[i]` is `NaN`, so `+!!`
      gives 0, and `n[i] && m[i]` is falsy, so nothing is carried. */
  function Shared(s: seq<Bit>, t: seq<Bit>): (r: seq<Bit>)
    ensures |r| == Width
    ensures forall i :: 0 <= i < Width ==> r[i] == if i < |s| && i < |t| then s[i] else 0
  {
    seq(Width, i requires 0 <= i < Width => if i < |s| && i < |t| then s[i] else 0)
  }

  // ---------------------------------------------------------------------------
  // binAdd: the carry-save adder

  /** Where both operands hold a 1 (the `n[i] && m[i]` test). */
  function And(a: seq<Bit>, b: seq<Bit>): (r: seq<Bit>)
    requires |a| == |b|
    ensures |r| == |a|
    ensures forall i :: 0 <= i < |a| ==> (r[i] == 1 <==> a[i] == 1 && b[i] == 1)
  {
    seq(|a|, i requires 0 <= i < |a| => if a[i] == 1 && b[i] == 1 then 1 else 0)
  }

  /** The array `arr` one round of `binAdd` builds: 0 where both bits are
      set, otherwise `+!!(m[i] + n[i])`. */
  function Xor(a: seq<Bit>, b: seq<Bit>): (r: seq<Bit>)
    requires |a| == |b|
    ensures |r| == |a|
  {
    seq(|a|, i requires 0 <= i < |a| =>
      if a[i] == 1 && b[i] == 1 then 0 else if a[i] + b[i] != 0 then 1 else 0)
  }

  /** The array `cash` one round of `binAdd` builds: `cash[i - 1] = 1` where
      both bits at `i` are set.  The write for `i = 0` goes to the property
      "-1", which no later loop reads. */
  function Carry(a: seq<Bit>, b: seq<Bit>): (r: seq<Bit>)
    requires |a| == |b|
    ensures |r| == |a|
  {
    seq(|a|, j requires 0 <= j < |a| =>
      if j + 1 < |a| && a[j + 1] == 1 && b[j + 1] == 1 then 1 else 0)
  }

  /** Bitwise, a sum is its carry-less sum plus twice its carries. */
  lemma {:induction false} XorAndSum(a: seq<Bit>, b: seq<Bit>, i: nat)
    requires |a| == |b|
    ensures Low(Xor(a, b), i) + 2 * Low(And(a, b), i) == Low(a, i) + Low(b, i)
    decreases |a| - i
  {
    if i < |a| {
      XorAndSum(a, b, i + 1);
    }
  }

  /** The carries shifted one place up are worth twice the carries below
      position `j + 1`. */
  lemma {:induction false} CarryShift(a: seq<Bit>, b: seq<Bit>, j: nat)
    requires |a| == |b| && j < |a|
    ensures Low(Carry(a, b), j) == 2 * Low(And(a, b), j + 1)
    decreases |a| - j
  {
    if j + 1 < |a| {
      CarryShift(a, b, j + 1);
      assert Pow2(|a| - 1 - j) == 2 * Pow2(|a| - 2 - j);
    }
  }

  /** `arr` and `cash` together are worth the operands, less the carry
      out of position 0, which is worth 512. */
  lemma RoundValue(a: seq<Bit>, b: seq<Bit>)
    requires |a| == |b| == Width
    ensures Value(Xor(a, b)) + Value(Carry(a, b)) + (if a[0] == 1 && b[0] == 1 then 512 else 0)
      == Value(a) + Value(b)
  {
    XorAndSum(a, b, 0);
    CarryShift(a, b, 0);
    assert Pow2(8) == 256;
  }

  lemma DropMultiple(u: int, v: int, c: bool)
    requires u + (if c then 512 else 0) == v
    ensures u % 512 == v % 512
  {
  }

  /** A round keeps the sum modulo 512. */
  lemma RoundKeepsSum(a: seq<Bit>, b: seq<Bit>)
    requires |a| == |b| == Width
    ensures (Value(Xor(a, b)) + Value(Carry(a, b))) % 512 == (Value(a) + Value(b)) % 512
  {
    RoundValue(a, b);
    DropMultiple(Value(Xor(a, b)) + Value(Carry(a, b)), Value(a) + Value(b), a[0] == 1 && b[0] == 1);
  }

  /** One past the last 1 among the first `k` positions, 0 when there is
      none. */
  function LastOne(s: seq<Bit>, k: nat): (r: nat)
    requires k <= |s|
    ensures r <= k
    ensures forall i :: r <= i < k ==> s[i] == 0
    ensures r > 0 ==> s[r - 1] == 1
  {
    if k == 0 then 0 else if s[k - 1] == 1 then k else LastOne(s, k - 1)
  }

  /** Whether a round of `binAdd` sets its `flag`. */
  predicate Carries(a: seq<Bit>, b: seq<Bit>)
    requires |a| == |b| == Width
  {
    exists i :: 0 <= i < Width && a[i] == 1 && b[i] == 1
  }

  /** In a round that carries, the last 1 of the second operand moves up:
      this bounds the recursion of `binAdd`. */
  lemma CarryMovesUp(a: seq<Bit>, b: seq<Bit>)
    requires |a| == |b| == Width && Carries(a, b)
    ensures LastOne(Carry(a, b), Width) < LastOne(b, Width)
  {
    var k := LastOne(b, Width);
    var c := Carry(a, b);
    assert k >= 1;
    assert forall j :: k - 1 <= j < |c| ==> c[j] == 0;
  }

  /** A round without carries is the sum. */
  lemma FinalRound(a: seq<Bit>, b: seq<Bit>)
    requires |a| == |b| == Width && !Carries(a, b)
    ensures Value(Xor(a, b)) == (Value(a) + Value(b)) % 512
  {
    XorAndSum(a, b, 0);
    NoCarries(a, b, 0);
    LowBound(Xor(a, b), 0);
    assert Pow2(9) == 512;
  }

  lemma {:induction false} NoCarries(a: seq<Bit>, b: seq<Bit>, i: nat)
    requires |a| == |b| && forall k :: 0 <= k < |a| ==> !(a[k] == 1 && b[k] == 1)
    ensures Low(And(a, b), i) == 0
    decreases |a| - i
  {
    if i < |a| {
      NoCarries(a, b, i + 1);
    }
  }

  /** The rounds of `binAdd` on two 9-element arrays: add without
      carrying, and while some position carried, add the shifted carries to
      that sum. */
  function AddRounds(a: seq<Bit>, b: seq<Bit>): (r: seq<Bit>)
    requires |a| == |b| == Width
    ensures |r| == Width
    ensures Value(r) == (Value(a) + Value(b)) % 512
    decreases LastOne(b, Width)
  {
    if Carries(a, b) then
      RoundKeepsSum(a, b);
      CarryMovesUp(a, b);
      AddRounds(Xor(a, b), Carry(a, b))
    else
      FinalRound(a, b);
      Xor(a, b)
  }

  /** The bit `binAdd` writes to `arr[i]` for the values `m[i]` and `n[i]`:
      0 when both are 1, otherwise `+!!(m[i] + n[i])`, which is 0 as soon
      as either is `undefined`. */
  function JsSumBit(x: Option<Bit>, y: Option<Bit>): Bit {
    match (x, y)
    case (Some(a), Some(b)) => if a == 1 && b == 1 then 0 else if a + b != 0 then 1 else 0
    case _ => 0
  }

  /** Read position by position, the first round on the shared positions
      is the loop body of `binAdd` on the operands as given: the same
      `arr[i]`, and a carry exactly where `n[i] && m[i]` holds. */
  lemma FirstRoundAsWritten(m: seq<Bit>, n: seq<Bit>, i: nat)
    requires i < Width
    ensures Xor(Shared(m, n), Shared(n, m))[i] == JsSumBit(Read(m, i), Read(n, i))
    ensures And(Shared(m, n), Shared(n, m))[i] == 1 <==> Read(m, i) == Some(1) && Read(n, i) == Some(1)
  {
  }

  /** `binAdd(m, n)` returns the sum, modulo 512, of the positions both
      operands have: the carry out of position 0 is dropped, and a position
      only one operand has counts as 0 in both. */
  function BinAdd(m: seq<Bit>, n: seq<Bit>): (r: seq<Bit>)
    ensures |r| == Width
    ensures Value(r) == (Value(Shared(m, n)) + Value(Shared(n, m))) % 512
    ensures |m| >= Width && |n| >= Width ==> Value(r) == (Value(m[..Width]) + Value(n[..Width])) % 512
  {
    assert |m| >= Width && |n| >= Width ==> Shared(m, n) == m[..Width] && Shared(n, m) == n[..Width];
    AddRounds(Shared(m, n), Shared(n, m))
  }

  const NineZeros: seq<Bit> := [0, 0, 0, 0, 0, 0, 0, 0, 0]
  const NineOne: seq<Bit> := [0, 0, 0, 0, 0, 0, 0, 0, 1]

  /** With a short operand the two adders part: `binAdd([], one)` is 0,
      while the padded operands that `binAdd3` reads add up to 1. */
  lemma ShortOperandDiffers()
    ensures BinAdd([], NineOne) == NineZeros
    ensures (Value(Pad([])) + Value(Pad(NineOne))) % 512 == 1
  {
    assert Shared([], NineOne) == NineZeros && Shared(NineOne, []) == NineZeros;
    assert Value(NineZeros) == 0;
    ValueInjective(BinAdd([], NineOne), NineZeros);
    assert Pad([]) == NineZeros && Pad(NineOne) == NineOne;
    assert Value(NineOne) == 1;
  }

  // ---------------------------------------------------------------------------
  // binAdd3: the ripple-carry adder

  /** One position of the full adder: the bit kept there and the carry
      passed on are together worth the two operand bits and the carry in. */
  lemma AdderStep(a: seq<Bit>, b: seq<Bit>, before: seq<Bit>, after: seq<Bit>, i: nat, cin: Bit, cout: Bit)
    requires i < Width && |a| == |b| == |before| == |after| == Width
    requires forall k :: i < k < Width ==> after[k] == before[k]
    requires (after[i] as int) + 2 * (cout as int) == (a[i] as int) + (b[i] as int) + (cin as int)
    requires Low(before, i + 1) + Weight(cin, 8 - i) == Low(a, i + 1) + Low(b, i + 1)
    ensures Low(after, i) + Weight(cout, 9 - i) == Low(a, i) + Low(b, i)
  {
    LowFrame(after, before, i + 1);
    assert Pow2(9 - i) == 2 * Pow2(8 - i);
  }

  /** When all positions are done, the result array is the array of the
      same width whose value is the sum modulo 512. */
  lemma AdderResult(arr: seq<Bit>, lost: Bit, r: seq<Bit>, sum: int)
    requires |arr| == |r| == Width
    requires Low(arr, 0) + Weight(lost, 9) == sum && Value(r) == sum % 512
    ensures arr == r
  {
    AdderValue(arr, lost, sum);
    ValueInjective(arr, r);
  }

  /** Dropping the lost carry leaves the sum modulo 512. */
  lemma AdderValue(arr: seq<Bit>, lost: Bit, sum: int)
    requires |arr| == Width && Low(arr, 0) + Weight(lost, 9) == sum
    ensures Value(arr) == sum % 512
  {
    LowBound(arr, 0);
    assert Pow2(9) == 512;
    DropMultiple(Value(arr), sum, lost == 1);
  }

  /** The body of `binAdd3`'s loop at position `i`, with `arr[i]` holding
      the carry in: both bits set carry out and keep the carry in as the
      result bit; one bit set with a carry in carries out and leaves 0;
      one bit set without a carry in leaves 1; no bit set leaves the carry
      in.  The carry out goes to `arr[i - 1]`, or is lost at position 0. */
  method AdderPosition(arr: seq<Bit>, lost: Bit, i: nat, x: Bit, y: Bit) returns (res: seq<Bit>, lost2: Bit)
    requires i < |arr| && (i >= 1 ==> arr[i - 1] == 0) && (i == 0 ==> lost == 0)
    ensures |res| == |arr|
    ensures forall k :: 0 <= k < |arr| && k != i && k != i - 1 ==> res[k] == arr[k]
    ensures i == 0 ==> (res[0] as int) + 2 * (lost2 as int) == (x as int) + (y as int) + (arr[0] as int)
    ensures i >= 1 ==> lost2 == lost && (res[i] as int) + 2 * (res[i - 1] as int) == (x as int) + (y as int) + (arr[i] as int)
  {
    res, lost2 := arr, lost;
    if x == 1 && y == 1 {
      if i >= 1 {
        res := res[i - 1 := 1];
      } else {
        lost2 := 1;
      }
    } else if x == 1 || y == 1 {
      if res[i] == 1 {
        if i >= 1 {
          res := res[i - 1 := 1];
        } else {
          lost2 := 1;
        }
        res := res[i := 0];
      } else {
        res := res[i := 1];
      }
    }
  }

  /** `binAdd3(m, n)`: a full adder from position 8 up, keeping the carry in
      the result array at the next position; the carry out of position 0 is
      written to the property "-1" and lost.  Missing positions read as 0,
      so it computes what `binAdd` computes on the padded operands, and
      what `binAdd` computes on the operands themselves when both have all
      nine positions. */
  method BinAdd3(m: seq<Bit>, n: seq<Bit>) returns (r: seq<Bit>)
    ensures |r| == Width && Value(r) == (Value(Pad(m)) + Value(Pad(n))) % 512
    ensures r == BinAdd(Pad(m), Pad(n))
    ensures |m| >= Width && |n| >= Width ==> r == BinAdd(m, n)
  {
    assert Shared(Pad(m), Pad(n)) == Pad(m) && Shared(Pad(n), Pad(m)) == Pad(n);
    assert |m| >= Width && |n| >= Width ==> Shared(m, n) == Pad(m) && Shared(n, m) == Pad(n);
    var arr, lost := Ripple(Pad(m), Pad(n));
    AdderResult(arr, lost, BinAdd(Pad(m), Pad(n)), Low(Pad(m), 0) + Low(Pad(n), 0));
    r := arr;
  }

  /** The loop of `binAdd3` over positions 8 down to 0: the result array
      and the lost carry are together worth the sum of the operands. */
  method Ripple(a: seq<Bit>, b: seq<Bit>) returns (arr: seq<Bit>, lost: Bit)
    requires |a| == |b| == Width
    ensures |arr| == Width
    ensures Low(arr, 0) + Weight(lost, 9) == Low(a, 0) + Low(b, 0)
  {
    arr := [0, 0, 0, 0, 0, 0, 0, 0, 0];
    lost := 0;
    var i := 8;
    while i >= 0
      invariant -1 <= i <= 8
      invariant RippleInv(a, b, arr, lost, i)
    {
      arr, lost := RippleStep(a, b, arr, lost, i);
      i := i - 1;
    }
  }

  /** What `binAdd3`'s loop keeps before position `i`: positions below `i`
      still hold 0, and the positions after `i` with the carry waiting at
      `i` are worth the operands' positions after `i`. */
  ghost predicate RippleInv(a: seq<Bit>, b: seq<Bit>, arr: seq<Bit>, lost: Bit, i: int) {
    && |a| == |b| == |arr| == Width && -1 <= i <= 8
    && (forall k :: 0 <= k < i ==> arr[k] == 0)
    && (i >= 0 ==> lost == 0)
    && Low(arr, i + 1) + Weight(if i >= 0 then arr[i] else lost, 8 - i) == Low(a, i + 1) + Low(b, i + 1)
  }

  /** One pass of the loop body keeps `RippleInv` one position further up. */
  method RippleStep(a: seq<Bit>, b: seq<Bit>, arr: seq<Bit>, lost: Bit, i: nat) returns (arr2: seq<Bit>, lost2: Bit)
    requires i <= 8 && RippleInv(a, b, arr, lost, i)
    ensures RippleInv(a, b, arr2, lost2, i - 1)
  {
    arr2, lost2 := AdderPosition(arr, lost, i, a[i], b[i]);
    AdderStep(a, b, arr, arr2, i, arr[i], if i >= 1 then arr2[i - 1] else lost2);
  }

  // ---------------------------------------------------------------------------
  // pathsB

  /** The number of monotone lattice paths from (0, 0) to (x, y): one along
      either axis, otherwise the paths through the left and the lower
      neighbour. */
  function Paths(x: nat, y: nat): (p: nat)
    ensures p >= 1
  {
    if x == 0 || y == 0 then 1 else Paths(x, y - 1) + Paths(x - 1, y)
  }

  function Fact(n: nat): (f: nat)
    ensures f >= 1
  {
    if n == 0 then 1 else n * Fact(n - 1)
  }

  /** The arithmetic of one step of Pascal's rule on factorials. */
  lemma PascalArithmetic(p: int, q: int, x: int, y: int, fx1: int, fy1: int, f: int)
    requires p * (x * fx1) * fy1 == f && q * fx1 * (y * fy1) == f
    ensures (p + q) * (x * fx1) * (y * fy1) == (x + y) * f
  {
    calc {
      (p + q) * (x * fx1) * (y * fy1);
      p * (x * fx1) * (y * fy1) + q * (x * fx1) * (y * fy1);
      y * (p * (x * fx1) * fy1) + x * (q * fx1 * (y * fy1));
      y * f + x * f;
    }
  }

  /** The path count is the binomial coefficient C(x + y, x). */
  lemma {:induction false} PathsBinomial(x: nat, y: nat)
    ensures Paths(x, y) * Fact(x) * Fact(y) == Fact(x + y)
    decreases x + y
  {
    if x > 0 && y > 0 {
      PathsBinomial(x, y - 1);
      PathsBinomial(x - 1, y);
      PascalArithmetic(Paths(x, y - 1), Paths(x - 1, y), x, y, Fact(x - 1), Fact(y - 1), Fact(x + y - 1));
    }
  }

  /** Paths are symmetric in the two axes. */
  lemma {:induction false} PathsSymmetric(x: nat, y: nat)
    ensures Paths(x, y) == Paths(y, x)
    decreases x + y
  {
    if x > 0 && y > 0 {
      PathsSymmetric(x, y - 1);
      PathsSymmetric(x - 1, y);
    }
  }

  /** Writes `v` at index `y` of a row; an index one past the end
      appends, as a JavaScript array assignment does. */
  function SetAt(row: seq<int>, y: nat, v: int): (r: seq<int>)
    requires y <= |row|
    ensures |r| == if y < |row| then |row| else y + 1
    ensures r[y] == v
    ensures forall k :: 0 <= k < |row| && k != y ==> r[k] == row[k]
  {
    if y < |row| then row[y := v] else row + [v]
  }

  function Max(a: int, b: int): (r: int)
    ensures r >= a && r >= b && (r == a || r == b)
  {
    if a < b then b else a
  }

  /** The inner loop of `pathsB` on row `x`, with `prev` the row above:
      columns `0..n` get the path counts, the rest of the row is kept. */
  method FillRow(row: seq<int>, prev: seq<int>, x: nat, n: nat) returns (r: seq<int>)
    requires x > 0 ==> n <= |prev| && forall q {:trigger prev[q]} :: 0 <= q < n ==> prev[q] == Paths(x - 1, q)
    ensures |r| == Max(|row|, n)
    ensures forall q {:trigger r[q]} :: 0 <= q < n ==> r[q] == Paths(x, q)
    ensures forall q :: n <= q < |row| ==> r[q] == row[q]
  {
    r := row;
    var y := 0;
    while y < n
      invariant 0 <= y <= n
      invariant |r| == Max(|row|, y)
      invariant forall q {:trigger r[q]} :: 0 <= q < y ==> r[q] == Paths(x, q)
      invariant forall q :: y <= q < |row| ==> r[q] == row[q]
    {
      if x != 0 && y != 0 {
        r := SetAt(r, y, r[y - 1] + prev[y]);
      } else {
        r := SetAt(r, y, 1);
      }
      y := y + 1;
    }
  }

  /** `pathsB(n)` on the table `g` (the module-level `matrB`): for
      `0 <= x, y < n` in row order, a cell on row or column 0 becomes 1 and
      any other cell the sum of its left and upper neighbours.  Row
      `matrB[x]` for `x` past the table is `undefined`, and writing into it
      throws a `TypeError`.  The table is changed in place, so `after` is
      `matrB` once the call returns or throws: the rows filled before the
      throw keep their new values.  Rows `0..min(n, |g|)` hold the path
      counts in their first `n` columns and everything else is as it was. */
  method PathsB(g: seq<seq<int>>, n: int) returns (r: Result<seq<seq<int>>>, after: seq<seq<int>>)
    ensures r.Failure? <==> n > |g|
    ensures r.Failure? ==> r.error.TypeError?
    ensures r.Success? ==> r.value == after
    ensures |after| == |g|
    ensures forall x, y {:trigger after[x][y]} :: 0 <= x < n && x < |g| && 0 <= y < n ==>
      y < |after[x]| && after[x][y] == Paths(x, y)
    ensures forall x :: 0 <= x < n && x < |g| ==>
      |after[x]| == Max(|g[x]|, n) && forall y :: n <= y < |g[x]| ==> after[x][y] == g[x][y]
    ensures forall x :: 0 <= x < |g| && n <= x ==> after[x] == g[x]
  {
    var t := g;
    var x := 0;
    while x < n
      invariant 0 <= x && (n >= 0 ==> x <= n) && (n < 0 ==> x == 0) && |t| == |g|
      invariant x <= |g|
      invariant forall p, q {:trigger t[p][q]} :: 0 <= p < x && 0 <= q < n ==> q < |t[p]| && t[p][q] == Paths(p, q)
      invariant forall p :: 0 <= p < x ==> |t[p]| == Max(|g[p]|, n)
      invariant forall p, q :: 0 <= p < x && 0 <= n <= q < |g[p]| ==> t[p][q] == g[p][q]
      invariant forall p :: x <= p < |g| ==> t[p] == g[p]
    {
      if x >= |t| {
        return Failure(TypeError("Cannot set properties of undefined (setting '0')")), t;
      }
      var row := FillRow(t[x], if x > 0 then t[x - 1] else [], x, n);
      t := t[x := row];
      x := x + 1;
    }
    // the loop stops at row |g| before it passes the table's end
    assert n <= |g|;
    r, after := Success(t), t;
  }

  // ---------------------------------------------------------------------------
  // warmestDay

  /** Some later day is warmer than day `i`. */
  ghost predicate HasWarmer(t: seq<int>, i: nat) {
    exists j :: i < j < |t| && t[j] > t[i]
  }

  /** `d` days after day `i` is the first warmer day. */
  ghost predicate FirstWarmer(t: seq<int>, i: nat, d: nat) {
    && 0 < d && i + d < |t| && t[i + d] > t[i]
    && forall k :: i < k < i + d ==> t[k] <= t[i]
  }

  lemma FirstWarmerUnique(t: seq<int>, i: nat, d: nat, e: nat)
    requires FirstWarmer(t, i, d) && FirstWarmer(t, i, e)
    ensures d == e
  {
  }

  lemma FirstWarmerExists(t: seq<int>, i: nat)
    requires HasWarmer(t, i)
    ensures exists d :: FirstWarmer(t, i, d)
  {
    var j :| i < j < |t| && t[j] > t[i];
    var k := i + 1;
    while t[k] <= t[i]
      invariant i < k <= j
      invariant forall p :: i < p < k ==> t[p] <= t[i]
      decreases j - k
    {
      k := k + 1;
    }
    assert FirstWarmer(t, i, k - i);
  }

  ghost function WarmerDistance(t: seq<int>, i: nat): (d: nat)
    requires HasWarmer(t, i)
    ensures FirstWarmer(t, i, d)
  {
    FirstWarmerExists(t, i);
    var d :| FirstWarmer(t, i, d);
    d
  }

  /** The answers for the days from `i` on, in day order: the distance to
      the first warmer day for each day that has one. */
  ghost function WarmerFrom(t: seq<int>, i: nat): seq<nat>
    decreases |t| - i
  {
    if i >= |t| then []
    else (if HasWarmer(t, i) then [WarmerDistance(t, i)] else []) + WarmerFrom(t, i + 1)
  }

  /** `warmestDay(temp)`: for each day, scan forward to the first warmer day
      and record the distance; days without one record nothing.  The list
      it logs is returned. */
  method WarmestDay(t: seq<int>) returns (result: seq<int>)
    ensures result == WarmerFrom(t, 0)
  {
    result := [];
    var i := 0;
    while i < |t|
      invariant 0 <= i <= |t|
      invariant result + WarmerFrom(t, i) == WarmerFrom(t, 0)
    {
      var found, d := ScanWarmer(t, i);
      ghost var rest := WarmerFrom(t, i + 1);
      if found {
        assert WarmerFrom(t, i) == [d] + rest;
        assert (result + [d]) + rest == result + ([d] + rest);
        result := result + [d];
      } else {
        assert WarmerFrom(t, i) == [] + rest;
      }
      i := i + 1;
    }
  }

  /** The inner loop of `warmestDay` for day `i`: scan forward to the first
      warmer day. */
  method ScanWarmer(t: seq<int>, i: nat) returns (found: bool, d: nat)
    requires i < |t|
    ensures found <==> HasWarmer(t, i)
    ensures found ==> d == WarmerDistance(t, i)
  {
    var j := i + 1;
    found := false;
    while j < |t| && !found
      invariant i < j <= |t|
      decreases |t| - j, if found then 0 else 1
      invariant !found ==> forall k :: i < k < j ==> t[k] <= t[i]
      invariant found ==> j < |t| && FirstWarmer(t, i, j - i)
    {
      if t[j] > t[i] {
        found := true;
      } else {
        j := j + 1;
      }
    }
    d := j - i;
    if found {
      FirstWarmerUnique(t, i, d, WarmerDistance(t, i));
    }
  }
}

=== FILE: sortalgos.dfy ===
/** The in-place sorts of src/js/algorithms/sortingalgorithms.js.  Each one
    logs the sorted array instead of returning it; the model returns it.
 */
module SortingAlgorithms {
  import opened SortSpec
  import SortingFactory

  // ---------------------------------------------------------------------------
  // selectionSort

  /** `selectionSort(arr)`: for each position but the last, find the first
      smallest element after it and swap it in when it is elsewhere. */
  method SelectionSort(a0: seq<int>) returns (a: seq<int>)
    ensures |a| == |a0| && multiset(a) == multiset(a0) && Sorted(a)
  {
    a := a0;
    var i := 0;
    while i < |a| - 1
      invariant 0 <= i <= |a| && (|a| > 0 ==> i <= |a| - 1)
      invariant |a| == |a0| && multiset(a) == multiset(a0)
      invariant forall k, m :: 0 <= k < i && k < m < |a| ==> a[k] <= a[m]
    {
      var min := i;
      var j := i + 1;
      while j < |a|
        invariant i <= min < j <= |a|
        invariant forall k :: i <= k < j ==> a[min] <= a[k]
      {
        if a[j] < a[min] {
          min := j;
        }
        j := j + 1;
      }
      if min != i {
        a := Swap(a, i, min);
      }
      i := i + 1;
    }
  }

  // ---------------------------------------------------------------------------
  // doubleSelectionSort

  /** The exchanges that end one round of `doubleSelectionSort`: nothing when
      the minimum is already at `start` and the maximum at `end`; otherwise
      the minimum goes to `start`, then the maximum to `end`, where a maximum
      found at `start` has just been moved to where the minimum was. */
  function PlaceMinMax(a: seq<int>, start: nat, end: nat, min: nat, max: nat): (r: seq<int>)
    requires start <= min <= end < |a| && start <= max <= end
    ensures |r| == |a| && multiset(r) == multiset(a)
  {
    if min != start || max != end then
      var max' := if max == start then min else max;
      Swap(Swap(a, min, start), max', end)
    else a
  }

  /** After a round the smallest value of the range is at `start`, the
      greatest at `end`, everything between stays within those bounds, and
      nothing outside the range moves. */
  lemma PlaceMinMaxBounds(a: seq<int>, start: nat, end: nat, min: nat, max: nat)
    requires start < end < |a| && start <= min <= end && start <= max <= end
    requires forall k :: start <= k <= end ==> a[min] <= a[k] <= a[max]
    requires min == max ==> min == start
    ensures var r := PlaceMinMax(a, start, end, min, max);
      && r[start] == a[min] && r[end] == a[max]
      && (forall k :: start <= k <= end ==> a[min] <= r[k] <= a[max])
      && (forall k :: 0 <= k < |a| && (k < start || end < k) ==> r[k] == a[k])
  {
    var r := PlaceMinMax(a, start, end, min, max);
    if min != start || max != end {
      var a1 := Swap(a, min, start);
      var max' := if max == start then min else max;
      assert a1[max'] == a[max];
      if max' == start {
        assert a[min] == a[max] && a1[end] == a[end];
      }
    }
  }

  /** The scan of one round: the first minimum of `start..end` and, among
      the elements that are not a new minimum, the first maximum. */
  method ScanMinMax(a: seq<int>, start: nat, end: nat) returns (min: nat, max: nat)
    requires start <= end < |a|
    ensures start <= min <= end && start <= max <= end
    ensures min == max ==> min == start
    ensures forall k :: start <= k <= end ==> a[min] <= a[k] <= a[max]
  {
    min, max := start, start;
    var j := start + 1;
    while j <= end
      invariant start < j <= end + 1
      invariant start <= min < j && start <= max < j
      invariant min == max ==> min == start
      invariant forall k :: start <= k < j ==> a[min] <= a[k] <= a[max]
    {
      if a[j] < a[min] {
        min := j;
      } else if a[j] > a[max] {
        max := j;
      }
      j := j + 1;
    }
  }

  /** The loop invariant of `doubleSelectionSort`: the first `start` and the
      last `|a| - 1 - end` elements are final, each at most every later
      element. */
  ghost predicate EndsFinal(a: seq<int>, start: int, end: int)
  {
    && 0 <= start <= end + 1 && start + end == |a| - 1
    && (forall k, m :: 0 <= k < start && k < m < |a| ==> a[k] <= a[m])
    && (forall k, m :: 0 <= k < m < |a| && end < m ==> a[k] <= a[m])
  }

  /** One round extends both final parts by one element. */
  lemma RoundKeepsEndsFinal(a: seq<int>, start: nat, end: nat, min: nat, max: nat)
    requires start < end && EndsFinal(a, start, end)
    requires start <= min <= end && start <= max <= end
    requires min == max ==> min == start
    requires forall k :: start <= k <= end ==> a[min] <= a[k] <= a[max]
    ensures EndsFinal(PlaceMinMax(a, start, end, min, max), start + 1, end - 1)
  {
    PlaceMinMaxBounds(a, start, end, min, max);
    var r := PlaceMinMax(a, start, end, min, max);
    forall k, m | 0 <= k < start + 1 && k < m < |a|
      ensures r[k] <= r[m]
    {
      if k < start && (m < start || m > end) {
        assert r[k] == a[k] && r[m] == a[m];
      }
    }
    forall k, m | 0 <= k < m < |a| && end - 1 < m
      ensures r[k] <= r[m]
    {
      if m > end && (k < start || k > end) {
        assert r[k] == a[k] && r[m] == a[m];
      }
    }
  }

  /** `doubleSelectionSort(arr)`: each round moves the minimum of the range
      `start..end` to `start` and its maximum to `end`, then narrows the
      range from both sides. */
  method DoubleSelectionSort(a0: seq<int>) returns (a: seq<int>)
    ensures |a| == |a0| && multiset(a) == multiset(a0) && Sorted(a)
  {
    a := a0;
    var start: int := 0;
    var end: int := |a| - 1;
    EndsFinalInitially(a);
    while start < end
      invariant |a| == |a0| && EndsFinal(a, start, end)
      invariant multiset(a) == multiset(a0)
    {
      var min, max := ScanMinMax(a, start, end);
      RoundKeepsEndsFinal(a, start, end, min, max);
      var r := PlaceMinMax(a, start, end, min, max);
      assert multiset(r) == multiset(a);
      a := r;
      start := start + 1;
      end := end - 1;
    }
    SortedFromEnds(a, start, end);
  }

  lemma EndsFinalInitially(a: seq<int>)
    ensures EndsFinal(a, 0, |a| - 1)
  {
  }

  /** When the range has at most one element left, the array is sorted. */
  lemma SortedFromEnds(a: seq<int>, start: int, end: int)
    requires EndsFinal(a, start, end) && start >= end
    ensures Sorted(a)
  {
  }

  // ---------------------------------------------------------------------------
  // bubbleSort

  /** The inner loop of `bubbleSort` with bound `len`: adjacent pairs out of
      order are swapped from the front, which carries the greatest of the
      first `len + 1` elements to position `len`; later positions do not
      move. */
  method BubblePass(a0: seq<int>, len: nat) returns (a: seq<int>)
    requires len < |a0|
    ensures |a| == |a0| && multiset(a) == multiset(a0)
    ensures forall k :: 0 <= k <= len ==> a[k] <= a[len]
    ensures a[len + 1..] == a0[len + 1..]
    ensures multiset(a[..len + 1]) == multiset(a0[..len + 1])
  {
    a := a0;
    var i := 0;
    while i < len
      invariant i <= len && |a| == |a0| && multiset(a) == multiset(a0)
      invariant forall k :: 0 <= k <= i ==> a[k] <= a[i]
      invariant a[len + 1..] == a0[len + 1..]
    {
      if a[i] > a[i + 1] {
        a := Swap(a, i, i + 1);
      }
      i := i + 1;
    }
    PrefixMultiset(a, a0, len + 1);
  }

  /** The loop invariant of `bubbleSort`: the elements after `len` are
      final, each at least every earlier element. */
  ghost predicate SuffixFinal(a: seq<int>, len: int)
  {
    && -1 <= len <= |a| - 1
    && forall k, m :: 0 <= k < m < |a| && len < m ==> a[k] <= a[m]
  }

  /** After the pass with bound `len`, the element at `len` is final too. */
  lemma PassExtendsSuffix(a: seq<int>, r: seq<int>, len: nat)
    requires len < |a| == |r| && SuffixFinal(a, len)
    requires forall k :: 0 <= k <= len ==> r[k] <= r[len]
    requires r[len + 1..] == a[len + 1..]
    requires multiset(r[..len + 1]) == multiset(a[..len + 1])
    ensures SuffixFinal(r, len - 1)
  {
    forall m | len < m < |a|
      ensures r[m] == a[m]
    {
      assert r[m] == r[len + 1..][m - len - 1];
    }
    forall m | len < m < |a|
      ensures forall k :: 0 <= k <= len ==> r[k] <= a[m]
    {
      BoundedPermutation(r[..len + 1], a[..len + 1], a[m]);
      forall k | 0 <= k <= len
        ensures r[k] <= a[m]
      {
        assert r[k] == r[..len + 1][k];
      }
    }
  }

  /** `bubbleSort(arr)`: passes with bounds `length - 1` down to 1; after
      the pass with bound `len` the elements from `len` on are final. */
  method BubbleSort(a0: seq<int>) returns (a: seq<int>)
    ensures |a| == |a0| && multiset(a) == multiset(a0) && Sorted(a)
  {
    a := a0;
    var len := |a| - 1;
    while len > 0
      invariant SuffixFinal(a, len)
      invariant |a| == |a0| && multiset(a) == multiset(a0)
    {
      var r := BubblePass(a, len);
      PassExtendsSuffix(a, r, len);
      a := r;
      len := len - 1;
    }
  }

  // ---------------------------------------------------------------------------
  // insertSort and shellSort

  /** `insertSort(arr)`: each element is swapped backwards while it is smaller
      than its predecessor.  At index 0 the predecessor `arr[-1]` is
      `undefined`, the comparison is false and the loop stops, exactly as the
      gap-1 pass does. */
  method InsertSort(a0: seq<int>) returns (a: seq<int>)
    ensures |a| == |a0| && multiset(a) == multiset(a0) && Sorted(a)
  {
    a := GapPass(a0, 1);
  }

  /** The gaps `shellSort(arr, hCallback)()` uses: `step(len)` first, then
      `step(n)` after each pass with gap `n > 1`. */
  function ClosureSteps(h: nat -> nat, len: nat): (r: seq<nat>)
    requires Shrinks(h)
    ensures r != [] && r[|r| - 1] == 1
    ensures forall k :: 0 <= k < |r| ==> r[k] >= 1
  {
    var n := NextStep(h, len);
    [n] + SortingFactory.Steps(h, n)
  }

  /** For arrays of two or more elements the closure runs exactly the passes
      of the factory's Shell sort; on shorter arrays its single extra pass
      has nothing to compare. */
  lemma ClosureMatchesFactory(h: nat -> nat, len: nat)
    requires Shrinks(h) && len > 1
    ensures ClosureSteps(h, len) == SortingFactory.Steps(h, len)
  {
  }

  /** `shellSort(arr, hCallback)()`: one gapped pass per step; the last
      step is always 1, so the array ends ascending. */
  method ShellSortClosure(a0: seq<int>, h: nat -> nat) returns (a: seq<int>)
    requires Shrinks(h)
    ensures |a| == |a0| && multiset(a) == multiset(a0) && Sorted(a)
  {
    var steps := ClosureSteps(h, |a0|);
    a := a0;
    var k := 0;
    while k < |steps|
      invariant 0 <= k <= |steps|
      invariant |a| == |a0| && multiset(a) == multiset(a0)
      invariant k > 0 && steps[k - 1] == 1 ==> Sorted(a)
    {
      a := GapPass(a, steps[k]);
      k := k + 1;
    }
  }
}

=== FILE: sorting.dfy ===
/** The sorting entries of src/js/algorithms/sorting.js: `Sorting.swap` and
    the 'heap sorting', 'Shell sorting' and 'insertion sorting' entries, run
    with the factory's default comparator `(a, b) => a < b`.
 */
module SortingFactory {
  import opened Wrappers
  import opened SortSpec
  import HeapOrder

  /** `Sorting.swap(arr, a, b)`: the same array with two positions
      exchanged, a permutation of it that the same swap undoes. */
  function SwapEntries(a: seq<int>, i: nat, j: nat): (r: seq<int>)
    requires i < |a| && j < |a|
    ensures |r| == |a| && r[i] == a[j] && r[j] == a[i]
    ensures forall k :: 0 <= k < |a| && k != i && k != j ==> r[k] == a[k]
    ensures multiset(r) == multiset(a)
    ensures Swap(r, i, j) == a
  {
    Swap(a, i, j)
  }

  // ---------------------------------------------------------------------------
  // Heap sorting

  /** `heapify(arr, ind, heapSize)`: a falsy heap size stands for the whole
      array; otherwise the shared sift-down within the first `heapSize`
      elements. */
  method Heapify(a: seq<int>, ind: nat, heapSize: nat) returns (r: seq<int>)
    requires ind < (if heapSize == 0 then |a| else heapSize) <= |a|
    ensures var n := if heapSize == 0 then |a| else heapSize;
      |r| == |a| && multiset(r[..n]) == multiset(a[..n]) && r[n..] == a[n..]
    ensures var n := if heapSize == 0 then |a| else heapSize;
      HeapOrder.HeapFrom(a, n, ind + 1) ==> HeapOrder.HeapFrom(r, n, ind)
  {
    var n := if heapSize == 0 then |a| else heapSize;
    r := HeapOrder.Sink(a, n, ind);
  }

  /** `buildHeap(arr)`: heapify from `floor(len / 2) - 1` down to the root. */
  method BuildHeap(a0: seq<int>) returns (a: seq<int>)
    ensures |a| == |a0| && multiset(a) == multiset(a0)
    ensures HeapOrder.IsHeap(a, |a|)
  {
    a := a0;
    var ind: nat := |a| / 2;
    HeapOrder.LeavesAreHeaps(a, |a|);
    while ind > 0
      invariant |a| == |a0| && multiset(a) == multiset(a0)
      invariant ind <= |a| / 2 && HeapOrder.HeapFrom(a, |a|, ind)
    {
      ind := ind - 1;
      var a1 := Heapify(a, ind, 0);
      assert a1[..|a|] == a1 && a[..|a|] == a;
      a := a1;
    }
  }

  /** The loop invariant of the heap sort: the first `hs + 1` elements form
      a heap, and every later element is final, at least every element before
      it. */
  ghost predicate HeapSortInv(a: seq<int>, hs: nat)
  {
    && hs < |a| && HeapOrder.IsHeap(a, hs + 1)
    && forall k, m :: 0 <= k < m < |a| && hs < m ==> a[k] <= a[m]
  }

  /** Moving the root behind the heap and sinking the new root makes one more
      element final. */
  lemma HeapSortStep(a: seq<int>, a2: seq<int>, hs: nat)
    requires 0 < hs && HeapSortInv(a, hs)
    requires |a2| == |a| && HeapOrder.IsHeap(a2, hs)
    requires multiset(a2[..hs]) == multiset(Swap(a, 0, hs)[..hs]) && a2[hs..] == Swap(a, 0, hs)[hs..]
    ensures HeapSortInv(a2, hs - 1)
  {
    var a1 := Swap(a, 0, hs);
    HeapOrder.RootMovesOut(a, hs + 1);
    BoundedPermutation(a2[..hs], a1[..hs], a1[hs]);
    forall m | hs <= m < |a|
      ensures a2[m] == a1[m]
    {
      assert a2[m] == a2[hs..][m - hs];
    }
    forall k | 0 <= k < hs
      ensures a2[k] <= a1[hs]
    {
      assert a2[k] == a2[..hs][k];
    }
  }

  /** `sort(arr)` of 'heap sorting': build a max-heap, then repeatedly move
      the root behind the shrinking heap.  The loop `while (--heapSize)`
      never reaches zero on an empty array, so that call does not return:
      `None` stands for it. */
  method HeapSort(a0: seq<int>) returns (r: Option<seq<int>>)
    ensures r.None? <==> |a0| == 0
    ensures r.Some? ==> |r.value| == |a0| && multiset(r.value) == multiset(a0) && Sorted(r.value)
  {
    if |a0| == 0 {
      return None;
    }
    var a := BuildHeap(a0);
    var hs: nat := |a| - 1;
    while hs != 0
      invariant HeapSortInv(a, hs)
      invariant |a| == |a0| && multiset(a) == multiset(a0)
    {
      var a1 := SwapEntries(a, 0, hs);
      var a2 := Heapify(a1, 0, hs);
      PrefixPermutes(a2, a1, hs);
      HeapSortStep(a, a2, hs);
      a := a2;
      hs := hs - 1;
    }
    r := Some(a);
  }

  // ---------------------------------------------------------------------------
  // Shell sorting

  /** `defaultHCallback(len)`. */
  function HalfDown(n: nat): nat {
    n / 2
  }

  lemma HalfDownShrinks()
    ensures Shrinks(HalfDown)
  {
  }

  /** The steps `stepGenerator(callback, len)` yields: starting from `len`,
      each step is the callback of the previous one (or 1), while the
      previous one is above 1. */
  function Steps(h: nat -> nat, len: nat): (r: seq<nat>)
    requires Shrinks(h)
    ensures len <= 1 <==> r == []
    ensures forall k :: 0 <= k < |r| ==> 1 <= r[k] < len
    ensures forall k :: 0 < k < |r| ==> r[k] < r[k - 1]
    ensures r != [] ==> r[|r| - 1] == 1
    decreases len
  {
    if len <= 1 then []
    else
      var step := NextStep(h, len);
      [step] + Steps(h, step)
  }

  /** With the default callback the steps halve: the first is `len / 2` (or
      1) and each later one is half the one before (or 1). */
  lemma {:induction false} DefaultStepsHalve(len: nat)
    requires len > 1 && Shrinks(HalfDown)
    ensures Steps(HalfDown, len)[0] == if len / 2 == 0 then 1 else len / 2
    ensures forall k :: 0 < k < |Steps(HalfDown, len)| ==>
      Steps(HalfDown, len)[k] == if Steps(HalfDown, len)[k - 1] / 2 == 0 then 1 else Steps(HalfDown, len)[k - 1] / 2
    decreases len
  {
    var step := if len / 2 == 0 then 1 else len / 2;
    var r := Steps(HalfDown, len);
    assert r == [step] + Steps(HalfDown, step);
    if step > 1 {
      DefaultStepsHalve(step);
    }
  }

  /** `sort(arr, compare, hCallback)` of 'Shell sorting': one gapped pass per
      generated step.  An array of at most one element gets no step and comes
      back unchanged. */
  method ShellSort(a0: seq<int>, h: nat -> nat) returns (a: seq<int>)
    requires Shrinks(h)
    ensures |a| == |a0| && multiset(a) == multiset(a0) && Sorted(a)
    ensures |a0| <= 1 ==> a == a0
  {
    var steps := Steps(h, |a0|);
    a := a0;
    var k := 0;
    while k < |steps|
      invariant 0 <= k <= |steps|
      invariant |a| == |a0| && multiset(a) == multiset(a0)
      invariant k > 0 && steps[k - 1] == 1 ==> Sorted(a)
      invariant k == 0 ==> a == a0
    {
      a := GapPass(a, steps[k]);
      k := k + 1;
    }
  }

  // ---------------------------------------------------------------------------
  // Insertion sorting

  /** One outer iteration: the key at `j` moves left past every greater
      element before it and lands at `i`; the elements it passed move one
      place right. */
  method InsertKey(a: seq<int>, j: nat) returns (r: seq<int>, i: nat)
    requires j < |a|
    ensures i <= j
    ensures r == a[..i] + [a[j]] + a[i..j] + a[j + 1..]
    ensures i > 0 ==> a[i - 1] <= a[j]
    ensures forall k :: i <= k < j ==> a[j] < a[k]
  {
    var key := a[j];
    r := a;
    i := j;
    while i > 0 && key < r[i - 1]
      invariant i <= j && |r| == |a|
      invariant forall k :: 0 <= k < i ==> r[k] == a[k]
      invariant forall k :: i < k <= j ==> r[k] == a[k - 1]
      invariant forall k :: j < k < |a| ==> r[k] == a[k]
      invariant forall k :: i <= k < j ==> key < a[k]
    {
      r := r[i := r[i - 1]];
      i := i - 1;
    }
    r := r[i := key];
    assert r == a[..i] + [a[j]] + a[i..j] + a[j + 1..];
  }

  lemma InsertKeyPermutes(a: seq<int>, j: nat, i: nat)
    requires i <= j < |a|
    ensures multiset(a[..i] + [a[j]] + a[i..j] + a[j + 1..]) == multiset(a)
  {
    assert a == a[..i] + a[i..j] + [a[j]] + a[j + 1..];
  }

  /** Inserting into a sorted prefix extends it by one. */
  lemma InsertKeySorts(a: seq<int>, j: nat, i: nat, r: seq<int>)
    requires i <= j < |a| && Sorted(a[..j])
    requires r == a[..i] + [a[j]] + a[i..j] + a[j + 1..]
    requires i > 0 ==> a[i - 1] <= a[j]
    requires forall k :: i <= k < j ==> a[j] < a[k]
    ensures Sorted(r[..j + 1])
  {
    assert forall k :: 0 <= k < i ==> r[k] == a[k];
    assert r[i] == a[j];
    assert forall k :: i < k <= j ==> r[k] == a[k - 1];
  }

  /** Where an element before the key ends up. */
  function Moved(p: nat, i: nat): nat {
    if p < i then p else p + 1
  }

  /** The elements before the key keep their values and their order. */
  lemma InsertKeyMoves(a: seq<int>, j: nat, i: nat, r: seq<int>, p: nat)
    requires i <= j < |a| && p < j
    requires r == a[..i] + [a[j]] + a[i..j] + a[j + 1..]
    ensures Moved(p, i) <= j && r[Moved(p, i)] == a[p]
  {
  }

  /** The passes of the insertion sort for keys `first`, `first + 1`, ....
      A sorted start prefix gives a sorted array; a descent in the start
      prefix is never repaired, because keys only move left past greater
      elements and the elements they pass keep their order. */
  method InsertionPasses(a0: seq<int>, first: nat) returns (a: seq<int>)
    ensures |a| == |a0| && multiset(a) == multiset(a0)
    ensures Sorted(a0[..if first <= |a0| then first else |a0|]) ==> Sorted(a)
    ensures first <= |a0| && !Sorted(a0[..first]) ==> !Sorted(a)
  {
    a := a0;
    if first >= |a0| {
      assert a0[..|a0|] == a0;
      return;
    }
    ghost var descent := !Sorted(a0[..first]);
    ghost var p: nat, q: nat := 0, 0;
    if descent {
      p, q :| 0 <= p < q < first && a0[p] > a0[q];
    }
    var j := first;
    while j < |a|
      invariant first <= j <= |a| == |a0| && multiset(a) == multiset(a0)
      invariant Sorted(a0[..first]) ==> Sorted(a[..j])
      invariant descent ==> p < q < j && a[p] > a[q]
    {
      var r, i := InsertKey(a, j);
      InsertKeyPermutes(a, j, i);
      if Sorted(a0[..first]) {
        InsertKeySorts(a, j, i, r);
      }
      if descent {
        InsertKeyMoves(a, j, i, r, p);
        InsertKeyMoves(a, j, i, r, q);
        p, q := Moved(p, i), Moved(q, i);
      }
      a := r;
      j := j + 1;
    }
    assert a[..j] == a;
  }

  /** `sort(arr)` of 'insertion sorting' as written: the first key taken is
      at index 2 (`j = 1; while (++j < len)`), so the first two elements are
      never compared with each other.  The result is a permutation, and it
      is ascending exactly when the first two elements already were. */
  method InsertionSort(a0: seq<int>) returns (a: seq<int>)
    ensures |a| == |a0| && multiset(a) == multiset(a0)
    ensures Sorted(a) <==> |a0| < 2 || a0[0] <= a0[1]
  {
    a := InsertionPasses(a0, 2);
    if |a0| >= 2 {
      assert Sorted(a0[..2]) <==> a0[0] <= a0[1];
    }
  }

  /** The evidently intended insertion sort, whose first key is at index 1:
      an ascending permutation for every input. */
  method InsertionSortFromOne(a0: seq<int>) returns (a: seq<int>)
    ensures |a| == |a0| && multiset(a) == multiset(a0) && Sorted(a)
  {
    a := InsertionPasses(a0, 1);
  }
}

=== FILE: sortspec.dfy ===
/** What the sorting routines promise, and the gapped insertion pass that
    both Shell sorts (src/js/algorithms/sorting.js and
    src/js/algorithms/sortingalgorithms.js) perform for each step.

    Values are numbers compared with `<`, modelled as `int`; "ascending"
    means no later element is smaller than an earlier one.
 */
module SortSpec {

  ghost predicate Sorted(s: seq<int>) {
    forall i, j :: 0 <= i < j < |s| ==> s[i] <= s[j]
  }

  /** Sortedness is the absence of an adjacent descent. */
  lemma {:induction false} AdjacentSorted(s: seq<int>)
    requires forall i :: 0 < i < |s| ==> s[i - 1] <= s[i]
    ensures Sorted(s)
  {
    forall i, j | 0 <= i < j < |s|
      ensures s[i] <= s[j]
    {
      var k := i;
      while k < j
        invariant i <= k <= j && s[i] <= s[k]
      {
        k := k + 1;
      }
    }
  }

  /** An upper bound of every element bounds every element of a
      permutation. */
  lemma BoundedPermutation(x: seq<int>, y: seq<int>, hi: int)
    requires multiset(x) == multiset(y)
    requires forall i :: 0 <= i < |y| ==> y[i] <= hi
    ensures forall i :: 0 <= i < |x| ==> x[i] <= hi
  {
    forall i | 0 <= i < |x|
      ensures x[i] <= hi
    {
      assert x[i] in multiset(y);
    }
  }

  /** A Shell-sort step callback must shrink every step above 1, or the
      sort never finishes. */
  ghost predicate Shrinks(h: nat -> nat) {
    forall n: nat :: n > 1 ==> h(n) < n
  }

  /** The next gap: the callback's answer, with 0 replaced by 1 (the
      `|| 1` of both Shell sorts). */
  function NextStep(h: nat -> nat, n: nat): (r: nat)
    requires Shrinks(h)
    ensures r >= 1 && (n > 1 ==> r < n)
  {
    if h(n) == 0 then 1 else h(n)
  }

  function Swap(a: seq<int>, i: nat, j: nat): (r: seq<int>)
    requires i < |a| && j < |a|
    ensures |r| == |a| && r[i] == a[j] && r[j] == a[i]
    ensures forall k :: 0 <= k < |a| && k != i && k != j ==> r[k] == a[k]
    ensures multiset(r) == multiset(a)
  {
    a[i := a[j]][j := a[i]]
  }

  /** Equal multisets and equal tails give equal prefixes as multisets. */
  lemma PrefixMultiset(a: seq<int>, b: seq<int>, n: nat)
    requires n <= |a| == |b| && multiset(a) == multiset(b) && a[n..] == b[n..]
    ensures multiset(a[..n]) == multiset(b[..n])
  {
    assert a == a[..n] + a[n..];
    assert b == b[..n] + b[n..];
    assert multiset(a) == multiset(a[..n]) + multiset(a[n..]);
    assert multiset(b) == multiset(b[..n]) + multiset(b[n..]);
    assert multiset(a[..n]) == multiset(a) - multiset(a[n..]);
    assert multiset(b[..n]) == multiset(b) - multiset(b[n..]);
  }

  /** Permuting a prefix and keeping the tail permutes the whole. */
  lemma PrefixPermutes(a: seq<int>, b: seq<int>, n: nat)
    requires n <= |a| == |b| && multiset(a[..n]) == multiset(b[..n]) && a[n..] == b[n..]
    ensures multiset(a) == multiset(b)
  {
    assert a == a[..n] + a[n..];
    assert b == b[..n] + b[n..];
  }

  /** One pass with gap `g`: every element from index `g` on is swapped
      backwards in steps of `g` while it is smaller than the element `g`
      before it.  The pass permutes the array; with gap 1 it is an insertion
      sort and leaves the array ascending. */
  method GapPass(a0: seq<int>, g: nat) returns (a: seq<int>)
    requires g >= 1
    ensures |a| == |a0| && multiset(a) == multiset(a0)
    ensures g == 1 ==> Sorted(a)
  {
    a := a0;
    var i := g;
    while i < |a|
      invariant |a| == |a0| && multiset(a) == multiset(a0)
      invariant g == 1 ==> 1 <= i && (i <= |a| || |a| == 0) && Sorted(a[..if i <= |a| then i else |a|])
    {
      a := SiftBack(a, i, g);
      i := i + 1;
    }
  }

  /** One insertion of `a[i]` among the elements `g`, `2g`, ... before it:
      swapped back while it is smaller than the element `g` places before. */
  method SiftBack(a0: seq<int>, i: nat, g: nat) returns (a: seq<int>)
    requires 1 <= g <= i < |a0|
    requires g == 1 ==> Sorted(a0[..i])
    ensures |a| == |a0| && multiset(a) == multiset(a0)
    ensures g == 1 ==> Sorted(a[..i + 1])
  {
    a := a0;
    var b: int := i;
    var s: int := i - g;
    while s >= 0 && a[b] < a[s]
      invariant |a| == |a0| && multiset(a) == multiset(a0)
      invariant 0 <= b <= i && s == b - g
      invariant g == 1 ==> forall x, y :: 0 <= x < y <= i && x != b && y != b ==> a[x] <= a[y]
      invariant g == 1 ==> forall y :: b < y <= i ==> a[b] < a[y]
      decreases b
    {
      a := Swap(a, s, b);
      b := s;
      s := s - g;
    }
  }
}

=== FILE: timers.dfy ===
/** The time display of `ReverseTimer`, from src/js/timers/timers.js.

    A count of seconds left is shown as days, hours, minutes and seconds,
    each padded with a leading "0" when below 10.  The quotients are taken
    with `~~`, which truncates toward zero and then wraps into the signed
    32-bit range; the remainders with `%`, which truncates toward zero.
 */
module Timers {
  import Decimal
  import opened JsNumber

  const SecondsPerDay := 86400
  const SecondsPerHour := 3600
  const SecondsPerMinute := 60
  const Two31 := 0x8000_0000
  const Two32 := 0x1_0000_0000

  /** `~~x` for an integral number `x`: `ToInt32`. */
  function ToInt32(x: int): (r: int)
    ensures -Two31 <= r < Two31
    ensures (r - x) % Two32 == 0
    ensures -Two31 <= x < Two31 ==> r == x
  {
    (x + Two31) % Two32 - Two31
  }

  /** `zeroBefore(numb)`: a "0" in front of numbers below 10. */
  function ZeroBefore(n: int): (s: string)
    ensures (|s| >= 2 && s[0] == '0') <==> n < 10
    ensures 0 <= n < 100 ==> |s| == 2 && Decimal.AllDigits(s) && Decimal.DigitsValue(s) == n
  {
    var digits := Decimal.IntToString(n);
    if n < 0 then
      "0" + digits
    else if n < 10 then
      Decimal.NatRoundTrip(n);
      assert ("0" + digits)[..1] == "0";
      "0" + digits
    else
      Decimal.NatRoundTrip(n);
      digits
  }

  /** The four numbers `display(sec)` shows. */
  datatype Clock = Clock(days: int, hours: int, minutes: int, seconds: int)

  function Split(sec: int): Clock {
    Clock(
      ToInt32(TruncDiv(sec, SecondsPerDay)),
      ToInt32(TruncDiv(TruncRem(sec, SecondsPerDay), SecondsPerHour)),
      TruncRem(ToInt32(TruncDiv(sec, SecondsPerMinute)), 60),
      TruncRem(sec, SecondsPerMinute))
  }

  /** For a count that `~~` does not wrap, the four numbers recombine to it,
      with hours below 24 and minutes and seconds below 60. */
  lemma SplitRecombines(sec: int)
    requires 0 <= sec && sec / SecondsPerMinute < Two31
    ensures var c := Split(sec);
      && c.days * SecondsPerDay + c.hours * SecondsPerHour + c.minutes * SecondsPerMinute + c.seconds == sec
      && c.days >= 0 && 0 <= c.hours < 24 && 0 <= c.minutes < 60 && 0 <= c.seconds < 60
  {
    TruncAgreesOnNaturals(sec, SecondsPerDay);
    TruncAgreesOnNaturals(sec % SecondsPerDay, SecondsPerHour);
    TruncAgreesOnNaturals(sec, SecondsPerMinute);
    TruncAgreesOnNaturals(sec / SecondsPerMinute, 60);
    var q, s := sec / 60, sec % 60;
    var d, u := q / 1440, q % 1440;
    var hh, mm := u / 60, u % 60;
    assert sec == 86400 * d + (3600 * hh + 60 * mm + s);
    DivByParts(sec, 86400, d, 3600 * hh + 60 * mm + s);
    DivByParts(3600 * hh + 60 * mm + s, 3600, hh, 60 * mm + s);
    assert q == 60 * (24 * d + hh) + mm;
    DivByParts(q, 60, 24 * d + hh, mm);
  }

  /** Division by a positive divisor is fixed by any quotient and remainder
      in range. */
  lemma DivByParts(a: int, b: int, q: int, r: int)
    requires b > 0 && a == q * b + r && 0 <= r < b
    ensures a / b == q && a % b == r
  {
    var q2, r2 := a / b, a % b;
    assert q2 * b + r2 == q * b + r;
    if q < q2 {
      MulStep(q, q2, b);
    } else if q2 < q {
      MulStep(q2, q, b);
    }
  }

  lemma MulStep(x: int, y: int, b: int)
    requires x < y && b > 0
    ensures y * b >= x * b + b
  {
    var k := y - x - 1;
    assert y * b == x * b + k * b + b;
    assert k * b >= 0;
  }

  /** The texts the four output elements receive. */
  datatype Fields = Fields(days: string, hours: string, minutes: string, seconds: string)

  /** `display(sec)`. */
  function Display(sec: int): (f: Fields) {
    var c := Split(sec);
    Fields(ZeroBefore(c.days), ZeroBefore(c.hours), ZeroBefore(c.minutes), ZeroBefore(c.seconds))
  }

  /** Below 100 days every field is two digits, and the digits read back
      give the count of seconds. */
  lemma DisplayReadsBack(sec: int)
    requires 0 <= sec < 100 * SecondsPerDay
    ensures var f := Display(sec);
      && |f.days| == 2 && |f.hours| == 2 && |f.minutes| == 2 && |f.seconds| == 2
      && Decimal.AllDigits(f.days) && Decimal.AllDigits(f.hours)
      && Decimal.AllDigits(f.minutes) && Decimal.AllDigits(f.seconds)
      && Decimal.DigitsValue(f.days) * SecondsPerDay + Decimal.DigitsValue(f.hours) * SecondsPerHour
         + Decimal.DigitsValue(f.minutes) * SecondsPerMinute + Decimal.DigitsValue(f.seconds) == sec
  {
    SplitRecombines(sec);
    var c := Split(sec);
    assert c.days < 100;
  }

  /** `resetTimer()` shows "00" in all four fields. */
  lemma ResetShowsZeros()
    ensures Display(0) == Fields("00", "00", "00", "00")
  {
    SplitRecombines(0);
    var c := Split(0);
    assert c.days == 0 && c.hours == 0 && c.minutes == 0 && c.seconds == 0;
    ZeroBeforeZero();
  }

  lemma ZeroBeforeZero()
    ensures ZeroBefore(0) == "00"
  {
    var s := ZeroBefore(0);
    assert |s| == 2 && s[0] == '0';
    assert Decimal.DigitsValue(s) == 0;
    assert Decimal.DigitsValue(s[..1]) == 0;
    assert s[1] == '0';
  }
}

=== FILE: utility.dfy ===
/** `isVoid` and the type-handler registry of `CustomJSON`, from
    src/js/utility/utility.js.

    `CustomJSON` keeps a `Map` from type names to a pair of functions: an
    encoder that turns a value of that type into something JSON can hold,
    and a decoder that turns it back.  While encoding, a value whose
    constructor's name is registered is replaced by a wrapper object
    `{JSONdecodeType, JSONdecodeValue}`; while decoding, such a wrapper is
    replaced by its decoder's result.  A `Map` keeps its keys in insertion
    order; writing an existing key replaces its value in place.
 */
module Utility {
  import opened Wrappers

  // ---------------------------------------------------------------------------
  // Values and isVoid

  /** A number: `NaN`, an infinity, or a finite value (`-0` and `0` are not
      told apart). */
  datatype Num = NaN | Infinity | NegInfinity | Finite(x: real)

  /** A JavaScript value; an object is known by the `name` of its
      constructor, absent for objects without one. */
  datatype JsValue =
    | Undefined
    | Null
    | Boolean(b: bool)
    | Number(n: Num)
    | String(s: string)
    | BigInt(i: int)
    | Object(ctorName: Option<string>)

  /** The `SameValueZero` comparison a `Set` uses for membership: like
      `===` except that `NaN` matches `NaN`. */
  predicate SameValueZero(a: JsValue, b: JsValue) {
    a == b
  }

  /** The members of the `voidValues` set. */
  const VoidValues := [Undefined, Null, Number(NaN), Number(Infinity), Number(NegInfinity)]

  /** `isVoid(value)`: membership in the set of void values. */
  predicate IsVoid(v: JsValue) {
    exists k :: 0 <= k < |VoidValues| && SameValueZero(v, VoidValues[k])
  }

  /** `isVoid` holds exactly for `undefined`, `null`, `NaN`, `Infinity` and
      `-Infinity`; every finite number, string, boolean, bigint and object
      is not void. */
  lemma IsVoidExactly(v: JsValue)
    ensures IsVoid(v) <==> v.Undefined? || v.Null? || (v.Number? && !v.n.Finite?)
  {
    if v.Number? && !v.n.Finite? {
      match v.n
      case NaN => assert SameValueZero(v, VoidValues[2]);
      case Infinity => assert SameValueZero(v, VoidValues[3]);
      case NegInfinity => assert SameValueZero(v, VoidValues[4]);
    } else if v.Undefined? {
      assert SameValueZero(v, VoidValues[0]);
    } else if v.Null? {
      assert SameValueZero(v, VoidValues[1]);
    }
  }

  /** `value?.constructor?.name`: the name of the constructor of a primitive's
      wrapper or of an object, and nothing for `undefined` and `null`. */
  function ConstructorName(v: JsValue): Option<string> {
    match v
    case Undefined => None
    case Null => None
    case Boolean(_) => Some("Boolean")
    case Number(_) => Some("Number")
    case String(_) => Some("String")
    case BigInt(_) => Some("BigInt")
    case Object(name) => name
  }

  // ---------------------------------------------------------------------------
  // The handler registry

  datatype Handler = Handler(e: JsValue -> JsValue, d: JsValue -> JsValue)

  datatype Entry = Entry(name: string, handler: Handler)

  /** The `handlers` map as its entries in insertion order. */
  type Registry = seq<Entry>

  ghost predicate Distinct(reg: Registry) {
    forall i, j :: 0 <= i < j < |reg| ==> reg[i].name != reg[j].name
  }

  /** `getTypeNames()`: the registered names in insertion order. */
  function Names(reg: Registry): (names: seq<string>)
    ensures |names| == |reg| && forall i :: 0 <= i < |reg| ==> names[i] == reg[i].name
  {
    if reg == [] then [] else Names(reg[..|reg| - 1]) + [reg[|reg| - 1].name]
  }

  function IndexOf(reg: Registry, name: string): (i: int)
    ensures -1 <= i < |reg|
    ensures i == -1 <==> forall j :: 0 <= j < |reg| ==> reg[j].name != name
    ensures i >= 0 ==> reg[i].name == name && forall j :: 0 <= j < i ==> reg[j].name != name
    decreases |reg|
  {
    if reg == [] then -1
    else if reg[0].name == name then 0
    else
      var k := IndexOf(reg[1..], name);
      if k < 0 then -1 else k + 1
  }

  /** `handlers.get(name)`. */
  function Get(reg: Registry, name: string): (r: Option<Handler>)
    ensures r.None? <==> forall j :: 0 <= j < |reg| ==> reg[j].name != name
    ensures Distinct(reg) ==> forall j :: 0 <= j < |reg| && reg[j].name == name ==> r == Some(reg[j].handler)
  {
    var i := IndexOf(reg, name);
    if i < 0 then None else Some(reg[i].handler)
  }

  /** `hasType(typeStr)`. */
  function HasType(reg: Registry, name: string): (b: bool)
    ensures b <==> name in Names(reg)
  {
    IndexOf(reg, name) >= 0
  }

  /** `handlers.set(name, h)`: an existing name keeps its place and takes
      the new handler; a new name goes last. */
  function Put(reg: Registry, name: string, h: Handler): (r: Registry)
    requires Distinct(reg)
    ensures Distinct(r)
    ensures Get(r, name) == Some(h)
    ensures forall n :: n != name ==> Get(r, n) == Get(reg, n)
    ensures Names(r) == if name in Names(reg) then Names(reg) else Names(reg) + [name]
  {
    var i := IndexOf(reg, name);
    var r := if i >= 0 then reg[i := Entry(name, h)] else reg + [Entry(name, h)];
    PutSpec(reg, name, h, i, r);
    r
  }

  lemma GetAt(reg: Registry, j: nat)
    requires Distinct(reg) && j < |reg|
    ensures Get(reg, reg[j].name) == Some(reg[j].handler)
  {
  }

  lemma PutSpec(reg: Registry, name: string, h: Handler, i: int, r: Registry)
    requires Distinct(reg) && i == IndexOf(reg, name)
    requires r == if i >= 0 then reg[i := Entry(name, h)] else reg + [Entry(name, h)]
    ensures Distinct(r) && Get(r, name) == Some(h)
    ensures forall n :: n != name ==> Get(r, n) == Get(reg, n)
  {
    var j := if i >= 0 then i else |reg|;
    PutDistinct(reg, name, h, i, r);
    assert r[j] == Entry(name, h);
    GetAt(r, j);
    forall n | n != name
      ensures Get(r, n) == Get(reg, n)
    {
      PutOther(reg, name, h, i, r, n);
    }
  }

  lemma PutDistinct(reg: Registry, name: string, h: Handler, i: int, r: Registry)
    requires Distinct(reg) && i == IndexOf(reg, name)
    requires r == if i >= 0 then reg[i := Entry(name, h)] else reg + [Entry(name, h)]
    ensures Distinct(r)
  {
    assert forall k :: 0 <= k < |reg| ==> r[k].name == reg[k].name;
  }

  /** Writing `name` leaves the lookup of every other name alone. */
  lemma PutOther(reg: Registry, name: string, h: Handler, i: int, r: Registry, n: string)
    requires Distinct(reg) && Distinct(r) && i == IndexOf(reg, name) && n != name
    requires r == if i >= 0 then reg[i := Entry(name, h)] else reg + [Entry(name, h)]
    ensures Get(r, n) == Get(reg, n)
  {
    if k :| 0 <= k < |reg| && reg[k].name == n {
      assert r[k] == reg[k];
      GetAt(r, k);
      GetAt(reg, k);
    } else {
      assert forall k :: 0 <= k < |r| ==> r[k].name != n by {
        assert forall k :: 0 <= k < |reg| ==> r[k].name == reg[k].name;
      }
    }
  }

  /** `handlers.delete(name)`: the entry goes, the others keep their
      order. */
  function Delete(reg: Registry, name: string): (r: Registry)
    requires Distinct(reg)
    ensures Distinct(r)
    ensures Get(r, name) == None
    ensures forall n :: n != name ==> Get(r, n) == Get(reg, n)
    ensures Names(r) == Without(Names(reg), [name])
  {
    var i := IndexOf(reg, name);
    if i < 0 then
      WithoutAbsent(Names(reg), name);
      reg
    else
      var r := reg[..i] + reg[i + 1..];
      WithoutOne(reg, i);
      DeleteSpec(reg, name, i, r);
      r
  }

  lemma DeleteSpec(reg: Registry, name: string, i: nat, r: Registry)
    requires Distinct(reg) && i < |reg| && reg[i].name == name && r == reg[..i] + reg[i + 1..]
    ensures Distinct(r) && Get(r, name) == None
    ensures forall n :: n != name ==> Get(r, n) == Get(reg, n)
  {
    assert forall k :: 0 <= k < |r| ==> r[k] == if k < i then reg[k] else reg[k + 1];
    forall n | n != name
      ensures Get(r, n) == Get(reg, n)
    {
      if k :| 0 <= k < |reg| && reg[k].name == n {
        var k2 := if k < i then k else k - 1;
        assert r[k2] == reg[k];
        GetAt(r, k2);
        GetAt(reg, k);
      }
    }
  }

  /** The names of `s` not in `drop`, in order. */
  function Without(s: seq<string>, drop: seq<string>): (r: seq<string>)
    ensures forall x :: x in r <==> x in s && x !in drop
  {
    if s == [] then []
    else if s[|s| - 1] in drop then Without(s[..|s| - 1], drop)
    else Without(s[..|s| - 1], drop) + [s[|s| - 1]]
  }

  lemma {:induction false} WithoutAbsent(s: seq<string>, name: string)
    requires name !in s
    ensures Without(s, [name]) == s
  {
    if s != [] {
      WithoutAbsent(s[..|s| - 1], name);
      assert s == s[..|s| - 1] + [s[|s| - 1]];
    }
  }

  lemma {:induction false} WithoutAppend(s: seq<string>, t: seq<string>, drop: seq<string>)
    ensures Without(s + t, drop) == Without(s, drop) + Without(t, drop)
    decreases |t|
  {
    if t != [] {
      var t0 := t[..|t| - 1];
      assert (s + t)[..|s + t| - 1] == s + t0;
      WithoutAppend(s, t0, drop);
    } else {
      assert s + t == s;
    }
  }

  lemma NamesAppend(x: Registry, y: Registry)
    ensures Names(x + y) == Names(x) + Names(y)
  {
    assert forall k :: 0 <= k < |x + y| ==> Names(x + y)[k] == (Names(x) + Names(y))[k];
  }

  lemma WithoutOne(reg: Registry, i: nat)
    requires Distinct(reg) && i < |reg|
    ensures Names(reg[..i] + reg[i + 1..]) == Without(Names(reg), [reg[i].name])
  {
    var s := Names(reg);
    NamesSplit(reg, i);
    SplitAt(s, i);
    NameOnce(reg, i);
    WithoutMiddle(s[..i], s[i], s[i + 1..]);
  }

  /** In a registry with distinct names, entry `i`'s name is nowhere else. */
  lemma NameOnce(reg: Registry, i: nat)
    requires Distinct(reg) && i < |reg|
    ensures Names(reg)[i] !in Names(reg)[..i] && Names(reg)[i] !in Names(reg)[i + 1..]
  {
    var s := Names(reg);
    forall k | 0 <= k < |s| && k != i
      ensures s[k] != s[i]
    {
    }
  }

  /** Cutting out entry `i` cuts out its name. */
  lemma NamesSplit(reg: Registry, i: nat)
    requires i < |reg|
    ensures Names(reg[..i] + reg[i + 1..]) == Names(reg)[..i] + Names(reg)[i + 1..]
  {
    NamesAppend(reg[..i], reg[i + 1..]);
    NamesTake(reg, i);
    NamesDrop(reg, i + 1);
  }

  lemma NamesTake(reg: Registry, i: nat)
    requires i <= |reg|
    ensures Names(reg[..i]) == Names(reg)[..i]
  {
    var a, b := Names(reg[..i]), Names(reg)[..i];
    forall k | 0 <= k < |a|
      ensures a[k] == b[k]
    {
      assert reg[..i][k] == reg[k];
    }
  }

  lemma NamesDrop(reg: Registry, i: nat)
    requires i <= |reg|
    ensures Names(reg[i..]) == Names(reg)[i..]
  {
    var a, b := Names(reg[i..]), Names(reg)[i..];
    forall k | 0 <= k < |a|
      ensures a[k] == b[k]
    {
      assert reg[i..][k] == reg[i + k];
    }
  }

  lemma LastSplit<T>(s: seq<T>)
    requires s != []
    ensures s == s[..|s| - 1] + [s[|s| - 1]]
  {
  }

  lemma SplitAt<T>(s: seq<T>, i: nat)
    requires i < |s|
    ensures s == s[..i] + [s[i]] + s[i + 1..]
  {
  }

  lemma WithoutMiddle(a: seq<string>, name: string, b: seq<string>)
    requires name !in a && name !in b
    ensures Without(a + [name] + b, [name]) == a + b
  {
    WithoutAbsent(a, name);
    WithoutAbsent(b, name);
    WithoutAppend(a + [name], b, [name]);
    WithoutAppend(a, [name], [name]);
    assert Without([name], [name]) == [];
  }

  /** The handler the last entry of `arr` with that name carries. */
  function LastHandler(arr: seq<Entry>, name: string): Option<Handler> {
    if arr == [] then None
    else if arr[|arr| - 1].name == name then Some(arr[|arr| - 1].handler)
    else LastHandler(arr[..|arr| - 1], name)
  }

  /** The names of `s` in order of first occurrence, each once: a name is
      kept exactly where no earlier position holds it. */
  function Dedup(s: seq<string>): (r: seq<string>)
    ensures forall x :: x in r <==> x in s
  {
    if s == [] then []
    else
      var front := s[..|s| - 1];
      if s[|s| - 1] in front then Dedup(front) else Dedup(front) + [s[|s| - 1]]
  }

  /** A sequence without repeats is its own first-occurrence order. */
  lemma {:induction false} DedupDistinct(s: seq<string>)
    requires forall i, j :: 0 <= i < j < |s| ==> s[i] != s[j]
    ensures Dedup(s) == s
  {
    if s != [] {
      var front := s[..|s| - 1];
      DedupDistinct(front);
      assert s == front + [s[|s| - 1]];
    }
  }

  /** `addHandlers(arr)`: every entry is written in turn, so a name given
      twice ends with its last handler; names not given keep theirs.  As a
      `Map` keeps insertion order, the names are the registered ones
      followed by the new ones in the order they are first given. */
  function AddHandlers(reg: Registry, arr: seq<Entry>): (r: Registry)
    requires Distinct(reg)
    ensures Distinct(r)
    ensures forall n :: Get(r, n) == if LastHandler(arr, n).Some? then LastHandler(arr, n) else Get(reg, n)
    ensures |r| >= |reg| && Names(r)[..|reg|] == Names(reg)
    ensures forall n :: n in Names(r) <==> n in Names(reg) || n in Names(arr)
    ensures Names(r) == Dedup(Names(reg) + Names(arr))
  {
    if arr == [] then
      DedupDistinct(Names(reg));
      assert Names(reg) + Names(arr) == Names(reg);
      reg
    else
      var front := arr[..|arr| - 1];
      var e := arr[|arr| - 1];
      var r0 := AddHandlers(reg, front);
      var r := Put(r0, e.name, e.handler);
      AddStep(reg, arr, r0, r);
      AddStepOrder(reg, arr, r0, r);
      r
  }

  lemma AddStep(reg: Registry, arr: seq<Entry>, r0: Registry, r: Registry)
    requires arr != [] && Distinct(reg) && Distinct(r0)
    requires var front := arr[..|arr| - 1];
      && (forall n :: Get(r0, n) == if LastHandler(front, n).Some? then LastHandler(front, n) else Get(reg, n))
      && |r0| >= |reg| && Names(r0)[..|reg|] == Names(reg)
      && (forall n :: n in Names(r0) <==> n in Names(reg) || n in Names(front))
    requires r == Put(r0, arr[|arr| - 1].name, arr[|arr| - 1].handler)
    ensures forall n :: Get(r, n) == if LastHandler(arr, n).Some? then LastHandler(arr, n) else Get(reg, n)
    ensures |r| >= |reg| && Names(r)[..|reg|] == Names(reg)
    ensures forall n :: n in Names(r) <==> n in Names(reg) || n in Names(arr)
  {
    AddStepGet(reg, arr, r0, r);
    AddStepNames(reg, arr, r0, r);
  }

  lemma AddStepGet(reg: Registry, arr: seq<Entry>, r0: Registry, r: Registry)
    requires arr != [] && Distinct(r0)
    requires forall n :: Get(r0, n) == if LastHandler(arr[..|arr| - 1], n).Some? then LastHandler(arr[..|arr| - 1], n) else Get(reg, n)
    requires r == Put(r0, arr[|arr| - 1].name, arr[|arr| - 1].handler)
    ensures forall n :: Get(r, n) == if LastHandler(arr, n).Some? then LastHandler(arr, n) else Get(reg, n)
  {
    var e := arr[|arr| - 1];
    forall n
      ensures Get(r, n) == if LastHandler(arr, n).Some? then LastHandler(arr, n) else Get(reg, n)
    {
      if n != e.name {
        assert LastHandler(arr, n) == LastHandler(arr[..|arr| - 1], n);
      }
    }
  }

  lemma AddStepNames(reg: Registry, arr: seq<Entry>, r0: Registry, r: Registry)
    requires arr != [] && Distinct(r0)
    requires var front := arr[..|arr| - 1];
      && |r0| >= |reg| && Names(r0)[..|reg|] == Names(reg)
      && (forall n :: n in Names(r0) <==> n in Names(reg) || n in Names(front))
    requires r == Put(r0, arr[|arr| - 1].name, arr[|arr| - 1].handler)
    ensures |r| >= |reg| && Names(r)[..|reg|] == Names(reg)
    ensures forall n :: n in Names(r) <==> n in Names(reg) || n in Names(arr)
  {
    var front, e := arr[..|arr| - 1], arr[|arr| - 1];
    var s0 := Names(r0);
    if e.name !in s0 {
      PrefixOfAppend(s0, [e.name], |reg|);
    }
    assert forall n :: n in Names(r) <==> n in s0 || n == e.name;
    assert Names(arr) == Names(front) + [e.name];
  }

  /** One entry more extends the first-occurrence order by its name when
      the name is new. */
  lemma AddStepOrder(reg: Registry, arr: seq<Entry>, r0: Registry, r: Registry)
    requires arr != [] && Distinct(r0)
    requires Names(r0) == Dedup(Names(reg) + Names(arr[..|arr| - 1]))
    requires r == Put(r0, arr[|arr| - 1].name, arr[|arr| - 1].handler)
    ensures Names(r) == Dedup(Names(reg) + Names(arr))
  {
    var front, x := arr[..|arr| - 1], arr[|arr| - 1].name;
    assert Names(arr) == Names(front) + [x];
    AppendAssoc(Names(reg), Names(front), [x]);
    DedupSnoc(Names(reg) + Names(front), x);
  }

  lemma DedupSnoc(s: seq<string>, x: string)
    ensures Dedup(s + [x]) == if x in s then Dedup(s) else Dedup(s) + [x]
  {
    assert (s + [x])[..|s|] == s;
  }

  lemma AppendAssoc<T>(a: seq<T>, b: seq<T>, c: seq<T>)
    ensures a + (b + c) == (a + b) + c
  {
  }

  lemma PrefixOfAppend<T>(s: seq<T>, t: seq<T>, k: nat)
    requires k <= |s|
    ensures (s + t)[..k] == s[..k]
  {
  }

  /** `removeByName(...typeName)`: each given name is deleted, absent ones
      changing nothing; the remaining names keep their order. */
  function RemoveByName(reg: Registry, names: seq<string>): (r: Registry)
    requires Distinct(reg)
    ensures Distinct(r)
    ensures forall n :: Get(r, n) == if n in names then None else Get(reg, n)
    ensures Names(r) == Without(Names(reg), names)
  {
    if names == [] then
      WithoutAbsentAll(Names(reg));
      reg
    else
      var front := names[..|names| - 1];
      var r0 := RemoveByName(reg, front);
      var r := Delete(r0, names[|names| - 1]);
      WithoutTwice(Names(reg), front, names[|names| - 1]);
      LastSplit(names);
      r
  }

  lemma {:induction false} WithoutAbsentAll(s: seq<string>)
    ensures Without(s, []) == s
  {
    if s != [] {
      WithoutAbsentAll(s[..|s| - 1]);
      assert s == s[..|s| - 1] + [s[|s| - 1]];
    }
  }

  lemma {:induction false} WithoutTwice(s: seq<string>, drop: seq<string>, name: string)
    ensures Without(Without(s, drop), [name]) == Without(s, drop + [name])
  {
    if s != [] {
      var s0 := s[..|s| - 1];
      WithoutTwice(s0, drop, name);
      var x := s[|s| - 1];
      if x !in drop {
        WithoutAppend(Without(s0, drop), [x], [name]);
        if x == name {
          assert Without([x], [name]) == [];
        } else {
          assert Without([x], [name]) == [x] by {
            assert [x][..0] == [];
          }
        }
      }
    }
  }

  /** `removeAll()`. */
  function RemoveAll(reg: Registry): (r: Registry)
    ensures Names(r) == [] && forall n :: Get(r, n) == None
  {
    []
  }

  /** `newHandlers(arr)`: the registry afterwards holds exactly the entries
      of `arr`, each name with its last handler and in the order the names
      are first given, whatever it held before. */
  function NewHandlers(reg: Registry, arr: seq<Entry>): (r: Registry)
    ensures Distinct(r)
    ensures forall n :: Get(r, n) == LastHandler(arr, n)
    ensures forall n :: n in Names(r) <==> n in Names(arr)
    ensures Names(r) == Dedup(Names(arr))
  {
    assert Names(RemoveAll(reg)) + Names(arr) == Names(arr);
    AddHandlers(RemoveAll(reg), arr)
  }

  /** `replaceHandler({n, e, d})`: for a registered name, each of `e` and
      `d` that is a function replaces that half of the handler; an unknown
      name changes nothing. */
  function ReplaceHandler(reg: Registry, n: string, e: Option<JsValue -> JsValue>, d: Option<JsValue -> JsValue>): (r: Registry)
    requires Distinct(reg)
    ensures Distinct(r) && Names(r) == Names(reg)
    ensures Get(reg, n).None? ==> r == reg
    ensures forall m :: m != n ==> Get(r, m) == Get(reg, m)
    ensures Get(reg, n).Some? ==>
      var h := Get(reg, n).value;
      Get(r, n) == Some(Handler(if e.Some? then e.value else h.e, if d.Some? then d.value else h.d))
  {
    match Get(reg, n)
    case None => reg
    case Some(h) =>
      var h1 := if e.Some? then h.(e := e.value) else h;
      var h2 := if d.Some? then h1.(d := d.value) else h1;
      Put(reg, n, h2)
  }

  // ---------------------------------------------------------------------------
  // convert / toOriginal

  /** What the encoding hook hands to `JSON.stringify`, and what the
      decoding hook receives from `JSON.parse`: a wrapper object
      `{JSONdecodeType, JSONdecodeValue}`, or any other value. */
  datatype Converted = Wrapp(JSONdecodeType: string, JSONdecodeValue: JsValue) | Kept(v: JsValue)

  const NoDecoder := "Cannot read properties of undefined (reading 'd')"

  /** `convert(value)`: a value whose constructor's name is registered is
      wrapped with its encoder's result; any other value is kept. */
  function Convert(reg: Registry, v: JsValue): (r: Converted)
    ensures r.Wrapp? <==> ConstructorName(v).Some? && HasType(reg, ConstructorName(v).value)
    ensures r.Wrapp? ==> r.JSONdecodeType == ConstructorName(v).value
  {
    match ConstructorName(v)
    case Some(name) =>
      if HasType(reg, name) then Wrapp(name, Get(reg, name).value.e(v)) else Kept(v)
    case None => Kept(v)
  }

  /** `toOriginal(value)`: a wrapper with a non-empty type name goes through
      that type's decoder, which must be registered; anything else is
      returned as it is. */
  function ToOriginal(reg: Registry, c: Converted): (r: Result<Converted>)
    ensures r.Failure? <==> c.Wrapp? && c.JSONdecodeType != "" && !HasType(reg, c.JSONdecodeType)
    ensures r.Failure? ==> r == Failure(TypeError(NoDecoder))
    ensures c.Kept? || (c.Wrapp? && c.JSONdecodeType == "") ==> r == Success(c)
  {
    match c
    case Wrapp(t, w) =>
      if t == "" then Success(c)
      else
        var h := Get(reg, t);
        if h.Some? then Success(Kept(h.value.d(w))) else Failure(TypeError(NoDecoder))
    case Kept(_) => Success(c)
  }

  /** With the registry unchanged in between, decoding what was encoded
      gives the decoder's image of the encoder's result, hence the value
      itself when the handler's decoder undoes its encoder.  A type named by
      the empty string is the exception: it is wrapped but never
      unwrapped. */
  lemma ConvertRoundTrip(reg: Registry, v: JsValue)
    requires Distinct(reg)
    requires ConstructorName(v) != Some("")
    ensures var r := ToOriginal(reg, Convert(reg, v));
      && r.Success?
      && (Convert(reg, v).Kept? ==> r.value == Kept(v))
      && (Convert(reg, v).Wrapp? ==>
            var h := Get(reg, ConstructorName(v).value).value;
            r.value == Kept(h.d(h.e(v))))
  {
  }

  /** A wrapped value is decoded by exactly the handler it was encoded by. */
  lemma InverseHandlerRoundTrip(reg: Registry, v: JsValue)
    requires Distinct(reg)
    requires ConstructorName(v).Some? && ConstructorName(v).value != ""
    requires var name := ConstructorName(v).value;
      Get(reg, name).Some? && forall x :: Get(reg, name).value.d(Get(reg, name).value.e(x)) == x
    ensures ToOriginal(reg, Convert(reg, v)) == Success(Kept(v))
  {
    ConvertRoundTrip(reg, v);
  }

  // ---------------------------------------------------------------------------
  // The singleton

  /** `new CustomJSON(typeHandlers)`: the first construction registers the
      given handlers and becomes `CustomJSON.instance`; every later one
      returns that instance and ignores its argument.  `slot` is the
      instance already recorded, if any. */
  function NewCustomJSON(slot: Option<Registry>, typeHandlers: seq<Entry>): (r: (Option<Registry>, Registry))
    ensures slot.Some? ==> r.0 == slot && r.1 == slot.value
    ensures slot.None? ==> r.0 == Some(r.1) && Distinct(r.1)
    ensures slot.None? ==> forall n :: Get(r.1, n) == LastHandler(typeHandlers, n)
  {
    match slot
    case Some(instance) => (slot, instance)
    case None =>
      var instance := AddHandlers([], typeHandlers);
      (Some(instance), instance)
  }

  /** Whatever handlers later constructions pass, they all return the
      first instance. */
  lemma SingletonStable(first: seq<Entry>, later: seq<seq<Entry>>)
    ensures var (slot, instance) := NewCustomJSON(None, first);
      forall k :: 0 <= k < |later| ==> NewCustomJSON(slot, later[k]) == (slot, instance)
  {
  }
}

=== FILE: wrappers.dfy ===
/** Failure-carrying datatypes shared by every module of the model.

    A JavaScript `throw` is modelled as a `Failure` carrying the kind of the
    thrown error object and, where the source uses a constant text, its message.
 */
module Wrappers {

  datatype Option<+T> = None | Some(value: T)

  /** The built-in error constructors the modelled code throws. */
  datatype Exception =
    | TypeError(message: string)
    | RangeError(message: string)
    | PlainError(message: string)
    | SyntaxError(message: string)

  datatype Result<+R> = Success(value: R) | Failure(error: Exception) {
    predicate IsFailure() {
      Failure?
    }

    function PropagateFailure<U>(): Result<U>
      requires Failure?
    {
      Failure(error)
    }

    function Extract(): R
      requires Success?
    {
      value
    }
  }
}
